=== FILE: README.md ===
# WhisperLiveKit-GUI `/asr` result protocol in Dafny

This project models the streaming transcription protocol of WhisperLiveKit-GUI.

The backend (`whisper_fastapi_online_server.py`) takes audio over the `/asr` WebSocket. It groups the transcribed tokens into speaker lines and sends JSON results, only when they change. A zero-length binary frame asks it to finish, and it answers `{"type": "ready_to_stop"}`.

Three clients read these results, each in its own way:

- the Avalonia desktop client (`MainWindow.axaml.cs`). It reassembles fragmented messages, reads `lines[].text` and both buffers, stops at `ready_to_stop`, and tears the session down in a fixed order.
- the Tk client (`gui.py`). It shows only `buffer_transcription` or a top-level `text`.
- the Whisper-compatible HTTP bridge (`wrapper/api/server.py`). It streams PCM in 3200-byte frames, collects texts by Python truthiness, and joins them into one answer.

Around the protocol sit the pure libraries the components use:

- word-timing lists (`timed_objects.py`, `src/whisper/timestaped_words.py`);
- model-cache naming and the faster-whisper weight check (`wrapper/app/model_manager.py`);
- the clients' configuration string logic and backend command line;
- the requirements and licence logic of `wrapper/scripts/generate_licenses.py`.

There is one Dafny module per source file:

| module | file |
|---|---|
| `Backend` | whisper_fastapi_online_server.py |
| `DesktopClient` | MainWindow.axaml.cs |
| `TkClient` | gui.py |
| `ApiBridge` | wrapper/api/server.py |
| `TimedObjects` | timed_objects.py |
| `TimestampedWords` | src/whisper/timestaped_words.py |
| `ModelManager` | wrapper/app/model_manager.py |
| `Licenses` | wrapper/scripts/generate_licenses.py |

Shared modules:

- `Base`: options, results and bytes.
- `Text`: trimming, splitting, joining, ASCII case and number formatting.
- `Json`: JSON values; an object is a member list whose last binding wins, as in both `System.Text.Json` and Python's `json`.
- `Protocol`: lemmas that connect the producer to each consumer.

I/O is not modelled. Anything outside the program is a parameter:

- the socket, as a sequence of fragments or frames;
- UTF-8 decoding plus JSON parsing on the desktop side (`parse`);
- the file system, as sets of paths;
- the clock (`now`);
- ffmpeg, and the WAV parser past the first chunk header (`parseRiff`);
- Python's Unicode `str.isalnum` (`isAlnum`);
- whether the desktop receiver is inside `ReceiveAsync` when the stop click lands (`receivePending`);
- `format_time` (`fmt`);
- package metadata.

## Model

| member | source | states |
|---|---|---|
| Backend.UpdateTranscription | whisper_fastapi_online_server.py:115-121 | The new tokens are appended after the old ones; buffer, buffer end, full text and separator are replaced; every other field is unchanged |
| Backend.UpdateDiarization | whisper_fastapi_online_server.py:123-127 | The attributed-speaker end is always set; the diarization buffer is overwritten only by a non-empty text, and nothing else changes |
| Backend.UpdateDiarizationKeepsBuffer | whisper_fastapi_online_server.py:123-127 | A later empty diarization buffer never erases an earlier one: two updates equal one update with the later end and the earlier text |
| Backend.CurrentLags | whisper_fastapi_online_server.py:141-166 | Input, transcription and diarization lags are never negative. Each is zero or the unclamped difference. Input lag is zero while the clock is stopped |
| Backend.LagsMonotone | whisper_fastapi_online_server.py:141-166 | With the state fixed, all three lags are non-decreasing in wall-clock time |
| Backend.LagsCaughtUp | whisper_fastapi_online_server.py:141-166 | With recording stopped and the buffer end at or past the recorded duration, the transcription lag is zero |
| Backend.Reset | whisper_fastapi_online_server.py:168-181 | Tokens, both buffers, the buffer end and the last sent content are always cleared. Full transcription and attributed end are cleared only when content is reset |
| Backend.ResetRestoresInitial | whisper_fastapi_online_server.py:168-181 | A full reset gives the initial state except clock, separator and duration. A partial and a full reset, in either order, equal a full reset |
| Backend.StartRecording | whisper_fastapi_online_server.py:183-188 | Starting keeps the transcription content, empties the tokens, restarts the duration and the clock, and the input lag is then zero |
| Backend.StopRecording | whisper_fastapi_online_server.py:190-194 | Stopping clears only the clock, and afterwards the input lag is zero at every time |
| Backend.UpdateAudioDuration | whisper_fastapi_online_server.py:196-198 | The recorded duration grows by the given seconds; nothing else changes |
| Backend.AudioDurationLag | whisper_fastapi_online_server.py:196-198 | With the clock stopped, adding audio never lowers the transcription lag and raises it by at most the added duration |
| Backend.ProcessTranscription | whisper_fastapi_online_server.py:293-304 | The full text only grows, by the new tokens joined with `sep`. The buffer is kept exactly when it is not a substring of the new full text, else it is "". A non-zero buffer end is kept; an unset or zero one falls back to the last new token's end, or 0 without new tokens |
| Backend.BufferSuppressedOnceCommitted | whisper_fastapi_online_server.py:300-301 | A buffer already contained in the full transcription, or empty, is reported as "" whatever new tokens arrive |
| Backend.Group | whisper_fastapi_online_server.py:377-407 | Every token makes at most one line or one undiarized text. Without diarization, any token makes at least one line and nothing is held back |
| Backend.AddTokenCoherent | whisper_fastapi_online_server.py:382-407 | One token step keeps the loop invariant: the last line belongs to the previous speaker and neighbouring lines differ in speaker |
| Backend.GroupCoherent | whisper_fastapi_online_server.py:377-407 | Adjacent lines of a grouping always have different speakers |
| Backend.GroupUndiarized | whisper_fastapi_online_server.py:384-387 | With diarization, the held-back texts are exactly the unassigned tokens ending at or after the attributed end, in order |
| Backend.DiarizedLinesNoSpeakerZero | whisper_fastapi_online_server.py:384-393 | With diarization no line is ever attributed to speaker 0 |
| Backend.GroupLineCount | whisper_fastapi_online_server.py:393-407 | Without diarization the number of lines is one plus the number of speaker changes along the tokens |
| Backend.SingleSpeakerLine | whisper_fastapi_online_server.py:393-407 | Without diarization, tokens of one speaker with non-empty texts form one line: their texts joined by `sep`, from the first start to the last end |
| Backend.ResponseLines | whisper_fastapi_online_server.py:416-438 | A response always has a line: the grouped lines, or one placeholder of speaker 1 with empty text ending at the last token's end |
| Backend.Publish | whisper_fastapi_online_server.py:440-445 | A response is sent exactly when its content differs from the last sent and something is non-empty; the remembered content changes only on a send |
| Backend.PublishIdempotent | whisper_fastapi_online_server.py:442-445 | The same content is never sent twice in a row |
| Backend.FormatRound | whisper_fastapi_online_server.py:376-445 | One formatter round keeps tokens and full text. The diarization buffer it works with is the undiarized texts of the round's grouping, joined by the separator, with one more separator when transcription is pending, or the old buffer when nothing is undiarized. It sends exactly when the content built from the round's lines and buffers differs from the remembered one and something (a line or a buffer) is non-empty, and it then remembers that content. The stored buffer changes only to a non-empty text. Without diarization the buffer is untouched. An empty state sends nothing |
| Backend.FormatRoundTwice | whisper_fastapi_online_server.py:440-445 | Until the state changes, a second round sends nothing |
| Backend.FormatRoundAsWritten | whisper_fastapi_online_server.py:371-375 | As written, any round with at least one token raises AttributeError; otherwise it is the intended round |
| Backend.DummyCheckBlocksResults | whisper_fastapi_online_server.py:371 | As written, adding any token makes every round fail, even a transcription-only session with nothing sent yet |
| Backend.FormatRoundFixed | whisper_fastapi_online_server.py:370-375 | Testing the mode first, a round with transcription on is the intended round; diarization-only fails on the dummy token's constructor |
| Backend.FixedRoundSendsFirstToken | whisper_fastapi_online_server.py:393-445 | Corrected, the first non-empty token of a transcription-only session is sent as its own line |
| Backend.LineJson | whisper_fastapi_online_server.py:394-402 | A line is sent as an object whose `text` is the line text and whose `speaker` is the integer speaker |
| Backend.ResponseJson | whisper_fastapi_online_server.py:416-438 | A response object has no `type` and no `text`. Its `buffer_transcription` and `buffer_diarization` are strings, and its `lines` is an array holding each line's object in order |
| Backend.ReceiveFrames | whisper_fastapi_online_server.py:590-611 | The decoder receives only non-empty frames, at most one per frame received |
| Backend.BinaryFrames | whisper_fastapi_online_server.py:593 | Each block becomes one binary frame, in order |
| Backend.ReceiveAudioThen | whisper_fastapi_online_server.py:590-611 | Non-empty frames are decoded in order up to the first frame that is not audio. An empty binary frame there is a controlled stop. Nothing after it is read |
| Backend.NoStopWithoutEmptyFrame | whisper_fastapi_online_server.py:596-600 | Without a zero-length binary frame the loop never ends in a controlled stop |
| Backend.Farewell | whisper_fastapi_online_server.py:621-651 | `ready_to_stop` is sent exactly after a controlled stop; a disconnect or a failure sends nothing |
| DesktopClient.Reassemble | wrapper/app/avalonia_ui/MainWindow.axaml.cs:670-677 | A message is complete iff some fragment carries EndOfMessage. Its payload is every fragment's bytes up to the first such fragment, in order, and its type is that fragment's type |
| DesktopClient.ReadMessage | wrapper/app/avalonia_ui/MainWindow.axaml.cs:670-677 | The buffered do/while loop yields exactly the reassembled message and the position after it |
| DesktopClient.RunReceiver | wrapper/app/avalonia_ui/MainWindow.axaml.cs:664-720 | The receive task, written as loops, computes the functional receive model |
| DesktopClient.Receive | wrapper/app/avalonia_ui/MainWindow.axaml.cs:664-720 | The receive loop only ever extends the transcript. With no fragments left, the transcript is kept and the transport has ended |
| DesktopClient.ElementString | wrapper/app/avalonia_ui/MainWindow.axaml.cs:694 | `GetString()` succeeds exactly on null and strings, giving the string's text |
| DesktopClient.LineText | wrapper/app/avalonia_ui/MainWindow.axaml.cs:691-697 | Reading a line element throws exactly for a non-object element or a `text` that is neither string nor null |
| DesktopClient.AppendLines | wrapper/app/avalonia_ui/MainWindow.axaml.cs:687-700 | At most one append per element. Every append is a non-blank text plus a newline. The rest of the message is dropped exactly when some element throws |
| DesktopClient.AppendLinesConcat | wrapper/app/avalonia_ui/MainWindow.axaml.cs:689-699 | Elements are processed in order; later elements count only if no earlier one threw |
| DesktopClient.AppendLinesSingle | wrapper/app/avalonia_ui/MainWindow.axaml.cs:691-697 | One element appends its non-blank text with a newline. A blank, null or missing text adds nothing. Anything else throws |
| DesktopClient.BufferAppend | wrapper/app/avalonia_ui/MainWindow.axaml.cs:701-716 | A buffer field is appended, with a newline, exactly when it is a JSON string that is not blank |
| DesktopClient.ApplyMessage | wrapper/app/avalonia_ui/MainWindow.axaml.cs:684-716 | A message stops the loop iff its `type` is the string `ready_to_stop`, and then nothing is appended. Every append ends in a newline. A non-object root changes nothing |
| DesktopClient.ApplyMessageBuffersOnly | wrapper/app/avalonia_ui/MainWindow.axaml.cs:701-716 | Without `type` and `lines`, a message appends the transcription buffer then the diarization buffer, each when a non-blank string |
| DesktopClient.ApplyMessageWithLines | wrapper/app/avalonia_ui/MainWindow.axaml.cs:687-716 | A message with a convertible `lines` array appends its lines, then the transcription buffer, then the diarization buffer |
| DesktopClient.ApplyMessageBadType | wrapper/app/avalonia_ui/MainWindow.axaml.cs:685-686 | A `type` that is neither string nor null throws before anything is applied |
| DesktopClient.ApplyMessageAbortedLines | wrapper/app/avalonia_ui/MainWindow.axaml.cs:687-718 | An element of `lines` that throws keeps the appends made before it and skips both buffers |
| DesktopClient.ApplyMessageOtherType | wrapper/app/avalonia_ui/MainWindow.axaml.cs:685-686 | A string `type` other than `ready_to_stop` is ignored: the message acts like one without a type |
| DesktopClient.ReceiveAppendOnly | wrapper/app/avalonia_ui/MainWindow.axaml.cs:664-720 | The receive loop only ever appends to the transcript |
| DesktopClient.ReceiveSkipsInvalid | wrapper/app/avalonia_ui/MainWindow.axaml.cs:681-718 | A payload that is not valid JSON changes nothing and the loop continues with the next message |
| DesktopClient.ReceiveCloseEnds | wrapper/app/avalonia_ui/MainWindow.axaml.cs:679 | A Close message ends the loop without decoding and without changing the transcript |
| DesktopClient.ReceiveReadyToStop | wrapper/app/avalonia_ui/MainWindow.axaml.cs:685-686 | A `ready_to_stop` message ends the loop with the transcript unchanged |
| DesktopClient.AudioSends | wrapper/app/avalonia_ui/MainWindow.axaml.cs:653-660 | The capture callback only ever attempts audio sends |
| DesktopClient.AudioSendsFrames | wrapper/app/avalonia_ui/MainWindow.axaml.cs:653-660 | The capture sends exactly the buffers captured while the socket was open, in order, and never the end-of-stream frame |
| DesktopClient.Teardown | wrapper/app/avalonia_ui/MainWindow.axaml.cs:732-745 | The teardown starts by stopping capture. It has six steps, or five when stopping the capture throws and the rest of that step is skipped |
| DesktopClient.Session | wrapper/app/avalonia_ui/MainWindow.axaml.cs:614-745 | A session does nothing at all exactly when the endpoint does not parse. A connected session starts capture, and its length is the buffer sends plus the teardown plus the start and the token cancel |
| DesktopClient.SessionConnectFailed | wrapper/app/avalonia_ui/MainWindow.axaml.cs:614-626 | A session that does not connect, through an unparsable endpoint or a failed connect, sends nothing and never reaches the teardown |
| DesktopClient.SessionResetsWindow | wrapper/app/avalonia_ui/MainWindow.axaml.cs:614-626 | The session hands the record button back, by the failure reset or the final "stopped", unless the endpoint does not parse as a URI |
| DesktopClient.TeardownFrames | wrapper/app/avalonia_ui/MainWindow.axaml.cs:732-745 | Whatever throws, the teardown sends exactly one frame, and it is empty |
| DesktopClient.SessionFrames | wrapper/app/avalonia_ui/MainWindow.axaml.cs:653-735 | A connected session attempts its open-socket buffers and then exactly one zero-length frame, whatever teardown steps throw; so does the corrected session |
| DesktopClient.Delivered | wrapper/app/avalonia_ui/MainWindow.axaml.cs:674 | What reaches the server is a prefix of what is attempted. It is all of it unless the token is cancelled while a receive is pending |
| DesktopClient.StopClickAbortsSocket | wrapper/app/avalonia_ui/MainWindow.axaml.cs:466-474 | As written, a stop click while the receiver waits aborts the socket. The server gets the open-socket buffers but not the end-of-stream frame |
| DesktopClient.FixedSessionDelivers | wrapper/app/avalonia_ui/MainWindow.axaml.cs:731-735 | The corrected session never cancels under the socket. The server gets the open-socket buffers, then the end-of-stream frame |
| DesktopClient.TeardownOrder | wrapper/app/avalonia_ui/MainWindow.axaml.cs:732-745 | Stop capture comes first, then end-of-stream, then await receiver, then close; only the dispose may sit between |
| DesktopClient.SessionOrder | wrapper/app/avalonia_ui/MainWindow.axaml.cs:466-735 | In a connected session the token is cancelled first. Then stop capture, end-of-stream, await receiver and close happen, in that order, so the receiver is stopped before the end-of-stream goes out |
| DesktopClient.SessionFixedOrder | wrapper/app/avalonia_ui/MainWindow.axaml.cs:731-735 | The corrected session never cancels and keeps the teardown order |
| DesktopClient.OnRecordClick | wrapper/app/avalonia_ui/MainWindow.axaml.cs:466-490 | A session starts iff idle and the backend runs; the label follows the state; starting clears the transcript; stopping requests cancellation |
| DesktopClient.RecordClickTwice | wrapper/app/avalonia_ui/MainWindow.axaml.cs:466-490 | Start then stop leaves the window idle, cancelled, with the label `Start Recording` |
| DesktopClient.Property | wrapper/app/avalonia_ui/MainWindow.axaml.cs:781-791 | `TryGetProperty` throws exactly on a non-object, and otherwise finds the last binding of the name |
| DesktopClient.GetString | wrapper/app/avalonia_ui/MainWindow.axaml.cs:781-782 | The value is the property's string when it is one, else the default; only a non-object element throws |
| DesktopClient.GetInt | wrapper/app/avalonia_ui/MainWindow.axaml.cs:784-785 | It throws exactly for a non-object or a present non-number. Otherwise it gives a 32-bit value or the default |
| DesktopClient.GetBool | wrapper/app/avalonia_ui/MainWindow.axaml.cs:787-788 | A value other than the default comes only from a JSON boolean with that value |
| DesktopClient.GetDouble | wrapper/app/avalonia_ui/MainWindow.axaml.cs:790-791 | The value is the property's number when it is one, else the default |
| DesktopClient.GetterRoundTrip | wrapper/app/avalonia_ui/MainWindow.axaml.cs:781-791 | A setting written last is read back when of the right kind. A wrong kind gives the default, except that a string read as int throws |
| DesktopClient.ModelName | wrapper/app/avalonia_ui/MainWindow.axaml.cs:404-408 | The model name is a non-empty, space-free prefix of the trimmed line |
| DesktopClient.CollectModels | wrapper/app/avalonia_ui/MainWindow.axaml.cs:392-412 | Every collected model name is non-empty |
| DesktopClient.LoadWhisperModels | wrapper/app/avalonia_ui/MainWindow.axaml.cs:384-418 | The list is never empty; a missing file gives the fallback list |
| DesktopClient.CollectItems | wrapper/app/avalonia_ui/MainWindow.axaml.cs:398-410 | After the heading, the names are the first fields of the non-blank lines up to the first blank line |
| DesktopClient.CollectSkipsPreamble | wrapper/app/avalonia_ui/MainWindow.axaml.cs:398-402 | Lines before the heading contribute nothing |
| DesktopClient.LoadWhisperModelsLayout | wrapper/app/avalonia_ui/MainWindow.axaml.cs:384-418 | For preamble, heading, list, blank line: the list's first fields, or the fallback when the list is empty |
| DesktopClient.Candidates | wrapper/app/avalonia_ui/MainWindow.axaml.cs:209-219 | The eligible addresses (IPv4, not loopback, interface up) in scan order; empty exactly when no address is eligible |
| DesktopClient.InterfaceAddress | wrapper/app/avalonia_ui/MainWindow.axaml.cs:211-219 | The inner loop returns the first eligible address of one interface, or none |
| DesktopClient.LanAddress | wrapper/app/avalonia_ui/MainWindow.axaml.cs:207-222 | The scan returns the first eligible address over all interfaces, and nothing when there is none or the enumeration throws |
| DesktopClient.DisplayHost | wrapper/app/avalonia_ui/MainWindow.axaml.cs:203-226 | A host other than 0.0.0.0 is shown unchanged. The wildcard is shown only when the scan itself found 0.0.0.0, and any other shown host besides 127.0.0.1 is the scan's address |
| DesktopClient.DisplayHostIdempotent | wrapper/app/avalonia_ui/MainWindow.axaml.cs:203-226 | Showing a shown host again gives the same host |
| DesktopClient.DisplayHostWildcard | wrapper/app/avalonia_ui/MainWindow.axaml.cs:203-226 | The wildcard shows the first eligible interface address, or 127.0.0.1 when there is none or the enumeration throws |
| DesktopClient.UpdateEndpoints | wrapper/app/avalonia_ui/MainWindow.axaml.cs:189-201 | The web endpoint is `http://`, the displayed backend host (a wildcard shown as the LAN address or 127.0.0.1), `:` and the port. The WS endpoint is the same host and port with `ws://` and `/asr`. The API endpoint is built the same way from the API host and port, with `/v1/audio/transcriptions` |
| DesktopClient.UpdateEndpointsReadBack | wrapper/app/avalonia_ui/MainWindow.axaml.cs:189-201 | Splitting each shown authority at its last colon gives back the displayed host and the entered port |
| DesktopClient.ToggleAllowExternal | wrapper/app/avalonia_ui/MainWindow.axaml.cs:172-187 | Enabling sets both hosts to 0.0.0.0; disabling restores the saved hosts exactly (an empty one stays empty) |
| DesktopClient.ToggleAllowExternalRestores | wrapper/app/avalonia_ui/MainWindow.axaml.cs:172-187 | Enable then disable gives back both host boxes, a null box as 127.0.0.1 |
| TkClient.ItemName | wrapper/app/gui.py:23-51 | A list item's name is non-empty and holds no whitespace |
| TkClient.CollectItems | wrapper/app/gui.py:23-51 | Every collected name is non-empty |
| TkClient.LoadWhisperModels | wrapper/app/gui.py:23-51 | A file that cannot be read gives the fallback list; a readable file gives only non-empty names |
| TkClient.LoadWhisperModelsNoItems | wrapper/app/gui.py:23-51 | A readable file without `- ` items gives the empty list, not the fallback |
| TkClient.CollectItemsBlankAfterItem | wrapper/app/gui.py:23-51 | A blank line right after an item ends the list |
| TkClient.CollectItemsSkipsText | wrapper/app/gui.py:23-51 | Lines before the first item contribute nothing |
| TkClient.UpdateEndpoints | wrapper/app/gui.py:668-687 | `ws_url` equals the WS endpoint, which is `ws://host:port/asr` for the web endpoint's host and port. The web endpoint ends in `/` and the API endpoint in `/v1/audio/transcriptions`. Without external access the configured hosts are shown |
| TkClient.UpdateEndpointsReadBack | wrapper/app/gui.py:668-687 | Splitting the shown web and API authorities at their last colon gives back the displayed hosts and the configured ports |
| TkClient.ToggleAllowExternal | wrapper/app/gui.py:812-822 | Enabling saves both hosts and sets 0.0.0.0. Disabling restores the saved hosts, or 127.0.0.1 for an empty one, and keeps the saved values |
| TkClient.ToggleAllowExternalRoundTrip | wrapper/app/gui.py:812-822 | Enable then disable restores non-empty hosts and turns empty ones into 127.0.0.1 |
| TkClient.ApplyAllowExternalInitial | wrapper/app/gui.py:1053-1060 | At startup with external access, only hosts equal to 127.0.0.1 or localhost become 0.0.0.0 |
| TkClient.TimerTextRoundTrip | wrapper/app/gui.py:967-972 | The timer text is digits, a colon and two digits. It reads back as minutes times 60 plus seconds, which gives the elapsed time |
| TkClient.TimerText | wrapper/app/gui.py:967-972 | The timer text has at least five characters with a colon third from the end. It is exactly five characters when the elapsed time is under 100 minutes |
| TkClient.ToggleRecording | wrapper/app/gui.py:885-902 | A worker starts exactly when idle; starting resets the timer to `00:00` and clears the transcript; stopping leaves both |
| TkClient.ReceivedText | wrapper/app/gui.py:925-937 | The appended text is non-empty. It is `buffer_transcription` when truthy, else a top-level `text`. Invalid JSON or a non-object gives nothing |
| TkClient.Receive | wrapper/app/gui.py:925-937 | The receiver only appends to the transcript |
| TkClient.ReceiveConcat | wrapper/app/gui.py:925-937 | Receiving two runs of messages is receiving one after the other |
| TkClient.ReceiveReadyToStopContinues | wrapper/app/gui.py:925-937 | `ready_to_stop` adds nothing and the loop continues |
| TkClient.SentFrames | wrapper/app/gui.py:949-953 | Each captured block is a binary frame in order, and the text `{"eof": 1}` comes last |
| TkClient.BackendOptionsParts | wrapper/app/gui.py:592-615 | A flag or option appears in the argument list iff it appears in the model, diarization or VAC part |
| TkClient.BackendOptions | wrapper/app/gui.py:592-615 | At most five arguments. The first is `--model_dir` with the model's path iff a model name is set. The last is `--no-vac` iff VAC is off |
| TkClient.DiarizationArgsShape | wrapper/app/gui.py:604-611 | The diarization part has at most three arguments. None is `--no-vac` or `--model_dir`, and every option in it has a non-empty value |
| TkClient.ModelAndVacGating | wrapper/app/gui.py:601-615 | `--model_dir` appears iff the model is not blank, and `--no-vac` iff VAC is off |
| TkClient.DiarizationGating | wrapper/app/gui.py:604-611 | `--diarization` appears iff diarization is on and logged in. The segmentation and embedding options need that and a non-blank value |
| TkClient.BackendCommand | wrapper/app/gui.py:592-600 | The command starts with the interpreter, `-m whisperlivekit.basic_server`, `--host` and `--port` |
| TkClient.OnDiarizationToggle | wrapper/app/gui.py:802-807 | After the toggle, diarization is on only when logged in; with a login nothing changes |
| TkClient.ApplyHfLoginState | wrapper/app/gui.py:1106-1115 | The login state is recorded. Diarization is forced off without a login and kept with one |
| TkClient.DiarizationNeedsLogin | wrapper/app/gui.py:1106-1115 | After any sequence of clicks and login checks, diarization is on only with a valid login |
| TkClient.ClickTwiceLoggedIn | wrapper/app/gui.py:802-807 | When logged in, two clicks restore the gate |
| ApiBridge.ConnectHost | wrapper/api/server.py:13-22 | A set override wins. Otherwise the bind host is used, with 0.0.0.0, `::` and "" mapped to 127.0.0.1 and an unset bind host giving `localhost` |
| ApiBridge.ConnectHostNotWildcard | wrapper/api/server.py:17-22 | Without an override the connect host is never a wildcard address |
| ApiBridge.BackendWsUrl | wrapper/api/server.py:24-26 | The URL is `wss` exactly when the SSL flag is "1", and it ends in `/asr` |
| ApiBridge.ConvertToPcm16 | wrapper/api/server.py:35-76 | `.raw`/`.pcm` files pass through byte for byte. A 16 kHz mono 16-bit WAV yields its frames. An EOFError from the WAV module escapes. Every failure is an HTTP 400 or 500 or that escaping error, which is answered as 500 |
| ApiBridge.OpenWav | wrapper/api/server.py:41-51 | An upload under 8 bytes raises EOFError. One whose first chunk is not RIFF raises `wave.Error`. Any other is read by the WAV parser |
| ApiBridge.ShortUploadFails | wrapper/api/server.py:41-51 | An upload shorter than a chunk header and without a passthrough name is answered with 500, before ffmpeg is tried |
| ApiBridge.ConvertFallsBackToFfmpeg | wrapper/api/server.py:52-76 | ffmpeg decides exactly the uploads the WAV check declines without raising. For every other upload, ffmpeg makes no difference |
| ApiBridge.PassthroughIgnoresCase | wrapper/api/server.py:38-39 | The passthrough suffix test ignores letter case |
| ApiBridge.Chunks | wrapper/api/server.py:83-85 | There are ceil(n/3200) chunks. Each is non-empty and at most 3200 bytes, and every one but the last is exactly 3200 |
| ApiBridge.ChunksConcatenate | wrapper/api/server.py:83-85 | The chunks concatenate back to the PCM |
| ApiBridge.StreamPcm | wrapper/api/server.py:83-87 | The frames are the chunks followed by exactly one empty frame |
| ApiBridge.LineTexts | wrapper/api/server.py:96-99 | Only truthy texts are kept, at most one per element; the loop raises iff some element is not a dict |
| ApiBridge.LinesValue | wrapper/api/server.py:93-96 | A missing `lines` iterates nothing; only an array yields elements |
| ApiBridge.MessageTexts | wrapper/api/server.py:88-103 | A non-dict raises. The message ends the stream iff its `type` is `ready_to_stop`. Every collected text is truthy |
| ApiBridge.MessageTextsWithLines | wrapper/api/server.py:93-103 | The texts are the lines' texts, then the truthy transcription buffer, then the truthy diarization buffer |
| ApiBridge.CollectTexts | wrapper/api/server.py:88-105 | Every collected text is truthy |
| ApiBridge.CollectStopsAtReady | wrapper/api/server.py:89-92 | Messages after `ready_to_stop` are never read |
| ApiBridge.CollectNeedsReady | wrapper/api/server.py:88-92 | A stream that closes without `ready_to_stop` fails the request |
| ApiBridge.FinalText | wrapper/api/server.py:140 | The join raises iff a truthy text is not a string; the result neither starts nor ends with whitespace |
| ApiBridge.FinalTextOfClean | wrapper/api/server.py:140 | Texts that are already stripped and non-empty come out joined by single spaces |
| ApiBridge.FinalTextBlankMiddle | wrapper/api/server.py:140 | Example: a whitespace-only text still counts and leaves a double space between its neighbours |
| ApiBridge.ExtractApiKey | wrapper/api/server.py:108-116 | A non-empty `x-api-key` wins. Without a bearer prefix there is no key. The only failure is IndexError |
| ApiBridge.BearerRoundTrip | wrapper/api/server.py:113-115 | `Authorization: <scheme> <key>` yields the key, for any letter case of `bearer` and any key without surrounding whitespace |
| ApiBridge.BearerNoBreakSpaceRaises | wrapper/api/server.py:114-115 | As written, `Bearer` followed by a no-break space passes the prefix test and raises IndexError |
| ApiBridge.ExtractApiKeyFixed | wrapper/api/server.py:108-116 | The corrected extraction agrees with the written one wherever that does not raise, and gives no key where it raises |
| ApiBridge.RequireApiKey | wrapper/api/server.py:119-127 | Passes with no key required. Fails with 500 when the required key is unset. With a key configured, passes exactly when the extraction succeeds and yields the configured key. HTTP failures are 401 or 500 |
| ApiBridge.RequireApiKeyFixed | wrapper/api/server.py:119-127 | With the corrected extraction, a configured key passes exactly when the extracted key matches, and every refusal is a 401 |
| ApiBridge.NoBreakSpaceStatus | wrapper/api/server.py:119-127 | As written, `Bearer` plus a no-break space escapes as an error (500) rather than 401; corrected, it is 401 |
| ApiBridge.RequireApiKeyAgrees | wrapper/api/server.py:119-127 | The written and corrected checks agree wherever the written one does not raise |
| ApiBridge.Transcribe | wrapper/api/server.py:130-141 | A successful answer echoes the model, and its text is the final join of the collected texts. A conversion error, or else a collection error, is the answer |
| TimedObjects.WithOffset | timed_objects.py:21-23 | A new token whose start and end are moved by the offset, with the same text, speaker and probability |
| TimedObjects.WithOffsetCompose | timed_objects.py:15-23 | Offsets compose additively and an offset is undone by its negation |
| TimedObjects.InferredSep | timed_objects.py:51-67 | The inferred separator is "" exactly when more than 80% of the words start or end with a space, else " " |
| TimedObjects.InferredSepExtremes | timed_objects.py:51-67 | All space-edged words join with ""; no space-edged word joins with " " |
| TimedObjects.InferSep | timed_objects.py:51-67 | An empty list is left unchanged; otherwise the inferred separator is recorded and the words are kept |
| TimedObjects.GetText | timed_objects.py:104-127 | Empty gives "". Otherwise the words are joined by the given separator, or the stored or inferred one. A stored separator is never replaced, and a non-empty list always has one afterwards |
| TimedObjects.GetTextStable | timed_objects.py:104-127 | Asking for the text again gives the same text and list |
| TimedObjects.GetTextInfers | timed_objects.py:120-123 | With no separator anywhere, the inferred one is used and recorded |
| TimedObjects.Concatenate | timed_objects.py:69-101 | Empty gives no times. Otherwise start and end are the offset plus the first start and the last end, and the text is `get_text`'s. The speaker is the common one or -1. The probability is the mean probability of the words |
| TimedObjects.ProbabilitySum | timed_objects.py:89 | The sum of the set, non-zero probabilities is 0 when no word has one. With probabilities in [0, 1] it lies between 0 and the word count, and it is 0 exactly when no word has one |
| TimedObjects.MeanProbability | timed_objects.py:89-91 | The mean times the word count is the probability sum. It is None when no word has a non-zero probability; with probabilities in [0, 1], only then, and otherwise it lies in (0, 1] |
| TimedObjects.Shift | timed_objects.py:129-146 | Every word is shifted by the same amount; order, count and separator are kept |
| TimedObjects.ShiftCompose | timed_objects.py:129-146 | Shifts compose additively and a shift is undone by its negation |
| TimedObjects.ConcatenateShift | timed_objects.py:69-146 | Concatenating a shifted list is concatenating with a larger offset |
| TimedObjects.GetTextShift | timed_objects.py:104-146 | Shifting leaves the text unchanged |
| TimedObjects.Extend | timed_objects.py:148-164 | Words are appended in order. An empty other is a no-op, an empty self adopts the other's separator, and differing separators become " " |
| TimedObjects.ExtendText | timed_objects.py:148-164 | Extending lists that share a separator gives the two texts joined by it |
| TimedObjects.Slice | timed_objects.py:187-191 | A slice keeps the separator and, within bounds, is the plain sub-sequence |
| TimedObjects.FirstRight | timed_objects.py:209-228 | The split index is the first word whose start (or end) has reached the time |
| TimedObjects.SplitAt | timed_objects.py:193-230 | The two parts concatenate to the list. No left word has reached the time and the first right word has. With no such word the result is (whole, empty). A split keeps the separator on both sides |
| TimedObjects.SplitAtLeftStable | timed_objects.py:193-230 | Splitting the left part again at the same time leaves it whole |
| TimestampedWords.ShiftSegment | src/whisper/timestaped_words.py:31-48 | Both times move by the amount; text and duration are kept |
| TimestampedWords.ShiftSegmentInverse | src/whisper/timestaped_words.py:31-48 | Shifts compose additively and are undone by their negation |
| TimestampedWords.Add | src/whisper/timestaped_words.py:61-72 | A number shifts the segment, a string extends the text keeping the times, and anything else raises TypeError |
| TimestampedWords.AddStrAssociates | src/whisper/timestaped_words.py:69-70 | Adding two strings in turn is adding their concatenation |
| TimestampedWords.SegmentEqMeaning | src/whisper/timestaped_words.py:50-59 | Segments are equal iff their times and texts are. A segment equals a string iff its text does, ignoring times |
| TimestampedWords.InferSep | src/whisper/timestaped_words.py:106-121 | An empty sequence raises ZeroDivisionError. Otherwise the separator is "" exactly when more than half the segments end with a space, else " " |
| TimestampedWords.InferSepHalf | src/whisper/timestaped_words.py:114 | Example: exactly half is not a majority; two of three is |
| TimestampedWords.New | src/whisper/timestaped_words.py:81-86 | As written, an explicit separator is dropped. Without one, the separator is inferred, and an empty sequence raises |
| TimestampedWords.NewFixed | src/whisper/timestaped_words.py:81-86 | Corrected, an explicit separator is stored; without one the written behaviour is kept |
| TimestampedWords.GetText | src/whisper/timestaped_words.py:142-158 | The texts are joined by the given separator, else the stored one; with neither it raises AttributeError |
| TimestampedWords.NewDropsSep | src/whisper/timestaped_words.py:81-86 | As written, a sequence built with `sep="-"` raises AttributeError on `get_text()` |
| TimestampedWords.NewFixedKeepsSep | src/whisper/timestaped_words.py:81-86 | Corrected, every constructed sequence has a separator and `get_text()` joins by the given one |
| TimestampedWords.Concatenate | src/whisper/timestaped_words.py:123-140 | Empty raises TypeError. Otherwise the first start, the last end and `get_text()`'s text; a missing separator raises AttributeError |
| TimestampedWords.Shift | src/whisper/timestaped_words.py:160-177 | Every segment shifts by the same amount; count and separator are kept |
| TimestampedWords.ConcatenateShift | src/whisper/timestaped_words.py:123-177 | Shifting a sequence shifts its concatenation and keeps its text |
| TimestampedWords.ShiftSequenceInverse | src/whisper/timestaped_words.py:160-177 | A shift is undone by its negation |
| TimestampedWords.HelloWorld | tests/whisper/test_timestamped_words.py:59-79 | Example: "Hello"/"World" infer " ", concatenate to (0, 2, "Hello World"), and join with "-" to "Hello-World" |
| ModelManager.ResolveRepoId | wrapper/app/model_manager.py:105-117 | A name with `/` is kept; faster-whisper gives `Systran/faster-whisper-<name>`; otherwise `openai/whisper-<name>` |
| ModelManager.ResolveRepoIdIdempotent | wrapper/app/model_manager.py:105-117 | Every resolved id has an owner, so resolving again, with any backend, changes nothing |
| ModelManager.CacheDirName | wrapper/app/model_manager.py:120-122 | Cache directory names start with `models--` |
| ModelManager.EncodedHead | wrapper/app/model_manager.py:120-122 | The encoding starts with '-' exactly when the id starts with '-' or '/' |
| ModelManager.DecodeEncode | wrapper/app/model_manager.py:120-122 | For ids without `--` and without '-' next to '/', mapping `/` to `--` and back is the identity |
| ModelManager.CacheDirRoundTrip | wrapper/app/model_manager.py:392-397 | Listing a cache directory gives back the repo id it was made for |
| ModelManager.CacheDirAmbiguous | wrapper/app/model_manager.py:392-397 | Example: without that restriction decoding is ambiguous: the id `a--b` is listed as `a/b` |
| ModelManager.AfterLastSlash | wrapper/app/model_manager.py:97 | The last component is a slash-free suffix, and the whole string when it has no slash |
| ModelManager.PtStem | wrapper/app/model_manager.py:97-100 | The `.pt` stem has no slash |
| ModelManager.PtRoundTrip | wrapper/app/model_manager.py:399-401 | The `.pt` file of an OpenAI model is listed under that model's repo id |
| ModelManager.MapUnsafe | wrapper/app/model_manager.py:195-201 | Length is kept. Every result character is safe, a character is kept exactly when it is safe, and every changed one is '-' |
| ModelManager.MapUnsafeIdempotent | wrapper/app/model_manager.py:195-201 | A name of safe characters maps to itself, so mapping twice is mapping once |
| ModelManager.SanitizeWellFormed | wrapper/app/model_manager.py:197-205 | A sanitised name is non-empty and uses only alphanumerics, `-`, `_` and `.`. It does not start or end with `-` or `.` |
| ModelManager.SanitizeIdempotent | wrapper/app/model_manager.py:197-205 | Sanitising twice is sanitising once |
| ModelManager.SanitizeKeepsUnicodeLetters | wrapper/app/model_manager.py:195-203 | Example: `café.wav` is kept as it is |
| ModelManager.SanitizeFilename | wrapper/app/model_manager.py:197-205 | The result is `warmup.wav` or a well-formed name, and a name that is already well formed is returned unchanged |
| ModelManager.PathName | wrapper/app/model_manager.py:210 | A path's name has no slash |
| ModelManager.WarmupFileNameShape | wrapper/app/model_manager.py:208-217 | The warm-up file name is non-empty, safe and has a suffix |
| ModelManager.WarmupFileName | wrapper/app/model_manager.py:208-217 | The warm-up file name is non-empty, does not start with `-` or `.`, and has a suffix. It extends the sanitised name, and is either that name or ends in `.wav` |
| ModelManager.RemoveUnsafe | wrapper/app/model_manager.py:189-194 | URL parsing first removes tab, CR and LF |
| ModelManager.HttpsUrlAccepted | wrapper/app/model_manager.py:189-194 | An `https://` URL without control characters or unbalanced brackets is an http(s) URL |
| ModelManager.IsHttpUrl | wrapper/app/model_manager.py:189-194 | An accepted value, once cleaned, starts with `http:` or `https:` in any letter case |
| ModelManager.HttpsScheme | wrapper/app/model_manager.py:189-194 | `https://rest` splits into scheme `https` and `//rest` |
| ModelManager.SchemeAt | wrapper/app/model_manager.py:189-194 | A clean URL beginning `scheme:` splits there, with the scheme lower-cased |
| ModelManager.LocalPathRejected | wrapper/app/model_manager.py:189-194 | An absolute path is never an http(s) URL |
| ModelManager.NeedsWarmupDownload | wrapper/app/model_manager.py:220-229 | A download is needed only for a non-empty http(s) source, and then exactly when no non-empty cached file is known |
| ModelManager.EnsureWarmupFile | wrapper/app/model_manager.py:291-305 | An empty source is the only ValueError. URLs are downloaded, and local paths must be files. A missing path is distinguished from a non-file |
| ModelManager.WarmupDownloadOnlyForUrls | wrapper/app/model_manager.py:220-305 | Whatever `ensure_warmup_file` accepts for a source that needs a download is a download |
| ModelManager.WeightCandidates | wrapper/app/model_manager.py:173-186 | Four directories are checked: the path itself (or the directory holding it, when it is a file) and three children of that directory |
| ModelManager.WeightsNeedTokenizerAndModel | wrapper/app/model_manager.py:143-186 | Weights are found only in a directory holding a tokenizer file and a `model.bin` file or shard |
| ModelManager.DirectWeights | wrapper/app/model_manager.py:146-163 | A directory with `tokenizer.json` and `model.bin` has weights |
| ModelManager.HasFasterWhisperWeights | wrapper/app/model_manager.py:143-186 | Weights found means one of the four candidate directories exists and holds a tokenizer. A directory (not a file) holding `tokenizer.json` and `model.bin` always has weights |
| ModelManager.IndexAloneIsNoWeights | wrapper/app/model_manager.py:157-168 | A shard index alone is not weights |
| ModelManager.NoTokenizerNoWeights | wrapper/app/model_manager.py:146-156 | With no tokenizer file anywhere, nothing has weights |
| ModelManager.FirstWeightSubdir | wrapper/app/model_manager.py:362-368 | The chosen subdirectory is a listed child of the repo directory holding a model file. There is none exactly when no listed child holds one |
| ModelManager.ModelPath | wrapper/app/model_manager.py:342-369 | The newest snapshot wins, then an existing marker target. Then the repo directory if it holds a model file, else a child directory holding one. Else the repo directory |
| ModelManager.ModelPathFindsWeights | wrapper/app/model_manager.py:356-369 | Without a snapshot or a live marker, the path found holds weights iff the repo directory does, or it exists and a listed child does |
| ModelManager.IsModelDownloaded | wrapper/app/model_manager.py:372-389 | The VAD model is present iff the VAD download is, and simulstreaming iff its `.pt` file exists. faster-whisper counts iff the weight check passes on the resolved model path. Other backends count with a snapshot; without one, None and whisper_timestamped count iff the `.pt` file exists, and any other backend does not |
| ModelManager.CacheScriptDirectFiles | wrapper/scripts/test_fastwhisper_cache.py:67-77 | Example: a repo directory with `model.bin` but no tokenizer is missing; adding `tokenizer.json` makes it present |
| ModelManager.CacheScriptShards | wrapper/scripts/test_fastwhisper_cache.py:79-101 | Example: a snapshot with a tokenizer config, two shards and their index is present; without the shards it is missing |
| ModelManager.ListDownloadedModels | wrapper/app/model_manager.py:392-404 | At most one entry per cache directory, `.pt` file and VAD model; the VAD model comes last when downloaded |
| ModelManager.DownloadedModelListed | wrapper/app/model_manager.py:392-404 | A repo downloaded into the cache is listed under its repo id |
| Licenses.LineName | wrapper/scripts/generate_licenses.py:35-41 | A name is a non-empty prefix of the stripped line |
| Licenses.LineNameSpec | wrapper/scripts/generate_licenses.py:28 | The name is the maximal leading run of `[A-Za-z0-9_.-]` |
| Licenses.CommentsContributeNothing | wrapper/scripts/generate_licenses.py:36-38 | Blank and `#` lines contribute no name |
| Licenses.OptionLineName | wrapper/scripts/generate_licenses.py:39-41 | Example: `-r base.txt` is read as `-r` |
| Licenses.IterRequirements | wrapper/scripts/generate_licenses.py:31-42 | A missing file gives no names; otherwise at most one per line |
| Licenses.NamesConcat | wrapper/scripts/generate_licenses.py:35-41 | Names are collected line by line, in order |
| Licenses.Names | wrapper/scripts/generate_licenses.py:35-41 | No collected name is empty, and the list is empty exactly when no line has a name |
| Licenses.InsertPermutes | wrapper/scripts/generate_licenses.py:77 | Insertion adds exactly the new name |
| Licenses.InsertSorted | wrapper/scripts/generate_licenses.py:77 | Insertion into a list sorted by lower-cased name keeps it sorted |
| Licenses.SortByLower | wrapper/scripts/generate_licenses.py:77 | The sorted list is a permutation of the names (same length, same multiset), ordered by lower-cased name |
| Licenses.SortByLowerKeepsSorted | wrapper/scripts/generate_licenses.py:77 | Sorting a list already ordered by lower-cased name leaves it unchanged |
| Licenses.SortByLowerIdempotent | wrapper/scripts/generate_licenses.py:77 | Sorting twice is sorting once |
| Licenses.FirstLicenseClassifier | wrapper/scripts/generate_licenses.py:91-94 | The first classifier starting with `License ::`, or none |
| Licenses.ChooseLicense | wrapper/scripts/generate_licenses.py:88-96 | A usable `License` field is kept. Otherwise the first licence classifier's stripped last segment is used. The result is usable or the entry is dropped |
| Licenses.ClassifierFallback | wrapper/scripts/generate_licenses.py:91-94 | `License :: X :: Y` with no usable field gives the stripped `Y` |
| Licenses.EntryFor | wrapper/scripts/generate_licenses.py:77-105 | `whisperlivekit` in any case is skipped. An entry needs installed metadata and a usable licence. An entry exists exactly for a package other than `whisperlivekit` that is installed and has a licence `ChooseLicense` accepts. Its name is the metadata name or the package name, its licence the chosen one, its version the metadata version or "" |
| Licenses.EntriesListEligible | wrapper/scripts/generate_licenses.py:77-105 | An entry is listed exactly when some package of the list yields it |
| Licenses.Entries | wrapper/scripts/generate_licenses.py:77-105 | At most one entry per package, each with a usable licence |
| Licenses.EntriesConcat | wrapper/scripts/generate_licenses.py:77-105 | Entries follow the package order |
| Licenses.LicenseEntries | wrapper/scripts/generate_licenses.py:75-105 | Every entry has a usable licence; a missing requirements file gives none |
| Protocol.BridgeStreamStops | wrapper/api/server.py:83-87 | The bridge's frames reach the server as a controlled stop, and the decoded audio is exactly the bridge's PCM |
| Protocol.DesktopSessionStops | wrapper/app/avalonia_ui/MainWindow.axaml.cs:653-735 | In the corrected desktop session, the server decodes the open-socket buffers and then sees a controlled stop. This holds whatever teardown steps throw and whether or not a receive is pending |
| Protocol.DesktopStopIsDisconnect | wrapper/app/avalonia_ui/MainWindow.axaml.cs:466-474 | As written, the server decodes the buffers sent before the stop click and then meets a disconnect. It sends no `ready_to_stop` |
| Protocol.TkEofIsNoStop | wrapper/app/gui.py:949-953 | The Tk client's `{"eof": 1}` text frame ends this server's loop in failure; no `ready_to_stop` follows |
| Protocol.DesktopAppendsLines | wrapper/app/avalonia_ui/MainWindow.axaml.cs:687-700 | The desktop client appends the non-blank texts of the server's lines, in order, without aborting |
| Protocol.DesktopReadsResponse | wrapper/app/avalonia_ui/MainWindow.axaml.cs:684-716 | A server response is read as its non-blank lines, then the transcription buffer, then the diarization buffer, and the loop goes on |
| Protocol.BridgeCollectsLines | wrapper/api/server.py:96-99 | The bridge collects the non-empty texts of the server's lines, in order |
| Protocol.BridgeReadsResponse | wrapper/api/server.py:88-103 | A server response contributes its non-empty line texts and then its non-empty buffers |
| Protocol.SessionMessagesWithoutStop | whisper_fastapi_online_server.py:611-651 | Without a controlled stop, every message of a session is a response |
| Protocol.BridgeTranscriptOnStop | wrapper/api/server.py:88-105 | After a controlled stop the bridge's texts are every response's texts, in order |
| Protocol.BridgeNeedsControlledStop | wrapper/api/server.py:88-92 | Without a controlled stop the bridge fails instead of answering |
| Protocol.BridgeTranscribesSession | wrapper/api/server.py:130-141 | End to end, a converted upload and a server session ending in a controlled stop give the model and the final join of every non-empty line and buffer text the server sent. A disconnect gives an error |
| Protocol.TkReadsResponse | wrapper/app/gui.py:933 | The Tk client shows only a response's non-empty transcription buffer; committed lines never reach it |

## Left out

- Audio capture, level metering, the WebSocket transports, threads, queues, asyncio tasks, UI-thread marshalling and cancellation tokens. These are device I/O and concurrency. The receive loops and the teardown are modelled as functions over fragment, frame and action traces.
- Process spawning, ffmpeg pipes, Hugging Face login subprocesses and downloads (`snapshot_download`, `torch.hub`, urllib). They are external effects; their outcomes are parameters.
- Settings persistence, the licence and model-manager windows, and Tk and Avalonia layout. These are UI-only.
- The SHA-256 digest in warm-up file names is an opaque parameter, and `splitlines` of the requirements file is given as the list of lines. Neither affects the properties stated.
- Network lookups (`_get_local_ips`, free-port search) are inputs (`localIps`, and `lanAddress` where the endpoint functions take it). The Avalonia interface scan is modelled (`DesktopClient.LanAddress`) over a given interface list; a throw part-way through the scan, from `GetIPProperties`, is not modelled, and only a failing enumeration is.
- Case mapping is ASCII-only (`Text.Lower`). Python's `str.lower` and .NET's culture rules on non-ASCII letters are not modelled.
- Backend.ResponseJson: the lags are always emitted as decimal numbers. Python emits the int `0` where `max(0, ...)` clamps, and likewise the placeholder line's `"diff": 0` (Backend.LineJson). No client in this repository reads these fields.
- TimedObjects.WithOffsetCompose, TimedObjects.ShiftCompose and TimedObjects.ConcatenateShift: times are exact reals. The source's times are floats, whose addition rounds and is not associative, so there these properties hold only up to rounding.
- TimestampedWords.ShiftSegmentInverse and TimestampedWords.ShiftSequenceInverse: likewise, composition and inverse hold over exact reals, and only up to float rounding in the source.
- Backend.CurrentLags: the `round(..., 2)` of the lags and of `diff` is not modelled. Times are exact reals, and only the `max(0, ...)` clamps are stated.
- `format_time` is the parameter `fmt`. The `beg`, `end` and `diff` fields of a line are produced but not interpreted.
- Backend.FormatRoundFixed: the diarization-only branch, where the backend builds a dummy token, stops at the constructor's TypeError. The sleep and re-read after a dummy token are not modelled.
- The backend's restart of ffmpeg after a broken pipe, and the ffmpeg decoding itself, are not modelled. The audio model stops at the frames handed to the decoder.
- Licenses.SortByLower: insertion sort stands for Python's `sorted`. Stability is not stated, because only the order by key and the permutation are proved.
- Reading licence texts from distribution files (`_extract_license_text`) and writing `licenses.json` are not modelled. They are file I/O; the licence text is an opaque field.
- `TimedList.split_to_sentences`, `__str__` and `__repr__` are not modelled. Formatting is for display, and sentence splitting depends on an external tokenizer.
- `TimeStampedSequence.from_tuples` is exercised only through `TimestampedWords.HelloWorld`.
- DesktopClient.GetDouble: JSON numbers are exact reals, so double rounding is not modelled. Nor is the double range: `TryGetDouble` fails on a number outside it and the source returns the default, while the model returns the exact value.
- The desktop client's `ws.State` checks before each send are the `open` flag of a captured buffer. Sends are modelled as attempts. Whether they arrive is `DesktopClient.Delivered`, which knows only one way to lose frames: the abort that cancelling a pending receive causes.
- DesktopClient.Session: the captured buffers are those handed over before the stop click. A buffer NAudio delivers while recording stops meets a cancelled token or an aborted socket, and is not modelled. Whether the receiver is inside `ReceiveAsync` at the click is the input `receivePending`, because it depends on thread timing.
- Protocol.DesktopSessionStops requires every open-socket capture buffer to be non-empty. A zero-length capture buffer would be read by the server as the stop signal.
- Protocol.TkEofIsNoStop is about the backend in this repository. The Tk client launches `whisperlivekit.basic_server`, which is not part of this model.
- The Avalonia client's handling of `lines` elements and buffers follows `System.Text.Json`. Duplicate keys resolve to the last binding, and UTF-8 decoding is the abstract `parse`.
- TimedObjects.Shift: the source shifts the shared word objects in place, so a slice or a split part shares them with its parent, and shifting one shifts the other. The model's lists are values, and that aliasing is not modelled.
- TimestampedWords.Shift: likewise, `shift` mutates the segments in place. A sequence returned by `split_at` or slicing shares them with its parent, which the model does not reproduce.
- ModelManager.IsHttpUrl: `urlsplit`'s checks on the network location are not modelled. These are the bracketed-host validation, so `https://[abc]/` is no URL for the source but is one here, and the NFKC normalisation check on non-ASCII hosts.
- ModelManager.EnsureWarmupFile: the local path is returned as given (`Local(source)`). The source returns `Path(source).expanduser()`, so a leading `~` is expanded there and not here.
- ModelManager.MapUnsafe: `str.isalnum` is the parameter `isAlnum`. Only its ASCII part is fixed (letters and digits, nothing else), because the Unicode tables behind the rest are not modelled.
- `get_model_path`'s VAD and simulstreaming branches and the `latest` marker's file read are not modelled. The marker's target is an input (`CacheFacts.marker`), and only the Hugging Face branch is modelled (`ModelManager.ModelPath`).
- ModelManager.ModelPath: when the repo directory exists as a regular file, `base.iterdir()` raises NotADirectoryError in the source. The model does not raise there: it scans the given listing and, finding no weights, returns the repo directory path.

## Findings

| source | as written | input that shows it | evidently intended | confidence | as-written member | corrected member |
|---|---|---|---|---|---|---|
| wrapper/api/server.py:114-115 | The `bearer ` prefix test passes, but `auth.split(None, 1)[1]` raises IndexError when only whitespace follows the scheme. The dependency then fails with 500 | header `Authorization: Bearer` followed by a no-break space (U+00A0), with a key configured | A header without a key is refused with 401 like any other wrong key | high, not executed | ApiBridge.BearerNoBreakSpaceRaises | ApiBridge.RequireApiKeyFixed |
| src/whisper/timestaped_words.py:81-86 | The constructor infers a separator only when `sep is None` and never stores a given one, so `get_text()` and `concatenate()` then raise AttributeError | `TimeStampedSequence([TimeStampedSegment(0.0, 1.0, "a")], sep="-").get_text()` | A given separator is stored and used | high, not executed | TimestampedWords.NewDropsSep | TimestampedWords.NewFixedKeepsSep |
| wrapper/app/avalonia_ui/MainWindow.axaml.cs:470 | The stop click cancels the session's token while the receiver waits in `ReceiveAsync(buf, ct)`, and the capture wait loop ends only through that cancel. ClientWebSocket aborts the socket when a pending receive is cancelled, so the end-of-stream frame sent afterwards fails silently. The server sees a disconnect, and the receiver has already stopped, so the last results and `ready_to_stop` never arrive | any recording stopped with the Stop Recording button while the receiver waits for a message | Send the end-of-stream frame, read on until `ready_to_stop`, then close, cancelling nothing under the socket | medium, not executed (the abort on cancel is documented .NET behaviour, not part of this model) | Protocol.DesktopStopIsDisconnect | Protocol.DesktopSessionStops |
| whisper_fastapi_online_server.py:371 | `tokens[-1].is_dummy` is evaluated whenever tokens exist, before the mode test. `ASRToken` has no `is_dummy`, so each round raises AttributeError, is caught and retried, and no result is ever sent | any session in which the transcriber has produced one token | Read `is_dummy` only in diarization-only mode, so transcription results are sent | medium, not executed (tokens come from a transcriber that is not part of this model) | Backend.DummyCheckBlocksResults | Backend.FixedRoundSendsFirstToken |

=== FILE: api_bridge.dfy ===
/** The HTTP bridge: the OpenAI-style `/v1/audio/transcriptions` endpoint that
    converts an upload to PCM, streams it to the backend's `/asr` socket,
    collects the result texts and joins them, behind an optional API key. */
module ApiBridge {
  import opened Base
  import opened Text
  import opened Json

  // ---------------------------------------------------------------------------
  // Backend address
  // ---------------------------------------------------------------------------

  /** Truthiness of an environment value: unset and "" are both false. */
  predicate Truthy(v: Option<string>) {
    v.Some? && v.value != ""
  }

  /** The host the bridge connects to. `connectOverride` is
      WRAPPER_BACKEND_CONNECT_HOST and `bindHost` WRAPPER_BACKEND_HOST. */
  function ConnectHost(connectOverride: Option<string>, bindHost: Option<string>): (r: string)
    ensures Truthy(connectOverride) ==> r == connectOverride.value
    ensures !Truthy(connectOverride) && bindHost.None? ==> r == "localhost"
    ensures !Truthy(connectOverride) && bindHost.Some? ==>
      r == (if bindHost.value in {"0.0.0.0", "::", ""} then "127.0.0.1" else bindHost.value)
  {
    if Truthy(connectOverride) then connectOverride.value
    else
      var host := if bindHost.Some? then bindHost.value else "localhost";
      if host == "0.0.0.0" || host == "::" || host == "" then "127.0.0.1" else host
  }

  /** A wildcard bind address is never used as a connect address unless it is
      given explicitly as the override. */
  lemma {:induction false} ConnectHostNotWildcard(connectOverride: Option<string>, bindHost: Option<string>)
    requires !Truthy(connectOverride)
    ensures ConnectHost(connectOverride, bindHost) !in {"0.0.0.0", "::", ""}
  {
  }

  /** The backend socket URL: `wss` exactly when WRAPPER_BACKEND_SSL is "1". */
  function BackendWsUrl(connectOverride: Option<string>, bindHost: Option<string>,
                        port: Option<string>, ssl: Option<string>): (r: string)
    ensures ssl == Some("1") <==> "wss://" <= r
    ensures EndsWith(r, "/asr")
  {
    var scheme := if ssl == Some("1") then "wss" else "ws";
    var p := if port.Some? then port.value else "8000";
    var r := scheme + "://" + ConnectHost(connectOverride, bindHost) + ":" + p + "/asr";
    assert r[|r| - 4..] == "/asr";
    assert ssl != Some("1") ==> r[2] == ':';
    r
  }

  // ---------------------------------------------------------------------------
  // Converting the upload
  // ---------------------------------------------------------------------------

  /** Errors the endpoint answers with, by HTTP status, or an exception that
      escapes the handler (which the server reports as a 500). */
  datatype BridgeError =
    | Http(status: int, detail: string)
    | InvalidJson
    | NotADict
    | NotIterable
    | NotAString
    | ConnectionClosed
    | IndexError
    | EofError

  /** The status the client sees: an escaping exception is a 500. */
  function HttpStatus(e: BridgeError): int {
    if e.Http? then e.status else 500
  }

  predicate IsPassthroughName(filename: Option<string>) {
    Truthy(filename) && (EndsWith(Lower(filename.value), ".raw") || EndsWith(Lower(filename.value), ".pcm"))
  }

  /** What `wave.open` and the format test make of an upload. */
  datatype WavOpen =
    | PcmFrames(frames: seq<byte>)  // 16 kHz, mono, 16-bit, uncompressed: its frames
    | OtherWav                      // a readable WAV in some other format
    | WaveError                     // `wave.Error`: not a RIFF/WAVE file the module reads
    | Eof                           // `EOFError`: the file ends inside a header

  /** The id of the chunk a WAV file starts with. */
  const Riff: seq<byte> := [0x52, 0x49, 0x46, 0x46]

  /** `wave.open` on the upload, then the format test. The first chunk header
      takes 8 bytes, and a shorter upload raises `EOFError`; a first chunk
      not named RIFF raises `wave.Error`. What follows (the WAVE tag, the
      chunk walk, the format chunk, which also raises `EOFError` when cut
      short) is the parameter `parseRiff`. */
  function OpenWav(data: seq<byte>, parseRiff: seq<byte> -> WavOpen): (r: WavOpen)
    ensures |data| < 8 ==> r == Eof
    ensures |data| >= 8 && data[..4] != Riff ==> r == WaveError
    ensures |data| >= 8 && data[..4] == Riff ==> r == parseRiff(data)
  {
    if |data| < 8 then Eof
    else if data[..4] != Riff then WaveError
    else parseRiff(data)
  }

  /** `_convert_to_pcm16`. Only `wave.Error` is caught around the WAV
      check, so an `EOFError` escapes the handler. `ffmpeg` is the external
      conversion, failing with 500 when the tool is missing and 400 when it
      rejects the input. */
  function ConvertToPcm16(data: seq<byte>, filename: Option<string>,
                          parseRiff: seq<byte> -> WavOpen,
                          ffmpeg: seq<byte> -> Result<seq<byte>, int>): (r: Result<seq<byte>, BridgeError>)
    ensures IsPassthroughName(filename) ==> r == Ok(data)
    ensures !IsPassthroughName(filename) && OpenWav(data, parseRiff).PcmFrames? ==> r == Ok(OpenWav(data, parseRiff).frames)
    ensures !IsPassthroughName(filename) && OpenWav(data, parseRiff).Eof? ==> r == Err(EofError)
    ensures r.Err? ==> (r.error.Http? || r.error == EofError) && HttpStatus(r.error) in {400, 500}
  {
    if IsPassthroughName(filename) then Ok(data)
    else
      match OpenWav(data, parseRiff)
      case PcmFrames(frames) => Ok(frames)
      case Eof => Err(EofError)
      case _ =>
        match ffmpeg(data)
        case Ok(pcm) => Ok(pcm)
        case Err(code) =>
          if code == 500 then Err(Http(500, "ffmpeg_not_found")) else Err(Http(400, "ffmpeg_failed"))
  }

  /** An upload without a passthrough name that is shorter than a chunk
      header, an empty `a.wav` say, is answered with 500 before ffmpeg is
      tried. */
  lemma {:induction false} ShortUploadFails(data: seq<byte>, filename: Option<string>,
                                            parseRiff: seq<byte> -> WavOpen, ffmpeg: seq<byte> -> Result<seq<byte>, int>)
    requires |data| < 8 && !IsPassthroughName(filename)
    ensures ConvertToPcm16(data, filename, parseRiff, ffmpeg) == Err(EofError)
    ensures HttpStatus(ConvertToPcm16(data, filename, parseRiff, ffmpeg).error) == 500
  {
  }

  /** ffmpeg decides exactly the uploads the WAV check declines without
      raising: for those the answer is ffmpeg's output or its error, and for
      every other upload any ffmpeg gives the same answer. */
  lemma {:induction false} ConvertFallsBackToFfmpeg(data: seq<byte>, filename: Option<string>, parseRiff: seq<byte> -> WavOpen,
                                                    ffmpeg: seq<byte> -> Result<seq<byte>, int>,
                                                    other: seq<byte> -> Result<seq<byte>, int>)
    ensures var w := OpenWav(data, parseRiff);
      var r := ConvertToPcm16(data, filename, parseRiff, ffmpeg);
      if !IsPassthroughName(filename) && (w.OtherWav? || w.WaveError?) then
        (r.Ok? <==> ffmpeg(data).Ok?) && (r.Ok? ==> r.value == ffmpeg(data).value)
        && (r.Err? ==> (HttpStatus(r.error) == 500 <==> ffmpeg(data).error == 500))
      else r == ConvertToPcm16(data, filename, parseRiff, other)
  {
  }

  lemma {:induction false} PassthroughIgnoresCase(stem: string)
    ensures IsPassthroughName(Some(stem + ".RAW")) && IsPassthroughName(Some(stem + ".Pcm"))
  {
    LowerEndsWith(stem, ".RAW", ".raw");
    LowerEndsWith(stem, ".Pcm", ".pcm");
  }

  /** Lowering a name lowers its ending. */
  lemma {:induction false} LowerEndsWith(stem: string, suffix: string, lowered: string)
    requires |suffix| == |lowered| && forall i :: 0 <= i < |suffix| ==> LowerChar(suffix[i]) == lowered[i]
    ensures EndsWith(Lower(stem + suffix), lowered)
  {
    var n := stem + suffix;
    var l := Lower(n);
    assert l[|stem|..] == lowered by {
      forall i | 0 <= i < |suffix| ensures l[|stem| + i] == lowered[i] {
        assert n[|stem| + i] == suffix[i];
      }
    }
  }


  // ---------------------------------------------------------------------------
  // Streaming the audio
  // ---------------------------------------------------------------------------

  const ChunkSize: nat := 3200

  /** The slices `pcm[i:i+3200]` for `i` in `range(0, len(pcm), 3200)`. */
  function Chunks(pcm: seq<byte>): (r: seq<seq<byte>>)
    ensures |r| == (|pcm| + ChunkSize - 1) / ChunkSize
    ensures forall i :: 0 <= i < |r| ==> 0 < |r[i]| <= ChunkSize
    ensures forall i :: 0 <= i < |r| - 1 ==> |r[i]| == ChunkSize
    decreases |pcm|
  {
    if |pcm| == 0 then []
    else if |pcm| <= ChunkSize then [pcm]
    else [pcm[..ChunkSize]] + Chunks(pcm[ChunkSize..])
  }

  /** The chunks put back together are the audio. */
  lemma {:induction false} ChunksConcatenate(pcm: seq<byte>)
    ensures Flatten(Chunks(pcm)) == pcm
    decreases |pcm|
  {
    if |pcm| > ChunkSize {
      ChunksConcatenate(pcm[ChunkSize..]);
      assert pcm == pcm[..ChunkSize] + pcm[ChunkSize..];
    } else if |pcm| > 0 {
      assert Flatten([pcm]) == pcm + Flatten([pcm][1..]);
    }
  }

  /** The chunks from `i` on are the slice up to `end`, then the chunks from `end` on. */
  lemma {:induction false} ChunksStep(pcm: seq<byte>, i: nat, end: nat)
    requires i < |pcm| && end == (if i + ChunkSize <= |pcm| then i + ChunkSize else |pcm|)
    ensures Chunks(pcm[i..]) == [pcm[i..end]] + Chunks(pcm[end..])
  {
    var rest := pcm[i..];
    if end < |pcm| {
      assert rest[..ChunkSize] == pcm[i..end];
      assert rest[ChunkSize..] == pcm[end..];
    } else {
      assert rest == pcm[i..end];
      assert pcm[end..] == [];
    }
  }

  /** The first part of `_stream_to_backend`: one binary frame per slice, then
      the empty frame that asks the backend to finish. */
  method StreamPcm(pcm: seq<byte>) returns (frames: seq<seq<byte>>)
    ensures |frames| > 0 && frames[|frames| - 1] == []
    ensures frames[..|frames| - 1] == Chunks(pcm)
  {
    frames := [];
    var i := 0;
    while i < |pcm|
      invariant 0 <= i <= |pcm|
      invariant frames + Chunks(pcm[i..]) == Chunks(pcm)
    {
      var end := if i + ChunkSize <= |pcm| then i + ChunkSize else |pcm|;
      ChunksStep(pcm, i, end);
      assert frames + [pcm[i..end]] + Chunks(pcm[end..]) == Chunks(pcm);
      frames := frames + [pcm[i..end]];
      i := end;
    }
    assert pcm[|pcm|..] == [];
    frames := frames + [[]];
    assert frames[..|frames| - 1] == Chunks(pcm);
  }

  // ---------------------------------------------------------------------------
  // Collecting the result texts
  // ---------------------------------------------------------------------------

  /** What one message contributes: the end of the stream, or texts. */
  datatype Contribution = Stop | Texts(texts: seq<Json>)

  /** The truthy `text` of each element of `lines`; an element that is not a
      dict raises. */
  function LineTexts(items: seq<Json>): (r: Result<seq<Json>, BridgeError>)
    ensures r.Ok? ==> |r.value| <= |items| && forall i :: 0 <= i < |r.value| ==> PyTruthy(r.value[i])
    ensures r.Err? <==> exists i :: 0 <= i < |items| && !items[i].JObj?
    decreases |items|
  {
    if |items| == 0 then Ok([])
    else if !items[0].JObj? then Err(NotADict)
    else
      match LineTexts(items[1..])
      case Err(e) =>
        assert exists i :: 1 <= i < |items| && !items[i].JObj? by {
          var k :| 0 <= k < |items[1..]| && !items[1..][k].JObj?;
          assert items[k + 1] == items[1..][k];
        }
        Err(e)
      case Ok(rest) =>
        assert forall i :: 1 <= i < |items| ==> items[i] == items[1..][i - 1];
        Ok((match GetTruthy(items[0], "text") case Some(t) => [t] case None => []) + rest)
  }

  /** The elements `for item in lines` visits. Iterating a string yields its
      characters and a dict its keys, which have no `get`: only an empty one
      passes. null, booleans and numbers are not iterable. */
  function LinesValue(lines: Option<Json>): (r: Result<seq<Json>, BridgeError>)
    ensures lines.None? ==> r == Ok([])
    ensures r.Ok? && r.value != [] ==> lines.Some? && lines.value.JArr?
  {
    match lines
    case None => Ok([])
    case Some(JArr(items)) => Ok(items)
    case Some(JStr(s)) => if s == "" then Ok([]) else Err(NotADict)
    case Some(JObj(m)) => if m == [] then Ok([]) else Err(NotADict)
    case Some(_) => Err(NotIterable)
  }

  function Truthies(v: Option<Json>): (r: seq<Json>)
    ensures |r| <= 1 && forall i :: 0 <= i < |r| ==> PyTruthy(r[i])
  {
    if v.Some? && PyTruthy(v.value) then [v.value] else []
  }

  /** One loop iteration of `_stream_to_backend` on a decoded message:
      `ready_to_stop` ends the stream; otherwise the line texts, then the
      transcription buffer, then the diarization buffer, each when truthy. */
  function MessageTexts(data: Json): (r: Result<Contribution, BridgeError>)
    ensures !data.JObj? ==> r == Err(NotADict)
    ensures r == Ok(Stop) <==> Get(data, "type") == Some(JStr("ready_to_stop"))
    ensures r.Ok? && r.value.Texts? ==> forall i :: 0 <= i < |r.value.texts| ==> PyTruthy(r.value.texts[i])
  {
    if !data.JObj? then Err(NotADict)
    else if Get(data, "type") == Some(JStr("ready_to_stop")) then Ok(Stop)
    else
      match LinesValue(Get(data, "lines"))
      case Err(e) => Err(e)
      case Ok(items) =>
        match LineTexts(items)
        case Err(e) => Err(e)
        case Ok(fromLines) =>
          Ok(Texts(fromLines + Truthies(Get(data, "buffer_transcription")) + Truthies(Get(data, "buffer_diarization"))))
  }

  /** A message without a `type`, whose `lines` array holds only dicts,
      contributes their texts and then the truthy buffers. */
  lemma {:induction false} MessageTextsWithLines(data: Json, items: seq<Json>)
    requires data.JObj? && Get(data, "type").None? && Get(data, "lines") == Some(JArr(items))
    requires LineTexts(items).Ok?
    ensures MessageTexts(data) == Ok(Texts(LineTexts(items).value
      + Truthies(Get(data, "buffer_transcription")) + Truthies(Get(data, "buffer_diarization"))))
  {
  }

  /** The receive loop. `msgs` are the received messages, None for one that is
      not valid JSON; running out of messages before `ready_to_stop` means the
      socket closed, which raises. Any error fails the whole request. */
  function CollectTexts(msgs: seq<Option<Json>>): (r: Result<seq<Json>, BridgeError>)
    ensures r.Ok? ==> forall i :: 0 <= i < |r.value| ==> PyTruthy(r.value[i])
    decreases |msgs|
  {
    if |msgs| == 0 then Err(ConnectionClosed)
    else if msgs[0].None? then Err(InvalidJson)
    else
      match MessageTexts(msgs[0].value)
      case Err(e) => Err(e)
      case Ok(Stop) => Ok([])
      case Ok(Texts(ts)) =>
        match CollectTexts(msgs[1..])
        case Err(e) => Err(e)
        case Ok(rest) => Ok(ts + rest)
  }

  /** A message with texts followed by more messages: its texts come first. */
  lemma {:induction false} CollectTextsCons(msg: Json, ts: seq<Json>, rest: seq<Option<Json>>)
    requires MessageTexts(msg) == Ok(Texts(ts))
    ensures CollectTexts([Some(msg)] + rest)
      == (if CollectTexts(rest).Ok? then Ok(ts + CollectTexts(rest).value) else CollectTexts(rest))
  {
    assert ([Some(msg)] + rest)[1..] == rest;
  }

  /** Messages after `ready_to_stop` are never read. */
  lemma {:induction false} CollectStopsAtReady(pre: seq<Option<Json>>, stop: Json, post: seq<Option<Json>>)
    requires forall i :: 0 <= i < |pre| ==> pre[i].Some? && MessageTexts(pre[i].value).Ok? && MessageTexts(pre[i].value).value.Texts?
    requires Get(stop, "type") == Some(JStr("ready_to_stop"))
    ensures CollectTexts(pre + [Some(stop)] + post) == CollectTexts(pre + [Some(stop)])
    decreases |pre|
  {
    if |pre| == 0 {
      assert (pre + [Some(stop)] + post)[0] == Some(stop);
      assert (pre + [Some(stop)])[0] == Some(stop);
    } else {
      var all := pre + [Some(stop)] + post;
      var upTo := pre + [Some(stop)];
      assert all[0] == pre[0] && upTo[0] == pre[0];
      assert all[1..] == pre[1..] + [Some(stop)] + post;
      assert upTo[1..] == pre[1..] + [Some(stop)];
      CollectStopsAtReady(pre[1..], stop, post);
    }
  }

  /** A stream that ends without `ready_to_stop` fails the request. */
  lemma {:induction false} CollectNeedsReady(msgs: seq<Option<Json>>)
    requires forall i :: 0 <= i < |msgs| ==> msgs[i].Some? && Get(msgs[i].value, "type") != Some(JStr("ready_to_stop"))
    ensures CollectTexts(msgs).Err?
    decreases |msgs|
  {
    if |msgs| > 0 {
      CollectNeedsReady(msgs[1..]);
    }
  }

  // ---------------------------------------------------------------------------
  // Joining the texts
  // ---------------------------------------------------------------------------

  function Strip(s: string): string {
    Trim(s, IsPySpace)
  }

  function StripAll(texts: seq<string>): (r: seq<string>)
    ensures |r| == |texts|
    ensures forall i :: 0 <= i < |r| ==> r[i] == Strip(texts[i])
  {
    seq(|texts|, i requires 0 <= i < |texts| => Strip(texts[i]))
  }

  /** `" ".join(t.strip() for t in texts if t).strip()`; a text that is not a
      string has no `strip` and raises. */
  function FinalText(texts: seq<Json>): (r: Result<string, BridgeError>)
    ensures r.Err? <==> exists i :: 0 <= i < |texts| && PyTruthy(texts[i]) && !texts[i].JStr?
    ensures r.Ok? ==> |r.value| > 0 ==> !IsPySpace(r.value[0]) && !IsPySpace(r.value[|r.value| - 1])
  {
    if exists i :: 0 <= i < |texts| && PyTruthy(texts[i]) && !texts[i].JStr? then Err(NotAString)
    else
      var strs := TruthyStrings(texts);
      var r := Strip(Join(StripAll(strs), " "));
      TrimEnds(Join(StripAll(strs), " "), IsPySpace);
      Ok(r)
  }

  /** The truthy elements, all of them strings. */
  function TruthyStrings(texts: seq<Json>): (r: seq<string>)
    requires forall i :: 0 <= i < |texts| && PyTruthy(texts[i]) ==> texts[i].JStr?
    ensures forall i :: 0 <= i < |r| ==> r[i] != ""
    decreases |texts|
  {
    if |texts| == 0 then []
    else if PyTruthy(texts[0]) then [texts[0].s] + TruthyStrings(texts[1..])
    else TruthyStrings(texts[1..])
  }

  /** Texts that are already stripped and non-empty come back joined by single
      spaces, unchanged. */
  lemma {:induction false} FinalTextOfClean(ts: seq<string>)
    requires forall i :: 0 <= i < |ts| ==> ts[i] != "" && Strip(ts[i]) == ts[i]
    ensures FinalText(seq(|ts|, i requires 0 <= i < |ts| => JStr(ts[i]))) == Ok(Join(ts, " "))
  {
    var texts := seq(|ts|, i requires 0 <= i < |ts| => JStr(ts[i]));
    TruthyStringsOfStrings(ts);
    assert StripAll(ts) == ts;
    JoinEnds(ts);
    TrimOfTrimmed(Join(ts, " "), IsPySpace);
  }

  lemma {:induction false} TruthyStringsOfStrings(ts: seq<string>)
    requires forall i :: 0 <= i < |ts| ==> ts[i] != ""
    ensures var texts := seq(|ts|, i requires 0 <= i < |ts| => JStr(ts[i]));
      (forall i :: 0 <= i < |texts| && PyTruthy(texts[i]) ==> texts[i].JStr?)
      && TruthyStrings(texts) == ts
    decreases |ts|
  {
    var texts := seq(|ts|, i requires 0 <= i < |ts| => JStr(ts[i]));
    if |ts| > 0 {
      TruthyStringsOfStrings(ts[1..]);
      assert texts[1..] == seq(|ts[1..]|, i requires 0 <= i < |ts[1..]| => JStr(ts[1..][i]));
    }
  }

  /** Joining non-empty stripped parts neither starts nor ends with whitespace. */
  lemma {:induction false} JoinEnds(ts: seq<string>)
    requires forall i :: 0 <= i < |ts| ==> ts[i] != "" && Strip(ts[i]) == ts[i]
    ensures var j := Join(ts, " ");
      |j| > 0 ==> !IsPySpace(j[0]) && !IsPySpace(j[|j| - 1])
    decreases |ts|
  {
    if |ts| > 0 {
      TrimEnds(ts[0], IsPySpace);
      if |ts| > 1 {
        JoinEnds(ts[1..]);
        var rest := Join(ts[1..], " ");
        assert |rest| > 0 by {
          JoinNonEmpty(ts[1..]);
        }
      }
    }
  }

  lemma {:induction false} JoinNonEmpty(ts: seq<string>)
    requires |ts| > 0 && forall i :: 0 <= i < |ts| ==> ts[i] != ""
    ensures |Join(ts, " ")| >= |ts[0]| > 0
  {
  }

  /** A whitespace-only text is truthy, strips to "", and leaves two spaces
      between its neighbours. */
  lemma {:induction false} FinalTextBlankMiddle()
    ensures FinalText([JStr("a"), JStr(" "), JStr("b")]) == Ok("a  b")
  {
    var texts := [JStr("a"), JStr(" "), JStr("b")];
    assert TruthyStrings(texts) == ["a", " ", "b"] by {
      assert texts[1..][1..][1..] == [];
    }
    assert Strip(" ") == "" by {
      assert TrimStart(" ", IsPySpace) == "";
    }
    assert Strip("a") == "a";
    assert Strip("b") == "b";
    assert StripAll(["a", " ", "b"]) == ["a", "", "b"];
    assert Join(["a", "", "b"], " ") == "a  b" by {
      assert ["a", "", "b"][1..] == ["", "b"];
      assert ["", "b"][1..] == ["b"];
    }
    TrimOfTrimmed("a  b", IsPySpace);
  }

  // ---------------------------------------------------------------------------
  // API key
  // ---------------------------------------------------------------------------

  /** `auth.split(None, 1)[1]`: what follows the first word and the whitespace
      after it; IndexError when nothing follows. */
  function SecondField(auth: string): (r: Result<string, BridgeError>)
  {
    var s := TrimStart(auth, IsPySpace);
    var first := TakeWhile(s, c => !IsPySpace(c));
    var rest := TrimStart(s[|first|..], IsPySpace);
    if rest == "" then Err(IndexError) else Ok(rest)
  }

  predicate HasBearerPrefix(auth: string) {
    "bearer " <= Lower(auth)
  }

  /** `_extract_api_key_from_request` as written. Header values are None when
      the header is absent. */
  function ExtractApiKey(xApiKey: Option<string>, authorization: Option<string>): (r: Result<Option<string>, BridgeError>)
    ensures Truthy(xApiKey) ==> r == Ok(xApiKey)
    ensures !Truthy(xApiKey) && !(Truthy(authorization) && HasBearerPrefix(authorization.value)) ==> r == Ok(None)
    ensures r.Err? ==> r.error == IndexError
  {
    if Truthy(xApiKey) then Ok(xApiKey)
    else if Truthy(authorization) && HasBearerPrefix(authorization.value) then
      match SecondField(authorization.value)
      case Err(e) => Err(e)
      case Ok(second) => Ok(Some(Strip(second)))
    else Ok(None)
  }

  /** The first word of a bearer header is the scheme: its six letters. */
  lemma {:induction false} BearerFirstWord(auth: string)
    requires HasBearerPrefix(auth)
    ensures TrimStart(auth, IsPySpace) == auth
    ensures TakeWhile(auth, c => !IsPySpace(c)) == auth[..6]
  {
    assert Lower(auth)[6] == ' ';
    assert auth[6] == ' ';
    assert !IsPySpace(auth[0]) by {
      assert LowerChar(auth[0]) == 'b';
    }
    var p := c => !IsPySpace(c);
    TakeWhilePrefix(auth, p, 6);
  }

  lemma {:induction false} TakeWhilePrefix(s: string, p: char -> bool, n: nat)
    requires n < |s| && !p(s[n])
    requires forall i :: 0 <= i < n ==> p(s[i])
    ensures TakeWhile(s, p) == s[..n]
    decreases n
  {
    if n > 0 {
      TakeWhilePrefix(s[1..], p, n - 1);
      assert s[..n] == [s[0]] + s[1..][..n - 1];
    }
  }

  /** `Authorization: Bearer <key>` yields the key, for any letter case of the
      scheme and any key without surrounding whitespace. */
  lemma {:induction false} BearerRoundTrip(scheme: string, key: string)
    requires |scheme| == 6 && Lower(scheme) == "bearer"
    requires key != "" && Strip(key) == key
    ensures ExtractApiKey(None, Some(scheme + " " + key)) == Ok(Some(key))
  {
    var auth := scheme + " " + key;
    assert Lower(auth)[..7] == "bearer ";
    BearerFirstWord(auth);
    TrimEnds(key, IsPySpace);
    assert !IsPySpace(key[0]) by {
      assert Trim(key, IsPySpace)[0] == key[0];
    }
    assert auth[6..] == " " + key;
    assert TrimStart(" " + key, IsPySpace) == TrimStart(key, IsPySpace);
    assert TrimStart(key, IsPySpace) == key;
  }

  /** The header `Bearer` followed by a no-break space passes the prefix test
      but has nothing after the first word, so the lookup raises IndexError. */
  lemma {:induction false} BearerNoBreakSpaceRaises()
    ensures ExtractApiKey(None, Some("Bearer \U{A0}")).Err?
  {
    var auth := "Bearer \U{A0}";
    assert Lower(auth) == "bearer \U{A0}";
    BearerFirstWord(auth);
    assert auth[6..] == " \U{A0}";
    assert TrimStart(" \U{A0}", IsPySpace) == "";
  }

  /** The evidently intended extraction: a bearer header with nothing after
      the scheme carries no key. */
  function ExtractApiKeyFixed(xApiKey: Option<string>, authorization: Option<string>): (r: Option<string>)
    ensures Truthy(xApiKey) ==> r == xApiKey
    ensures ExtractApiKey(xApiKey, authorization).Ok? ==> r == ExtractApiKey(xApiKey, authorization).value
    ensures ExtractApiKey(xApiKey, authorization).Err? ==> r.None?
  {
    match ExtractApiKey(xApiKey, authorization)
    case Ok(k) => k
    case Err(_) => None
  }

  /** The auth dependency as written: an exception in the extraction escapes
      as a 500. */
  function RequireApiKey(requireKey: bool, apiKey: string, xApiKey: Option<string>, authorization: Option<string>): (r: Result<(), BridgeError>)
    ensures !requireKey ==> r.Ok?
    ensures requireKey && apiKey == "" ==> r == Err(Http(500, "api_key_not_configured"))
    ensures requireKey && apiKey != "" ==> (r.Ok? <==> ExtractApiKey(xApiKey, authorization) == Ok(Some(apiKey)))
    ensures r.Err? && r.error.Http? ==> r.error.status in {401, 500}
  {
    if !requireKey then Ok(())
    else if apiKey == "" then Err(Http(500, "api_key_not_configured"))
    else
      match ExtractApiKey(xApiKey, authorization)
      case Err(e) => Err(e)
      case Ok(provided) => if provided != Some(apiKey) then Err(Http(401, "unauthorized")) else Ok(())
  }

  /** The auth dependency with the corrected extraction: every refusal of a
      configured key is a 401. */
  function RequireApiKeyFixed(requireKey: bool, apiKey: string, xApiKey: Option<string>, authorization: Option<string>): (r: Result<(), BridgeError>)
    ensures !requireKey ==> r.Ok?
    ensures requireKey && apiKey == "" ==> r == Err(Http(500, "api_key_not_configured"))
    ensures requireKey && apiKey != "" && r.Err? ==> r.error == Http(401, "unauthorized")
    ensures requireKey && apiKey != "" ==> (r.Ok? <==> ExtractApiKeyFixed(xApiKey, authorization) == Some(apiKey))
  {
    if !requireKey then Ok(())
    else if apiKey == "" then Err(Http(500, "api_key_not_configured"))
    else if ExtractApiKeyFixed(xApiKey, authorization) != Some(apiKey) then Err(Http(401, "unauthorized"))
    else Ok(())
  }

  /** As written, a configured server answers `Bearer` plus a no-break space
      with 500 rather than 401; the corrected check answers 401. */
  lemma {:induction false} NoBreakSpaceStatus(apiKey: string)
    requires apiKey != ""
    ensures RequireApiKey(true, apiKey, None, Some("Bearer \U{A0}")) == Err(IndexError)
    ensures RequireApiKeyFixed(true, apiKey, None, Some("Bearer \U{A0}")) == Err(Http(401, "unauthorized"))
  {
    BearerNoBreakSpaceRaises();
  }

  /** Both versions agree wherever the written one does not raise. */
  lemma {:induction false} RequireApiKeyAgrees(requireKey: bool, apiKey: string, xApiKey: Option<string>, authorization: Option<string>)
    requires RequireApiKey(requireKey, apiKey, xApiKey, authorization) != Err(IndexError)
    ensures RequireApiKey(requireKey, apiKey, xApiKey, authorization) == RequireApiKeyFixed(requireKey, apiKey, xApiKey, authorization)
  {
  }

  // ---------------------------------------------------------------------------
  // The endpoint
  // ---------------------------------------------------------------------------

  datatype Response = Response(text: string, model: string)

  /** `transcribe` after authentication: convert, stream (the frames are
      `StreamPcm`'s), collect from `msgs`, join. */
  function Transcribe(data: seq<byte>, filename: Option<string>, model: string,
                      parseRiff: seq<byte> -> WavOpen,
                      ffmpeg: seq<byte> -> Result<seq<byte>, int>,
                      msgs: seq<Option<Json>>): (r: Result<Response, BridgeError>)
    ensures r.Ok? ==> (r.value.model == model && CollectTexts(msgs).Ok?
      && FinalText(CollectTexts(msgs).value) == Ok(r.value.text))
    ensures ConvertToPcm16(data, filename, parseRiff, ffmpeg).Err? ==> r == Err(ConvertToPcm16(data, filename, parseRiff, ffmpeg).error)
    ensures ConvertToPcm16(data, filename, parseRiff, ffmpeg).Ok? && CollectTexts(msgs).Err? ==> r == Err(CollectTexts(msgs).error)
  {
    match ConvertToPcm16(data, filename, parseRiff, ffmpeg)
    case Err(e) => Err(e)
    case Ok(_) =>
      match CollectTexts(msgs)
      case Err(e) => Err(e)
      case Ok(texts) =>
        match FinalText(texts)
        case Err(e) => Err(e)
        case Ok(t) => Ok(Response(t, model))
  }
}

=== FILE: backend.dfy ===
/** The streaming server behind `/asr` (`whisper_fastapi_online_server.py`):
    the state the processors share, the result formatter that turns tokens
    into speaker lines and decides when to send, and the stop handshake. */
module Backend {
  import opened Base
  import opened Text
  import opened Json
  import TimedObjects

  /** A recognised word: `ASRToken` from `timed_objects.py`. */
  type Token = TimedObjects.TimedText

  // ---------------------------------------------------------------------------
  // Shared state
  // ---------------------------------------------------------------------------

  /** `SharedState` without its lock. `begLoop` is None after
      `stop_recording`. */
  datatype SharedState = SharedState(
    tokens: seq<Token>,
    bufferTranscription: string,
    bufferDiarization: string,
    fullTranscription: string,
    endBuffer: real,
    endAttributedSpeaker: real,
    begLoop: Option<real>,
    sep: string,
    lastResponseContent: string,
    recordedSeconds: real)

  /** The state a new connection starts from, created at time `now`. */
  function Initial(now: real): SharedState {
    SharedState([], "", "", "", 0.0, 0.0, Some(now), " ", "", 0.0)
  }

  /** `update_transcription`: appends the new tokens and replaces the
      transcription buffer, its end, the full text and the separator. */
  function UpdateTranscription(st: SharedState, newTokens: seq<Token>, buffer: string, endBuffer: real,
                               full: string, sep: string): (r: SharedState)
    ensures st.tokens <= r.tokens && r.tokens[|st.tokens|..] == newTokens
    ensures r.bufferTranscription == buffer && r.endBuffer == endBuffer
    ensures r.fullTranscription == full && r.sep == sep
    ensures r.(tokens := st.tokens, bufferTranscription := st.bufferTranscription, endBuffer := st.endBuffer,
               fullTranscription := st.fullTranscription, sep := st.sep) == st
  {
    st.(tokens := st.tokens + newTokens, bufferTranscription := buffer, endBuffer := endBuffer,
        fullTranscription := full, sep := sep)
  }

  /** `update_diarization`: the attributed end always moves; the diarization
      buffer is overwritten only by a non-empty text. */
  function UpdateDiarization(st: SharedState, endAttributed: real, buffer: string): (r: SharedState)
    ensures r.endAttributedSpeaker == endAttributed
    ensures buffer != "" ==> r == st.(endAttributedSpeaker := endAttributed, bufferDiarization := buffer)
    ensures buffer == "" ==> r == st.(endAttributedSpeaker := endAttributed)
  {
    var s := st.(endAttributedSpeaker := endAttributed);
    if buffer != "" then s.(bufferDiarization := buffer) else s
  }

  /** An empty diarization buffer never erases one set earlier. */
  lemma {:induction false} UpdateDiarizationKeepsBuffer(st: SharedState, e1: real, b: string, e2: real)
    ensures UpdateDiarization(UpdateDiarization(st, e1, b), e2, "").bufferDiarization
      == (if b != "" then b else st.bufferDiarization)
    ensures UpdateDiarization(UpdateDiarization(st, e1, b), e2, "") == UpdateDiarization(st, e2, b)
  {
  }

  /** The three lags `get_current_state` reports. */
  datatype Lags = Lags(input: real, transcription: real, diarization: real)

  function Max(a: real, b: real): (r: real)
    ensures r >= a && r >= b && (r == a || r == b)
  {
    if a >= b then a else b
  }

  /** `get_current_state`'s lags at time `now`: how far the received audio
      trails the wall clock, and how far transcription and speaker
      attribution trail the audio. The two-decimal rounding is not modelled. */
  function CurrentLags(st: SharedState, now: real): (r: Lags)
    ensures r.input >= 0.0 && r.transcription >= 0.0 && r.diarization >= 0.0
    ensures st.begLoop.None? ==> r.input == 0.0
    ensures st.begLoop.Some? ==> r.input >= now - st.begLoop.value - st.recordedSeconds
    ensures r.transcription >= st.recordedSeconds - st.endBuffer + r.input
    ensures r.diarization >= st.recordedSeconds - st.endAttributedSpeaker + r.input
    ensures r.transcription == 0.0 || r.transcription == st.recordedSeconds - st.endBuffer + r.input
    ensures r.diarization == 0.0 || r.diarization == st.recordedSeconds - st.endAttributedSpeaker + r.input
  {
    var input := if st.begLoop.Some? then Max(now - st.begLoop.value - st.recordedSeconds, 0.0) else 0.0;
    Lags(input,
         Max(0.0, st.recordedSeconds - st.endBuffer + input),
         Max(0.0, st.recordedSeconds - st.endAttributedSpeaker + input))
  }

  /** Lags only grow while nothing is recorded or transcribed. */
  lemma {:induction false} LagsMonotone(st: SharedState, t1: real, t2: real)
    requires t1 <= t2
    ensures CurrentLags(st, t1).input <= CurrentLags(st, t2).input
    ensures CurrentLags(st, t1).transcription <= CurrentLags(st, t2).transcription
    ensures CurrentLags(st, t1).diarization <= CurrentLags(st, t2).diarization
  {
  }

  /** Once the audio is transcribed up to its end and recording stopped, the
      transcription lag is zero. */
  lemma {:induction false} LagsCaughtUp(st: SharedState, now: real)
    requires st.begLoop.None? && st.endBuffer >= st.recordedSeconds
    ensures CurrentLags(st, now).transcription == 0.0
  {
  }

  /** `reset(reset_content)`: tokens, buffers, the buffer end and the last
      sent content always go; the full transcription and the attributed end
      go only when `resetContent`. */
  function Reset(st: SharedState, resetContent: bool): (r: SharedState)
    ensures r.tokens == [] && r.bufferTranscription == "" && r.bufferDiarization == ""
    ensures r.endBuffer == 0.0 && r.lastResponseContent == ""
    ensures resetContent ==> r.fullTranscription == "" && r.endAttributedSpeaker == 0.0
    ensures !resetContent ==> (r.fullTranscription == st.fullTranscription
      && r.endAttributedSpeaker == st.endAttributedSpeaker)
    ensures r.begLoop == st.begLoop && r.sep == st.sep && r.recordedSeconds == st.recordedSeconds
  {
    var s := st.(tokens := [], bufferTranscription := "", bufferDiarization := "", endBuffer := 0.0,
                 lastResponseContent := "");
    if resetContent then s.(fullTranscription := "", endAttributedSpeaker := 0.0) else s
  }

  /** A full reset returns to the initial state, apart from the clock, the
      separator and the recorded duration, which it leaves alone. */
  lemma {:induction false} ResetRestoresInitial(st: SharedState, now: real)
    ensures Reset(st, true) == Initial(now).(begLoop := st.begLoop, sep := st.sep, recordedSeconds := st.recordedSeconds)
    ensures Reset(Reset(st, false), true) == Reset(st, true)
    ensures Reset(Reset(st, true), false) == Reset(st, true)
  {
  }

  /** `start_recording`: a reset that keeps the content, then the duration
      restarts from zero and the clock from `now`. */
  function StartRecording(st: SharedState, now: real): (r: SharedState)
    ensures r.fullTranscription == st.fullTranscription && r.endAttributedSpeaker == st.endAttributedSpeaker
    ensures r.tokens == [] && r.recordedSeconds == 0.0 && r.begLoop == Some(now)
    ensures CurrentLags(r, now).input == 0.0
  {
    Reset(st, false).(recordedSeconds := 0.0, begLoop := Some(now))
  }

  /** `stop_recording`: the clock stops, and with it the input lag. */
  function StopRecording(st: SharedState): (r: SharedState)
    ensures r.begLoop.None? && r.(begLoop := st.begLoop) == st
    ensures forall now :: CurrentLags(r, now).input == 0.0
  {
    st.(begLoop := None)
  }

  /** `update_audio_duration`. */
  function UpdateAudioDuration(st: SharedState, seconds: real): (r: SharedState)
    ensures r.recordedSeconds == st.recordedSeconds + seconds && r.(recordedSeconds := st.recordedSeconds) == st
  {
    st.(recordedSeconds := st.recordedSeconds + seconds)
  }

  /** With the clock stopped, more audio raises the transcription lag by at
      most its duration. */
  lemma {:induction false} AudioDurationLag(st: SharedState, seconds: real, now: real)
    requires st.begLoop.None? && seconds >= 0.0
    ensures CurrentLags(st, now).transcription <= CurrentLags(UpdateAudioDuration(st, seconds), now).transcription
    ensures CurrentLags(UpdateAudioDuration(st, seconds), now).transcription <= CurrentLags(st, now).transcription + seconds
  {
  }

  // ---------------------------------------------------------------------------
  // Transcription processor
  // ---------------------------------------------------------------------------

  /** What one iteration of `transcription_processor` hands to
      `update_transcription`. */
  datatype TranscriptionUpdate = TranscriptionUpdate(buffer: string, endBuffer: real, full: string)

  /** One iteration after the transcriber produced `newTokens` and an
      uncommitted buffer `(bufferText, bufferEnd)`: the new tokens' text is
      added to the full transcription, and a buffer already contained in it is
      suppressed. The buffer end falls back to the last new token's end, then
      to 0, when it is unset or zero. */
  function ProcessTranscription(full: string, sep: string, newTokens: seq<Token>, bufferText: string,
                                bufferEnd: Option<real>): (r: TranscriptionUpdate)
    ensures full <= r.full
    ensures |newTokens| > 0 ==> r.full == full + Join(TimedObjects.Texts(newTokens), sep)
    ensures |newTokens| == 0 ==> r.full == full
    ensures r.buffer == "" || (r.buffer == bufferText && !IsSubstring(bufferText, r.full))
    ensures !IsSubstring(bufferText, r.full) ==> r.buffer == bufferText
    ensures bufferEnd.Some? && bufferEnd.value != 0.0 ==> r.endBuffer == bufferEnd.value
    ensures !(bufferEnd.Some? && bufferEnd.value != 0.0) ==>
      r.endBuffer == (if |newTokens| > 0 then newTokens[|newTokens| - 1].end else 0.0)
  {
    var added := if |newTokens| > 0 then TimedObjects.GetText(TimedObjects.TimedList(newTokens, None), Some(sep)).0 else "";
    var full' := full + added;
    var end :=
      if bufferEnd.Some? && bufferEnd.value != 0.0 then bufferEnd.value
      else if |newTokens| > 0 then newTokens[|newTokens| - 1].end
      else 0.0;
    TranscriptionUpdate(if IsSubstring(bufferText, full') then "" else bufferText, end, full')
  }

  /** A buffer text that is already part of the full transcription stays
      suppressed in every later iteration, and an empty buffer is always
      reported as empty. */
  lemma {:induction false} BufferSuppressedOnceCommitted(full: string, sep: string, newTokens: seq<Token>,
                                                         bufferText: string, bufferEnd: Option<real>)
    requires IsSubstring(bufferText, full) || bufferText == ""
    ensures ProcessTranscription(full, sep, newTokens, bufferText, bufferEnd).buffer == ""
  {
    var r := ProcessTranscription(full, sep, newTokens, bufferText, bufferEnd);
    if bufferText == "" {
      assert bufferText <= full;
    }
    SubstringOfExtension(bufferText, full, r.full[|full|..]);
    assert full + r.full[|full|..] == r.full;
  }

  // ---------------------------------------------------------------------------
  // Speaker lines
  // ---------------------------------------------------------------------------

  /** One entry of `lines`; `beg` and `end` are the token times before
      `format_time`, and `diff` is the end's distance from the last
      diarized end, before rounding. */
  datatype Line = Line(speaker: int, text: string, beg: real, end: real, diff: real)

  /** The formatter loop's variables: `previous_speaker`, `lines`,
      `undiarized_text` and `last_end_diarized`. */
  datatype Grouping = Grouping(previous: int, lines: seq<Line>, undiarized: seq<string>, lastEndDiarized: real)

  const Start: Grouping := Grouping(-1, [], [], 0.0)

  /** A speaker diarization has not assigned yet. */
  predicate Unassigned(speaker: int) {
    speaker == -1 || speaker == 0
  }

  /** One iteration of the token loop. With diarization, an unassigned token
      at or after the attributed end is held back as undiarized text, and an
      earlier one takes the previous speaker. A token starts a new line when
      its speaker differs from the previous one or there is no line yet;
      otherwise a non-empty text is appended to the last line after `sep`. */
  function AddToken(g: Grouping, t: Token, diarization: bool, endAttributed: real, sep: string): Grouping {
    if diarization && Unassigned(t.speaker) && t.end >= endAttributed then
      g.(undiarized := g.undiarized + [t.text])
    else
      var speaker := if diarization && Unassigned(t.speaker) then g.previous else t.speaker;
      var lastEnd := if diarization && !Unassigned(speaker) then Max(t.end, g.lastEndDiarized) else g.lastEndDiarized;
      if speaker != g.previous || |g.lines| == 0 then
        Grouping(speaker, g.lines + [Line(speaker, t.text, t.start, t.end, t.end - lastEnd)], g.undiarized, lastEnd)
      else if t.text != "" then
        var last := g.lines[|g.lines| - 1];
        Grouping(g.previous, g.lines[..|g.lines| - 1] + [last.(text := last.text + sep + t.text, end := t.end, diff := t.end - lastEnd)],
                 g.undiarized, lastEnd)
      else g.(lastEndDiarized := lastEnd)
  }

  /** The token loop of `results_formatter` over `tokens`. Every token makes
      at most one line or one undiarized text. */
  function Group(tokens: seq<Token>, diarization: bool, endAttributed: real, sep: string): (r: Grouping)
    ensures |r.lines| + |r.undiarized| <= |tokens|
    ensures |tokens| > 0 && !diarization ==> |r.lines| > 0
    ensures !diarization ==> r.undiarized == []
    decreases |tokens|
  {
    if |tokens| == 0 then Start
    else AddToken(Group(tokens[..|tokens| - 1], diarization, endAttributed, sep), tokens[|tokens| - 1],
                  diarization, endAttributed, sep)
  }

  /** The loop's invariant: the last line belongs to the previous speaker
      and neighbouring lines have different speakers. */
  predicate Coherent(g: Grouping) {
    (|g.lines| > 0 ==> g.lines[|g.lines| - 1].speaker == g.previous)
    && forall i :: 0 <= i < |g.lines| - 1 ==> g.lines[i].speaker != g.lines[i + 1].speaker
  }

  lemma {:induction false} AddTokenCoherent(g: Grouping, t: Token, diarization: bool, endAttributed: real, sep: string)
    requires Coherent(g)
    ensures Coherent(AddToken(g, t, diarization, endAttributed, sep))
  {
    var r := AddToken(g, t, diarization, endAttributed, sep);
    if r.lines != g.lines && |r.lines| == |g.lines| {
      forall i | 0 <= i < |r.lines| - 1 ensures r.lines[i].speaker != r.lines[i + 1].speaker {
        assert r.lines[i] == g.lines[i];
      }
    }
  }

  /** Adjacent lines always have different speakers. */
  lemma {:induction false} GroupCoherent(tokens: seq<Token>, diarization: bool, endAttributed: real, sep: string)
    ensures Coherent(Group(tokens, diarization, endAttributed, sep))
    decreases |tokens|
  {
    if |tokens| > 0 {
      GroupCoherent(tokens[..|tokens| - 1], diarization, endAttributed, sep);
      AddTokenCoherent(Group(tokens[..|tokens| - 1], diarization, endAttributed, sep), tokens[|tokens| - 1],
                       diarization, endAttributed, sep);
    }
  }

  /** The texts diarization has not reached: unassigned tokens ending at or
      after the attributed end, in order. */
  function UndiarizedTexts(tokens: seq<Token>, endAttributed: real): (r: seq<string>)
    decreases |tokens|
  {
    if |tokens| == 0 then []
    else
      var t := tokens[|tokens| - 1];
      UndiarizedTexts(tokens[..|tokens| - 1], endAttributed)
        + (if Unassigned(t.speaker) && t.end >= endAttributed then [t.text] else [])
  }

  /** With diarization, the held-back text is exactly the undiarized tokens'
      texts. */
  lemma {:induction false} GroupUndiarized(tokens: seq<Token>, endAttributed: real, sep: string)
    ensures Group(tokens, true, endAttributed, sep).undiarized == UndiarizedTexts(tokens, endAttributed)
    decreases |tokens|
  {
    if |tokens| > 0 {
      GroupUndiarized(tokens[..|tokens| - 1], endAttributed, sep);
    }
  }

  /** With diarization no line is ever attributed to speaker 0: unassigned
      tokens either wait or inherit a speaker that already has a line, and
      the loop starts from -1. */
  lemma {:induction false} DiarizedLinesNoSpeakerZero(tokens: seq<Token>, endAttributed: real, sep: string)
    ensures var g := Group(tokens, true, endAttributed, sep);
      g.previous != 0 && forall i :: 0 <= i < |g.lines| ==> g.lines[i].speaker != 0
    decreases |tokens|
  {
    if |tokens| > 0 {
      DiarizedLinesNoSpeakerZero(tokens[..|tokens| - 1], endAttributed, sep);
      var g := Group(tokens[..|tokens| - 1], true, endAttributed, sep);
      var r := Group(tokens, true, endAttributed, sep);
      forall i | 0 <= i < |r.lines| ensures r.lines[i].speaker != 0 {
        if i < |g.lines| - 1 || (i < |g.lines| && |r.lines| > |g.lines|) {
          assert r.lines[i] == g.lines[i];
        }
      }
    }
  }

  /** How often the speaker changes along `tokens`, counting the first token
      against `previous`. */
  function SpeakerChanges(previous: int, tokens: seq<Token>): (r: nat)
    decreases |tokens|
  {
    if |tokens| == 0 then 0
    else
      var t := tokens[|tokens| - 1];
      var before := if |tokens| == 1 then previous else tokens[|tokens| - 2].speaker;
      SpeakerChanges(previous, tokens[..|tokens| - 1]) + (if t.speaker != before then 1 else 0)
  }

  /** Without diarization there is one line per run of equal speakers. */
  lemma {:induction false} GroupLineCount(tokens: seq<Token>, sep: string, endAttributed: real)
    requires |tokens| > 0
    ensures |Group(tokens, false, endAttributed, sep).lines| == 1 + SpeakerChanges(tokens[0].speaker, tokens[1..])
    ensures Group(tokens, false, endAttributed, sep).previous == tokens[|tokens| - 1].speaker
    decreases |tokens|
  {
    var n := |tokens|;
    if n > 1 {
      var init := tokens[..n - 1];
      GroupLineCount(init, sep, endAttributed);
      assert init[1..] == tokens[1..][..n - 2];
      assert init[0] == tokens[0];
      assert tokens[1..][n - 2] == tokens[n - 1];
      if n > 2 {
        assert tokens[1..][n - 3] == tokens[n - 2];
      }
    }
  }

  /** Without diarization, tokens of one speaker with non-empty texts make a
      single line: their texts joined by `sep`, from the first start to the
      last end. */
  lemma {:induction false} SingleSpeakerLine(tokens: seq<Token>, sep: string, endAttributed: real, s: int)
    requires |tokens| > 0
    requires forall i :: 0 <= i < |tokens| ==> tokens[i].speaker == s && tokens[i].text != ""
    ensures Group(tokens, false, endAttributed, sep)
      == Grouping(s, [Line(s, Join(TimedObjects.Texts(tokens), sep), tokens[0].start, tokens[|tokens| - 1].end,
                           tokens[|tokens| - 1].end)], [], 0.0)
    decreases |tokens|
  {
    var n := |tokens|;
    if n > 1 {
      var init := tokens[..n - 1];
      SingleSpeakerLine(init, sep, endAttributed, s);
      TimedObjects.TextsAppend(init, [tokens[n - 1]]);
      assert init + [tokens[n - 1]] == tokens;
      JoinAppend(TimedObjects.Texts(init), tokens[n - 1].text, sep);
      assert TimedObjects.Texts([tokens[n - 1]]) == [tokens[n - 1].text];
    } else {
      assert TimedObjects.Texts(tokens) == [tokens[0].text];
    }
  }

  // ---------------------------------------------------------------------------
  // Responses
  // ---------------------------------------------------------------------------

  /** The response `results_formatter` sends. */
  datatype Response = Response(lines: seq<Line>, bufferTranscription: string, bufferDiarization: string, lags: Lags)

  /** The lines of a response: the grouped lines, or a single placeholder
      line of speaker 1 with empty text when there are none. */
  function ResponseLines(lines: seq<Line>, tokens: seq<Token>): (r: seq<Line>)
    ensures |r| > 0
    ensures |lines| > 0 ==> r == lines
    ensures |lines| == 0 ==> |r| == 1 && r[0].speaker == 1 && r[0].text == "" && r[0].beg == 0.0
    ensures |lines| == 0 ==> r[0].end == (if |tokens| > 0 then tokens[|tokens| - 1].end else 0.0)
  {
    if |lines| > 0 then lines
    else [Line(1, "", 0.0, if |tokens| > 0 then tokens[|tokens| - 1].end else 0.0, 0.0)]
  }

  function Summaries(lines: seq<Line>): (r: seq<string>)
    ensures |r| == |lines|
  {
    seq(|lines|, i requires 0 <= i < |lines| => IntToString(lines[i].speaker) + " " + lines[i].text)
  }

  /** The change-detection key: every grouped line as `speaker text`, then
      both buffers. Lags and times are not part of it. */
  function Content(lines: seq<Line>, bufferTranscription: string, bufferDiarization: string): string {
    Join(Summaries(lines), " ") + " | " + bufferTranscription + " | " + bufferDiarization
  }

  /** Whether to send, and the last sent content afterwards. */
  datatype Publication = Publication(send: bool, last: string)

  /** Send only a changed content, and only when there is something to
      show; the recorded content changes only on a send. */
  function Publish(last: string, content: string, hasSomething: bool): (r: Publication)
    ensures r.send <==> content != last && hasSomething
    ensures r.send ==> r.last == content
    ensures !r.send ==> r.last == last
  {
    if content != last && hasSomething then Publication(true, content) else Publication(false, last)
  }

  /** The same content is never sent twice in a row. */
  lemma {:induction false} PublishIdempotent(last: string, content: string, hasSomething: bool)
    ensures !Publish(Publish(last, content, hasSomething).last, content, hasSomething).send
  {
  }

  /** The outcome of one formatter iteration: what was sent, and the state
      after it. */
  datatype Round = Round(sent: Option<Response>, state: SharedState)

  /** One iteration of `results_formatter` in the evident intent, with the
      dummy-token branch not taken: group the tokens, fold undiarized text
      into the diarization buffer, and send the response when its content
      changed. */
  function FormatRound(st: SharedState, diarization: bool, now: real): (r: Round)
    ensures r.state.tokens == st.tokens && r.state.fullTranscription == st.fullTranscription
    ensures r.sent.None? <==> r.state.lastResponseContent == st.lastResponseContent
    ensures r.sent.Some? ==> (|r.sent.value.lines| > 0
      && r.sent.value.lines == ResponseLines(Group(st.tokens, diarization, st.endAttributedSpeaker, st.sep).lines, st.tokens)
      && r.sent.value.bufferTranscription == st.bufferTranscription)
    ensures |st.tokens| == 0 && st.bufferTranscription == "" && st.bufferDiarization == "" ==> r.sent.None?
    ensures var u := Group(st.tokens, diarization, st.endAttributedSpeaker, st.sep).undiarized;
      var folded := Join(u, st.sep) + (if st.bufferTranscription != "" then st.sep else "");
      (r.sent.Some? ==> r.sent.value.bufferDiarization == (if |u| > 0 then folded else st.bufferDiarization))
      && r.state.bufferDiarization == (if |u| > 0 && folded != "" then folded else st.bufferDiarization)
    ensures !diarization ==> (r.state.bufferDiarization == st.bufferDiarization
      && (r.sent.Some? ==> r.sent.value.bufferDiarization == st.bufferDiarization))
    ensures var g := Group(st.tokens, diarization, st.endAttributedSpeaker, st.sep);
      var folded := Join(g.undiarized, st.sep) + (if st.bufferTranscription != "" then st.sep else "");
      var bd := if |g.undiarized| > 0 then folded else st.bufferDiarization;
      var content := Content(g.lines, st.bufferTranscription, bd);
      (r.sent.Some? <==> (content != st.lastResponseContent
        && (|g.lines| > 0 || st.bufferTranscription != "" || bd != "")))
      && (r.sent.Some? ==> r.state.lastResponseContent == content)
  {
    var g := Group(st.tokens, diarization, st.endAttributedSpeaker, st.sep);
    var bt := st.bufferTranscription;
    var combined := Join(g.undiarized, st.sep) + (if bt != "" then st.sep else "");
    var st1 := if |g.undiarized| > 0 then UpdateDiarization(st, st.endAttributedSpeaker, combined) else st;
    var bd := if |g.undiarized| > 0 then combined else st.bufferDiarization;
    var p := Publish(st1.lastResponseContent, Content(g.lines, bt, bd), |g.lines| > 0 || bt != "" || bd != "");
    Round(if p.send then Some(Response(ResponseLines(g.lines, st.tokens), bt, bd, CurrentLags(st, now))) else None,
          st1.(lastResponseContent := p.last))
  }

  /** Until the processors change the state, a second iteration sends
      nothing: what was sent is exactly what the state now records. */
  lemma {:induction false} FormatRoundTwice(st: SharedState, diarization: bool, t1: real, t2: real)
    ensures FormatRound(FormatRound(st, diarization, t1).state, diarization, t2).sent.None?
  {
    var st1 := FormatRound(st, diarization, t1).state;
    var g := Group(st.tokens, diarization, st.endAttributedSpeaker, st.sep);
    assert st1.tokens == st.tokens && st1.endAttributedSpeaker == st.endAttributedSpeaker && st1.sep == st.sep;
    assert st1.bufferTranscription == st.bufferTranscription;
  }

  /** Python exceptions in the formatter and endpoint. */
  datatype PyError = AttributeError | TypeError

  /** The pipeline's mode switches. */
  datatype Mode = Mode(transcription: bool, diarization: bool)

  /** The iteration as written: the dummy-token test reads `is_dummy` of the
      last token whenever there is one, but `ASRToken` has no such
      attribute, and a dummy token cannot be built because the constructor
      takes no `is_dummy`. The loop catches the exception and retries. */
  function FormatRoundAsWritten(st: SharedState, mode: Mode, now: real): (r: Result<Round, PyError>)
    ensures |st.tokens| > 0 ==> r == Err(AttributeError)
    ensures r.Ok? ==> r.value == FormatRound(st, mode.diarization, now)
  {
    if |st.tokens| > 0 then Err(AttributeError)
    else if !mode.transcription && mode.diarization then Err(TypeError)
    else Ok(FormatRound(st, mode.diarization, now))
  }

  /** As written, once any token exists no iteration sends anything and the
      last sent content stays as it was, so no transcribed line reaches a
      client. */
  lemma {:induction false} DummyCheckBlocksResults(st: SharedState, mode: Mode, now: real, tok: Token)
    ensures FormatRoundAsWritten(st.(tokens := st.tokens + [tok]), mode, now).Err?
    ensures FormatRoundAsWritten(st.(tokens := [tok], bufferTranscription := "", lastResponseContent := ""),
                                 Mode(true, false), now) == Err(AttributeError)
  {
  }

  /** The iteration with the mode tested before `is_dummy`, as the
      dummy-token comment intends: with transcription on it never fails.
      The diarization-only mode still fails, on the dummy token's
      constructor. */
  function FormatRoundFixed(st: SharedState, mode: Mode, now: real): (r: Result<Round, PyError>)
    ensures mode.transcription ==> r == Ok(FormatRound(st, mode.diarization, now))
    ensures !mode.transcription && mode.diarization ==> r == Err(TypeError)
  {
    if !mode.transcription && mode.diarization then Err(TypeError)
    else Ok(FormatRound(st, mode.diarization, now))
  }

  /** Corrected, a first token of a transcription-only session is sent as a
      line of its own. */
  lemma {:induction false} FixedRoundSendsFirstToken(st: SharedState, tok: Token, now: real)
    requires tok.text != "" && st.lastResponseContent == ""
    ensures var r := FormatRoundFixed(st.(tokens := [tok]), Mode(true, false), now);
      r.Ok? && r.value.sent.Some? && r.value.sent.value.lines == [Line(tok.speaker, tok.text, tok.start, tok.end, tok.end)]
  {
    var s := st.(tokens := [tok]);
    assert [tok][..0] == [];
    var g := Group(s.tokens, false, s.endAttributedSpeaker, s.sep);
    assert Group(s.tokens[..0], false, s.endAttributedSpeaker, s.sep) == Start;
    assert g == AddToken(Start, tok, false, s.endAttributedSpeaker, s.sep);
    assert g.lines == [Line(tok.speaker, tok.text, tok.start, tok.end, tok.end)];
    assert Summaries(g.lines) == [IntToString(tok.speaker) + " " + tok.text];
    assert Content(g.lines, s.bufferTranscription, s.bufferDiarization) != "" by {
      assert |Content(g.lines, s.bufferTranscription, s.bufferDiarization)| >= 3;
    }
  }

  // ---------------------------------------------------------------------------
  // Messages
  // ---------------------------------------------------------------------------

  /** A line as the JSON object sent; `fmt` is `format_time`. */
  function LineJson(l: Line, fmt: real -> string): (j: Json)
    ensures j.JObj? && Get(j, "text") == Some(JStr(l.text)) && Get(j, "speaker") == Some(JNum(Int(l.speaker)))
  {
    var m1 := [("speaker", JNum(Int(l.speaker)))];
    var m2 := m1 + [("text", JStr(l.text))];
    var m3 := m2 + [("beg", JStr(fmt(l.beg)))];
    var m4 := m3 + [("end", JStr(fmt(l.end)))];
    LookupLastBinding(m1, "text", JStr(l.text));
    LookupOtherBinding(m2, "text", "beg", JStr(fmt(l.beg)));
    LookupOtherBinding(m3, "text", "end", JStr(fmt(l.end)));
    LookupOtherBinding(m4, "text", "diff", JNum(Decimal(l.diff)));
    LookupLastBinding([], "speaker", JNum(Int(l.speaker)));
    assert [] + m1 == m1;
    LookupOtherBinding(m1, "speaker", "text", JStr(l.text));
    LookupOtherBinding(m2, "speaker", "beg", JStr(fmt(l.beg)));
    LookupOtherBinding(m3, "speaker", "end", JStr(fmt(l.end)));
    LookupOtherBinding(m4, "speaker", "diff", JNum(Decimal(l.diff)));
    JObj(m4 + [("diff", JNum(Decimal(l.diff)))])
  }

  /** The response as the JSON object `send_json` writes. */
  function ResponseJson(r: Response, fmt: real -> string): (j: Json)
    ensures j.JObj? && Get(j, "type").None? && Get(j, "text").None?
    ensures Get(j, "buffer_transcription") == Some(JStr(r.bufferTranscription))
    ensures Get(j, "buffer_diarization") == Some(JStr(r.bufferDiarization))
    ensures Get(j, "lines").Some? && Get(j, "lines").value.JArr?
      && |Get(j, "lines").value.items| == |r.lines|
      && forall i :: 0 <= i < |r.lines| ==> Get(j, "lines").value.items[i] == LineJson(r.lines[i], fmt)
  {
    var items := seq(|r.lines|, i requires 0 <= i < |r.lines| => LineJson(r.lines[i], fmt));
    var m1 := [("lines", JArr(items))];
    var m2 := m1 + [("buffer_transcription", JStr(r.bufferTranscription))];
    var m3 := m2 + [("buffer_diarization", JStr(r.bufferDiarization))];
    var m4 := m3 + [("transcription_lag", JNum(Decimal(r.lags.transcription)))];
    var m := m4 + [("diarization_lag", JNum(Decimal(r.lags.diarization)))];
    LookupLastBinding([], "lines", JArr(items));
    assert [] + m1 == m1;
    LookupOtherBinding(m1, "lines", "buffer_transcription", JStr(r.bufferTranscription));
    LookupOtherBinding(m2, "lines", "buffer_diarization", JStr(r.bufferDiarization));
    LookupOtherBinding(m3, "lines", "transcription_lag", JNum(Decimal(r.lags.transcription)));
    LookupOtherBinding(m4, "lines", "diarization_lag", JNum(Decimal(r.lags.diarization)));
    LookupOtherBinding(m2, "buffer_transcription", "buffer_diarization", JStr(r.bufferDiarization));
    LookupOtherBinding(m3, "buffer_transcription", "transcription_lag", JNum(Decimal(r.lags.transcription)));
    LookupOtherBinding(m4, "buffer_transcription", "diarization_lag", JNum(Decimal(r.lags.diarization)));
    LookupOtherBinding(m3, "buffer_diarization", "transcription_lag", JNum(Decimal(r.lags.transcription)));
    LookupOtherBinding(m4, "buffer_diarization", "diarization_lag", JNum(Decimal(r.lags.diarization)));
    assert forall i :: 0 <= i < |m| ==> m[i].0 != "type" && m[i].0 != "text";
    JObj(m)
  }

  /** The message that ends a controlled stop. */
  const ReadyToStop: Json := JObj([("type", JStr("ready_to_stop"))])

  // ---------------------------------------------------------------------------
  // The receive loop
  // ---------------------------------------------------------------------------

  /** What `websocket.receive_bytes` meets: a binary frame, a text frame
      (which it rejects with an exception) or a disconnect. */
  datatype Incoming = Bytes(data: seq<byte>) | TextFrame(text: string) | Disconnect

  /** How the main loop ended; `StillOpen` when the frames ran out first. */
  datatype Ending = ControlledStop | Disconnected | Failed | StillOpen

  /** The audio written to the decoder, and how the loop ended. */
  datatype Received = Received(audio: seq<seq<byte>>, ending: Ending)

  /** The main loop of `websocket_endpoint`: non-empty binary frames go to
      the decoder; a zero-length one is the stop signal. */
  function ReceiveFrames(frames: seq<Incoming>): (r: Received)
    ensures |r.audio| <= |frames|
    ensures forall i :: 0 <= i < |r.audio| ==> |r.audio[i]| > 0
    decreases |frames|
  {
    if |frames| == 0 then Received([], StillOpen)
    else
      match frames[0]
      case Disconnect => Received([], Disconnected)
      case TextFrame(_) => Received([], Failed)
      case Bytes(d) =>
        if |d| == 0 then Received([], ControlledStop)
        else
          var rest := ReceiveFrames(frames[1..]);
          Received([d] + rest.audio, rest.ending)
  }

  function BinaryFrames(blocks: seq<seq<byte>>): (r: seq<Incoming>)
    ensures |r| == |blocks| && forall i :: 0 <= i < |r| ==> r[i] == Bytes(blocks[i])
  {
    seq(|blocks|, i requires 0 <= i < |blocks| => Bytes(blocks[i]))
  }

  /** The ending a frame that is not audio brings about. */
  function EndingAt(f: Incoming): Ending {
    match f
    case Bytes(_) => ControlledStop
    case TextFrame(_) => Failed
    case Disconnect => Disconnected
  }

  /** Non-empty audio frames are decoded in order up to the first frame that
      is not audio, which decides the ending; nothing after it is read. An
      empty binary frame is a controlled stop. */
  lemma {:induction false} ReceiveAudioThen(blocks: seq<seq<byte>>, last: Incoming, rest: seq<Incoming>)
    requires forall i :: 0 <= i < |blocks| ==> |blocks[i]| > 0
    requires last.Bytes? ==> last.data == []
    ensures ReceiveFrames(BinaryFrames(blocks) + [last] + rest) == Received(blocks, EndingAt(last))
    decreases |blocks|
  {
    var frames := BinaryFrames(blocks) + [last] + rest;
    if |blocks| > 0 {
      assert frames[0] == Bytes(blocks[0]);
      assert frames[1..] == BinaryFrames(blocks[1..]) + [last] + rest;
      ReceiveAudioThen(blocks[1..], last, rest);
      assert [blocks[0]] + blocks[1..] == blocks;
    } else {
      assert frames[0] == last;
    }
  }

  /** Without a zero-length binary frame there is no controlled stop. */
  lemma {:induction false} NoStopWithoutEmptyFrame(frames: seq<Incoming>)
    requires forall i :: 0 <= i < |frames| ==> frames[i] != Bytes([])
    ensures ReceiveFrames(frames).ending != ControlledStop
    decreases |frames|
  {
    if |frames| > 0 && frames[0].Bytes? && |frames[0].data| > 0 {
      NoStopWithoutEmptyFrame(frames[1..]);
    }
  }

  /** What the endpoint sends after the loop: `ready_to_stop` only after a
      controlled stop, nothing after a disconnect or a failure. */
  function Farewell(ending: Ending): (r: seq<Json>)
    ensures r == [ReadyToStop] <==> ending == ControlledStop
    ensures ending != ControlledStop ==> r == []
  {
    if ending == ControlledStop then [ReadyToStop] else []
  }
}

=== FILE: base.dfy ===
/** Failure-carrying wrappers and the byte type shared by every other module. */
module Base {

  /** A value that may be absent: Python's `None`, C#'s `null`. */
  datatype Option<T> = None | Some(value: T)

  /** The outcome of an operation that may raise: a value, or the error it raised. */
  datatype Result<T, E> = Ok(value: T) | Err(error: E)

  /** One octet of a WebSocket payload or of PCM audio. */
  newtype byte = x: int | 0 <= x < 256

  /** The in-order concatenation of a sequence of sequences. */
  function Flatten<T>(chunks: seq<seq<T>>): seq<T>
    decreases |chunks|
  {
    if |chunks| == 0 then [] else chunks[0] + Flatten(chunks[1..])
  }

  lemma {:induction false} FlattenAppend<T>(a: seq<seq<T>>, b: seq<seq<T>>)
    ensures Flatten(a + b) == Flatten(a) + Flatten(b)
    decreases |a|
  {
    if |a| == 0 {
      assert a + b == b;
    } else {
      assert (a + b)[1..] == a[1..] + b;
      FlattenAppend(a[1..], b);
    }
  }

  /** Number of occurrences of `x` in `s`. */
  function Count<T(==)>(s: seq<T>, x: T): nat
    decreases |s|
  {
    if |s| == 0 then 0 else (if s[0] == x then 1 else 0) + Count(s[1..], x)
  }

  lemma {:induction false} CountAppend<T>(a: seq<T>, b: seq<T>, x: T)
    ensures Count(a + b, x) == Count(a, x) + Count(b, x)
    decreases |a|
  {
    if |a| == 0 {
      assert a + b == b;
    } else {
      assert (a + b)[1..] == a[1..] + b;
      CountAppend(a[1..], b, x);
    }
  }

  lemma {:induction false} CountAbsent<T>(s: seq<T>, x: T)
    requires forall i :: 0 <= i < |s| ==> s[i] != x
    ensures Count(s, x) == 0
    decreases |s|
  {
    if |s| > 0 {
      CountAbsent(s[1..], x);
    }
  }
}

=== FILE: desktop_client.dfy ===
/** The Avalonia desktop client: its `/asr` receive loop with fragment
    reassembly, the recording session's teardown order, the record button,
    the settings accessors and the endpoint/host text logic. */
module DesktopClient {
  import opened Base
  import opened Text
  import opened Json

  // ---------------------------------------------------------------------------
  // Fragment reassembly (section 5.4 of RFC 6455)
  // ---------------------------------------------------------------------------

  datatype MessageType = TextMessage | BinaryMessage | CloseMessage

  /** What one `ReceiveAsync` call reports: the frame's type, the bytes it
      delivered and whether it finished the logical message. */
  datatype Fragment = Fragment(kind: MessageType, data: seq<byte>, endOfMessage: bool)

  /** The outcome of reading one logical message: its type (that of the final
      fragment), its payload and how many fragments it took; or the end of the
      transport before a message was complete. */
  datatype Received =
    | Message(kind: MessageType, payload: seq<byte>, consumed: nat)
    | Truncated

  /** The bytes the fragments deliver, in order. */
  function Payload(frags: seq<Fragment>): seq<byte>
    decreases |frags|
  {
    if |frags| == 0 then [] else frags[0].data + Payload(frags[1..])
  }

  lemma {:induction false} PayloadSnoc(frags: seq<Fragment>, f: Fragment)
    ensures Payload(frags + [f]) == Payload(frags) + f.data
    decreases |frags|
  {
    if |frags| == 0 {
      assert [f][1..] == [];
    } else {
      assert (frags + [f])[1..] == frags[1..] + [f];
      PayloadSnoc(frags[1..], f);
    }
  }

  /** The inner do/while of the receive loop: keep reading until a fragment
      carries EndOfMessage; the payload is every fragment's bytes up to and
      including that one. */
  function Reassemble(frags: seq<Fragment>): (r: Received)
    ensures r.Truncated? <==> forall j :: 0 <= j < |frags| ==> !frags[j].endOfMessage
    ensures r.Message? ==>
      && 0 < r.consumed <= |frags|
      && frags[r.consumed - 1].endOfMessage
      && (forall j :: 0 <= j < r.consumed - 1 ==> !frags[j].endOfMessage)
      && r.kind == frags[r.consumed - 1].kind
      && r.payload == Payload(frags[..r.consumed])
    decreases |frags|
  {
    if |frags| == 0 then Truncated
    else if frags[0].endOfMessage then
      assert Payload(frags[..1]) == frags[0].data + Payload(frags[..1][1..]);
      Message(frags[0].kind, frags[0].data, 1)
    else
      match Reassemble(frags[1..])
      case Truncated => Truncated
      case Message(kind, payload, consumed) =>
        assert frags[..consumed + 1][1..] == frags[1..][..consumed];
        Message(kind, frags[0].data + payload, consumed + 1)
  }

  // ---------------------------------------------------------------------------
  // Applying one decoded message to the transcript
  // ---------------------------------------------------------------------------

  /** An exception escaping the message handler: the rest of the message is dropped. */
  datatype Abort = Abort

  /** `JsonElement.GetString()`: null for JSON null, the text for a string,
      an exception for every other kind. */
  function ElementString(v: Json): (r: Result<Option<string>, Abort>)
    ensures r.Ok? <==> v.JNull? || v.JStr?
    ensures v.JStr? ==> r == Ok(Some(v.s))
  {
    match v
    case JNull => Ok(None)
    case JStr(s) => Ok(Some(s))
    case _ => Err(Abort)
  }

  /** `string.IsNullOrWhiteSpace`. */
  predicate NullOrWhiteSpace(t: Option<string>) {
    t.None? || IsBlank(t.value, IsClrSpace)
  }

  /** The text one `lines` element contributes: `TryGetProperty` throws on a
      non-object, `GetString` on a non-string `text`; a missing or null text
      is null. */
  function LineText(l: Json): (r: Result<Option<string>, Abort>)
    ensures r.Err? <==> !l.JObj? || (Get(l, "text").Some? && ElementString(Get(l, "text").value).Err?)
  {
    if !l.JObj? then Err(Abort)
    else
      match Lookup(l.members, "text")
      case None => Ok(None)
      case Some(tt) => ElementString(tt)
  }

  /** What the handler appends for the elements of a `lines` array, and
      whether an element threw part-way (appends already made are kept). */
  datatype Partial = Partial(texts: seq<string>, aborted: bool)

  predicate IsAppend(a: string) {
    |a| > 0 && a[|a| - 1] == '\n' && !IsBlank(a[..|a| - 1], IsClrSpace)
  }

  function AppendLines(items: seq<Json>): (r: Partial)
    ensures |r.texts| <= |items|
    ensures forall i :: 0 <= i < |r.texts| ==> IsAppend(r.texts[i])
    ensures r.aborted <==> exists i :: 0 <= i < |items| && LineText(items[i]).Err?
    decreases |items|
  {
    if |items| == 0 then Partial([], false)
    else
      match LineText(items[0])
      case Err(_) => Partial([], true)
      case Ok(t) =>
        var rest := AppendLines(items[1..]);
        assert forall i :: 1 <= i < |items| ==> items[i] == items[1..][i - 1];
        var here := if NullOrWhiteSpace(t) then [] else [t.value + "\n"];
        assert forall a :: a in here ==> a[..|a| - 1] == t.value;
        Partial(here + rest.texts, rest.aborted)
  }

  /** Processing two runs of elements one after the other: the second run
      only counts when the first did not throw. */
  lemma {:induction false} AppendLinesConcat(a: seq<Json>, b: seq<Json>)
    ensures AppendLines(a + b) ==
      (if AppendLines(a).aborted then AppendLines(a)
       else Partial(AppendLines(a).texts + AppendLines(b).texts, AppendLines(b).aborted))
    decreases |a|
  {
    if |a| == 0 {
      assert a + b == b;
    } else {
      assert (a + b)[0] == a[0];
      assert (a + b)[1..] == a[1..] + b;
      AppendLinesConcat(a[1..], b);
      match LineText(a[0])
      case Err(_) =>
        assert AppendLines(a + b) == Partial([], true);
      case Ok(t) =>
        var here := if NullOrWhiteSpace(t) then [] else [t.value + "\n"];
        var tail := AppendLines(a[1..]);
        assert AppendLines(a) == Partial(here + tail.texts, tail.aborted);
        assert AppendLines(a + b) == Partial(here + AppendLines(a[1..] + b).texts, AppendLines(a[1..] + b).aborted);
        if !tail.aborted {
          assert here + (tail.texts + AppendLines(b).texts) == here + tail.texts + AppendLines(b).texts;
        }
    }
  }

  /** A single element: a non-blank text string is appended with a newline,
      a blank, null or missing text adds nothing, anything else throws. */
  lemma {:induction false} AppendLinesSingle(l: Json)
    ensures AppendLines([l]) ==
      match LineText(l)
      case Err(_) => Partial([], true)
      case Ok(t) => Partial(if NullOrWhiteSpace(t) then [] else [t.value + "\n"], false)
  {
    assert [l][1..] == [];
  }

  /** The effect of one decoded message: the texts appended, in order, and
      whether the loop stops. */
  datatype Applied = Applied(appended: seq<string>, stop: bool)

  /** The buffer field `name`, appended when it is a non-blank JSON string. */
  function BufferAppend(members: seq<(string, Json)>, name: string): (r: seq<string>)
    ensures |r| <= 1
    ensures |r| == 1 <==> (Lookup(members, name).Some? && Lookup(members, name).value.JStr?
      && !IsBlank(Lookup(members, name).value.s, IsClrSpace))
    ensures |r| == 1 ==> r[0] == Lookup(members, name).value.s + "\n" && IsAppend(r[0])
  {
    match Lookup(members, name)
    case Some(JStr(t)) =>
      if IsBlank(t, IsClrSpace) then [] else
        var a := t + "\n";
        assert a[..|a| - 1] == t;
        [a]
    case _ => []
  }

  function ApplyMessage(root: Json): (r: Applied)
    ensures r.stop <==> Get(root, "type") == Some(JStr("ready_to_stop"))
    ensures r.stop ==> r.appended == []
    ensures forall i :: 0 <= i < |r.appended| ==> IsAppend(r.appended[i])
    ensures !root.JObj? ==> r == Applied([], false)
  {
    if !root.JObj? then Applied([], false)
    else
      var m := root.members;
      var ty := match Lookup(m, "type") case None => Ok(None) case Some(v) => ElementString(v);
      if ty.Err? then Applied([], false)
      else if ty.value == Some("ready_to_stop") then Applied([], true)
      else
        var fromLines := match Lookup(m, "lines")
          case Some(JArr(items)) => AppendLines(items)
          case _ => Partial([], false);
        if fromLines.aborted then Applied(fromLines.texts, false)
        else Applied(fromLines.texts + BufferAppend(m, "buffer_transcription") + BufferAppend(m, "buffer_diarization"), false)
  }

  /** A message with no `lines` array contributes only its non-blank string buffers,
      transcription before diarization. */
  lemma {:induction false} ApplyMessageBuffersOnly(m: seq<(string, Json)>)
    requires Lookup(m, "type").None?
    requires forall i :: 0 <= i < |m| ==> m[i].0 != "lines"
    ensures ApplyMessage(JObj(m)).appended ==
      BufferAppend(m, "buffer_transcription") + BufferAppend(m, "buffer_diarization")
  {
    assert Lookup(m, "lines").None?;
    var r := ApplyMessage(JObj(m));
    var fromLines := Partial([], false);
    assert r == Applied(fromLines.texts + BufferAppend(m, "buffer_transcription") + BufferAppend(m, "buffer_diarization"), false);
  }

  /** A message with no `type` and a `lines` array whose elements all
      convert contributes their appends, then the string buffers. */
  lemma {:induction false} ApplyMessageWithLines(m: seq<(string, Json)>, items: seq<Json>)
    requires Lookup(m, "type").None? && Lookup(m, "lines") == Some(JArr(items))
    requires !AppendLines(items).aborted
    ensures ApplyMessage(JObj(m)) ==
      Applied(AppendLines(items).texts + BufferAppend(m, "buffer_transcription") + BufferAppend(m, "buffer_diarization"), false)
  {
  }

  /** A `type` that lets the loop go on: absent, null, or a string other than
      `ready_to_stop`. */
  predicate ContinuingType(m: seq<(string, Json)>) {
    match Lookup(m, "type")
    case None => true
    case Some(v) => v.JNull? || (v.JStr? && v.s != "ready_to_stop")
  }

  /** An element of `lines` that throws keeps the appends made before it and
      skips both buffers of the message. */
  lemma {:induction false} ApplyMessageAbortedLines(m: seq<(string, Json)>, items: seq<Json>)
    requires ContinuingType(m)
    requires Lookup(m, "lines") == Some(JArr(items)) && AppendLines(items).aborted
    ensures ApplyMessage(JObj(m)) == Applied(AppendLines(items).texts, false)
  {
  }

  /** A string `type` other than `ready_to_stop` is ignored: the message has
      the effect of one with the same `lines` and buffers and no type. */
  lemma {:induction false} ApplyMessageOtherType(m1: seq<(string, Json)>, m2: seq<(string, Json)>, t: string)
    requires Lookup(m1, "type") == Some(JStr(t)) && t != "ready_to_stop"
    requires Lookup(m2, "type").None?
    requires Lookup(m1, "lines") == Lookup(m2, "lines")
    requires Lookup(m1, "buffer_transcription") == Lookup(m2, "buffer_transcription")
    requires Lookup(m1, "buffer_diarization") == Lookup(m2, "buffer_diarization")
    ensures ApplyMessage(JObj(m1)) == ApplyMessage(JObj(m2))
  {
  }

  /** A `type` that is neither a string nor null throws before anything is applied. */
  lemma {:induction false} ApplyMessageBadType(m: seq<(string, Json)>)
    requires Lookup(m, "type").Some? && !Lookup(m, "type").value.JStr? && !Lookup(m, "type").value.JNull?
    ensures ApplyMessage(JObj(m)) == Applied([], false)
  {
  }

  // ---------------------------------------------------------------------------
  // The receive loop
  // ---------------------------------------------------------------------------

  /** Why the receive loop ended. */
  datatype Outcome = PeerClosed | ReadyToStop | TransportEnded

  /** The receive loop over the fragments the socket delivers. UTF-8 decoding
      followed by `JsonDocument.Parse` is the parameter `parse` (None for a
      payload that is not valid UTF-8 JSON). Returns the transcript and why
      the loop ended. */
  function Receive(frags: seq<Fragment>, parse: seq<byte> -> Option<Json>, transcript: string): (r: (string, Outcome))
    ensures transcript <= r.0
    ensures |frags| == 0 ==> r == (transcript, TransportEnded)
    decreases |frags|
  {
    match Reassemble(frags)
    case Truncated => (transcript, TransportEnded)
    case Message(kind, payload, consumed) =>
      if kind == CloseMessage then (transcript, PeerClosed)
      else
        match parse(payload)
        case None => Receive(frags[consumed..], parse, transcript)
        case Some(root) =>
          var a := ApplyMessage(root);
          if a.stop then (transcript, ReadyToStop)
          else Receive(frags[consumed..], parse, transcript + Flatten(a.appended))
  }

  /** The loop only ever appends to the transcript. */
  lemma {:induction false} ReceiveAppendOnly(frags: seq<Fragment>, parse: seq<byte> -> Option<Json>, transcript: string)
    ensures transcript <= Receive(frags, parse, transcript).0
    decreases |frags|
  {
    match Reassemble(frags)
    case Truncated =>
    case Message(kind, payload, consumed) =>
      if kind != CloseMessage {
        match parse(payload)
        case None => ReceiveAppendOnly(frags[consumed..], parse, transcript);
        case Some(root) =>
          var a := ApplyMessage(root);
          if !a.stop {
            var t := transcript + Flatten(a.appended);
            ReceiveAppendOnly(frags[consumed..], parse, t);
          }
      }
  }

  /** A payload that is not valid JSON changes nothing and the loop goes on
      with the next message. */
  lemma {:induction false} ReceiveSkipsInvalid(frags: seq<Fragment>, parse: seq<byte> -> Option<Json>, transcript: string)
    requires Reassemble(frags).Message? && Reassemble(frags).kind != CloseMessage
    requires parse(Reassemble(frags).payload).None?
    ensures Receive(frags, parse, transcript) == Receive(frags[Reassemble(frags).consumed..], parse, transcript)
  {
  }

  /** A Close message ends the loop without its payload being decoded. */
  lemma {:induction false} ReceiveCloseEnds(frags: seq<Fragment>, parse: seq<byte> -> Option<Json>, transcript: string)
    requires |frags| > 0 && frags[0].endOfMessage && frags[0].kind == CloseMessage
    ensures Receive(frags, parse, transcript) == (transcript, PeerClosed)
  {
  }

  /** `ready_to_stop` ends the loop before any other field of that message is applied. */
  lemma {:induction false} ReceiveReadyToStop(frags: seq<Fragment>, parse: seq<byte> -> Option<Json>, transcript: string)
    requires Reassemble(frags).Message? && Reassemble(frags).kind != CloseMessage
    requires parse(Reassemble(frags).payload).Some?
    requires Get(parse(Reassemble(frags).payload).value, "type") == Some(JStr("ready_to_stop"))
    ensures Receive(frags, parse, transcript) == (transcript, ReadyToStop)
  {
  }

  /** The inner do/while as the source writes it: read fragments into a
      buffer until one carries EndOfMessage. `complete` is false when the
      fragments run out first. */
  method ReadMessage(frags: seq<Fragment>, start: nat)
    returns (ms: seq<byte>, kind: MessageType, next: nat, complete: bool)
    requires start <= |frags|
    ensures complete <==> Reassemble(frags[start..]).Message?
    ensures complete ==> var r := Reassemble(frags[start..]);
      ms == r.payload && kind == r.kind && next == start + r.consumed && next <= |frags|
  {
    var pos := start;
    ms := [];
    kind := TextMessage;
    while true
      invariant start <= pos <= |frags|
      invariant ms == Payload(frags[start..pos])
      invariant forall j :: start <= j < pos ==> !frags[j].endOfMessage
      decreases |frags| - pos
    {
      if pos == |frags| {
        ReassembleTruncatedFrom(frags, start);
        return ms, kind, pos, false;
      }
      var f := frags[pos];
      PayloadStep(frags, start, pos);
      ms := ms + f.data;
      if f.endOfMessage {
        ReassembleFrom(frags, start, pos);
        return ms, f.kind, pos + 1, true;
      }
      pos := pos + 1;
    }
  }

  /** One more fragment read adds its data to the buffer. */
  lemma {:induction false} PayloadStep(frags: seq<Fragment>, start: nat, pos: nat)
    requires start <= pos < |frags|
    ensures Payload(frags[start..pos + 1]) == Payload(frags[start..pos]) + frags[pos].data
  {
    PayloadSnoc(frags[start..pos], frags[pos]);
    assert frags[start..pos + 1] == frags[start..pos] + [frags[pos]];
  }

  /** Reassembling from `start` stops at the first fragment marked
      EndOfMessage. */
  lemma {:induction false} ReassembleFrom(frags: seq<Fragment>, start: nat, pos: nat)
    requires start <= pos < |frags|
    requires forall j :: start <= j < pos ==> !frags[j].endOfMessage
    requires frags[pos].endOfMessage
    ensures Reassemble(frags[start..]) == Message(frags[pos].kind, Payload(frags[start..pos + 1]), pos + 1 - start)
    decreases pos - start
  {
    var s := frags[start..];
    if start < pos {
      ReassembleFrom(frags, start + 1, pos);
      assert s[1..] == frags[start + 1..];
      assert s[0] == frags[start];
      assert frags[start..pos + 1][1..] == frags[start + 1..pos + 1];
    } else {
      assert s[0] == frags[start];
      assert frags[start..pos + 1][1..] == [];
    }
  }

  /** Without an EndOfMessage fragment from `start` on, the transport ends
      before a message is complete. */
  lemma {:induction false} ReassembleTruncatedFrom(frags: seq<Fragment>, start: nat)
    requires start <= |frags|
    requires forall j :: start <= j < |frags| ==> !frags[j].endOfMessage
    ensures Reassemble(frags[start..]).Truncated?
  {
    var s := frags[start..];
    assert forall j :: 0 <= j < |s| ==> s[j] == frags[start + j];
  }

  /** The receive task as the source writes it: one outer iteration per
      logical message. */
  method RunReceiver(frags: seq<Fragment>, parse: seq<byte> -> Option<Json>, transcript0: string)
    returns (transcript: string, outcome: Outcome)
    ensures (transcript, outcome) == Receive(frags, parse, transcript0)
  {
    var pos: nat := 0;
    transcript := transcript0;
    while true
      invariant pos <= |frags|
      invariant Receive(frags[pos..], parse, transcript) == Receive(frags, parse, transcript0)
      decreases |frags| - pos
    {
      var ms, kind, next, complete := ReadMessage(frags, pos);
      if !complete {
        return transcript, TransportEnded;
      }
      assert frags[pos..][next - pos..] == frags[next..];
      if kind == CloseMessage {
        return transcript, PeerClosed;
      }
      match parse(ms) {
        case None =>
        case Some(root) =>
          var a := ApplyMessage(root);
          if a.stop {
            return transcript, ReadyToStop;
          }
          transcript := transcript + Flatten(a.appended);
      }
      pos := next;
    }
  }

  // ---------------------------------------------------------------------------
  // The recording session and its teardown
  // ---------------------------------------------------------------------------

  /** One buffer delivered by the capture callback, and whether the socket
      was open when the callback looked at it. */
  datatype Captured = Captured(data: seq<byte>, socketOpen: bool)

  /** What the session does, in order. Sends are recorded as attempts: their
      exceptions are swallowed. */
  datatype Action =
    | ReportConnectFailed
    | ResetRecordButton
    | StartCapture
    | SendAudio(audio: seq<byte>)
    | StopCapture
    | DisposeCapture
    | SendEndOfStream
    | AwaitReceiver
    | CloseSocket
    | ShowStopped
    | CancelToken   // the stop click cancelling the session's token

  /** The teardown steps that can throw. */
  datatype Step = StopStep | SendEndStep | AwaitStep | CloseStep

  /** The binary frames sent for the captured buffers: only while the socket is open. */
  function AudioSends(captured: seq<Captured>): (r: seq<Action>)
    ensures forall i :: 0 <= i < |r| ==> r[i].SendAudio?
    decreases |captured|
  {
    if |captured| == 0 then []
    else (if captured[0].socketOpen then [SendAudio(captured[0].data)] else []) + AudioSends(captured[1..])
  }

  /** The teardown in the `finally` block. Stopping and disposing the capture
      share one try, so a throwing stop skips the dispose; each later step has
      its own try and runs whatever happened before. */
  function Teardown(faults: set<Step>): (r: seq<Action>)
    ensures |r| == (if StopStep in faults then 5 else 6) && r[0] == StopCapture
  {
    [StopCapture] + Dispose(faults) + AfterDispose
  }

  /** How `RunRecorder` gets past its connect. The endpoint text is parsed
      into a URI before the try, so an unparsable endpoint throws out of the
      task nobody awaits; a failure of the connect itself is caught. */
  datatype Connect = BadUri | ConnectFails | Connected

  /** One `RunRecorder` session as written. An unparsable endpoint does
      nothing at all; a failed connect reports and resets the button;
      otherwise capture runs and its buffers are sent until the stop click
      cancels the session's token, and then the teardown runs. */
  function Session(connect: Connect, captured: seq<Captured>, faults: set<Step>): (r: seq<Action>)
    ensures r == [] <==> connect == BadUri
    ensures connect == Connected ==> |r| == |AudioSends(captured)| + 2 + |Teardown(faults)| && r[0] == StartCapture
  {
    match connect
    case BadUri => []
    case ConnectFails => [ReportConnectFailed, ResetRecordButton]
    case Connected => [StartCapture] + AudioSends(captured) + [CancelToken] + Teardown(faults)
  }

  /** A connected session as evidently intended: the stop click ends the
      capture wait without cancelling the token the socket works with, so
      the end-of-stream frame goes out and the receiver reads on until the
      server's `ready_to_stop`. */
  function SessionFixed(captured: seq<Captured>, faults: set<Step>): seq<Action> {
    [StartCapture] + AudioSends(captured) + Teardown(faults)
  }

  function IndexOf(trace: seq<Action>, a: Action): (r: int)
    ensures -1 <= r < |trace|
    ensures r >= 0 ==> trace[r] == a && forall j :: 0 <= j < r ==> trace[j] != a
    ensures r == -1 ==> forall j :: 0 <= j < |trace| ==> trace[j] != a
    decreases |trace|
  {
    if |trace| == 0 then -1
    else if trace[0] == a then 0
    else
      var k := IndexOf(trace[1..], a);
      if k == -1 then -1 else k + 1
  }

  /** The payloads of the binary frames a trace attempts to send, in order;
      the end-of-stream frame is the empty payload. */
  function SentFrames(trace: seq<Action>): seq<seq<byte>>
    decreases |trace|
  {
    if |trace| == 0 then [] else FrameOf(trace[0]) + SentFrames(trace[1..])
  }

  /** The payload an action sends, if it sends one. */
  function FrameOf(a: Action): seq<seq<byte>> {
    match a
    case SendAudio(b) => [b]
    case SendEndOfStream => [[]]
    case _ => []
  }

  lemma {:induction false} SentFramesAppend(a: seq<Action>, b: seq<Action>)
    ensures SentFrames(a + b) == SentFrames(a) + SentFrames(b)
    decreases |a|
  {
    if |a| == 0 {
      assert a + b == b;
    } else {
      assert (a + b)[1..] == a[1..] + b;
      SentFramesAppend(a[1..], b);
    }
  }

  /** The bytes of the captured buffers the callback found the socket open for. */
  function OpenAudio(captured: seq<Captured>): seq<seq<byte>>
    decreases |captured|
  {
    if |captured| == 0 then []
    else (if captured[0].socketOpen then [captured[0].data] else []) + OpenAudio(captured[1..])
  }

  lemma {:induction false} AudioSendsFrames(captured: seq<Captured>)
    ensures SentFrames(AudioSends(captured)) == OpenAudio(captured)
    ensures Count(AudioSends(captured), SendEndOfStream) == 0
    decreases |captured|
  {
    if |captured| > 0 {
      var head := if captured[0].socketOpen then [SendAudio(captured[0].data)] else [];
      AudioSendsFrames(captured[1..]);
      SentFramesAppend(head, AudioSends(captured[1..]));
      CountAppend(head, AudioSends(captured[1..]), SendEndOfStream);
      if captured[0].socketOpen {
        assert SentFrames(head) == [captured[0].data] by {
          assert head[1..] == [];
        }
      }
    }
  }

  /** A session that does not connect sends nothing and never reaches the
      teardown. */
  lemma {:induction false} SessionConnectFailed(connect: Connect, captured: seq<Captured>, faults: set<Step>)
    requires connect != Connected
    ensures SentFrames(Session(connect, captured, faults)) == []
    ensures IndexOf(Session(connect, captured, faults), StopCapture) == -1
  {
    var trace := Session(connect, captured, faults);
    if connect == ConnectFails {
      assert trace[1..][1..] == [];
      assert SentFrames(trace[1..]) == [] + SentFrames(trace[1..][1..]);
    }
  }

  /** Whether a trace hands the record button back: the connect failure's
      reset, or the teardown's "stopped". */
  predicate ResetsWindow(trace: seq<Action>) {
    ResetRecordButton in trace || ShowStopped in trace
  }

  /** Only an unparsable endpoint leaves the window recording: the button
      keeps "Stop Recording" and no status appears until the next click. */
  lemma {:induction false} SessionResetsWindow(connect: Connect, captured: seq<Captured>, faults: set<Step>)
    ensures ResetsWindow(Session(connect, captured, faults)) <==> connect != BadUri
  {
    var trace := Session(connect, captured, faults);
    if connect == Connected {
      var td := Teardown(faults);
      assert trace == ([StartCapture] + AudioSends(captured) + [CancelToken]) + td;
      assert td[|td| - 1] == ShowStopped;
      assert trace[|trace| - 1] == ShowStopped;
    } else if connect == ConnectFails {
      assert trace[1] == ResetRecordButton;
    }
  }

  function Dispose(faults: set<Step>): seq<Action> {
    if StopStep in faults then [] else [DisposeCapture]
  }

  const AfterDispose: seq<Action> := [SendEndOfStream, AwaitReceiver, CloseSocket, ShowStopped]

  lemma {:induction false} TeardownFrames(faults: set<Step>)
    ensures SentFrames(Teardown(faults)) == [[]]
    ensures Count(Teardown(faults), SendEndOfStream) == 1
  {
    var dispose := Dispose(faults);
    assert Teardown(faults) == [StopCapture] + dispose + AfterDispose;
    SentFramesAppend([StopCapture] + dispose, AfterDispose);
    SentFramesAppend([StopCapture], dispose);
    CountAppend([StopCapture] + dispose, AfterDispose, SendEndOfStream);
    CountAppend([StopCapture], dispose, SendEndOfStream);
    assert [StopCapture][1..] == [];
    if dispose != [] {
      assert dispose[1..] == [];
    }
    assert AfterDispose[1..][1..][1..][1..] == [];
  }

  /** The actions before the teardown: the capture start and the sends. */
  predicate IsAudioStep(a: Action) {
    a == StartCapture || a.SendAudio?
  }

  /** The audio part of a connected session: the capture start and the sends. */
  lemma {:induction false} OpeningFrames(captured: seq<Captured>)
    ensures var pre := [StartCapture] + AudioSends(captured);
      SentFrames(pre) == OpenAudio(captured) && Count(pre, SendEndOfStream) == 0
      && forall j :: 0 <= j < |pre| ==> IsAudioStep(pre[j])
  {
    var sends := AudioSends(captured);
    var pre := [StartCapture] + sends;
    AudioSendsFrames(captured);
    SentFramesAppend([StartCapture], sends);
    CountAppend([StartCapture], sends, SendEndOfStream);
    assert [StartCapture][1..] == [];
    forall j | 0 <= j < |pre|
      ensures IsAudioStep(pre[j])
    {
      if j > 0 {
        assert pre[j] == sends[j - 1];
      }
    }
  }

  /** A connected session attempts its open-socket buffers and then exactly
      one zero-length frame, whichever teardown steps throw; so does the
      corrected one. */
  lemma {:induction false} SessionFrames(captured: seq<Captured>, faults: set<Step>)
    ensures SentFrames(Session(Connected, captured, faults)) == OpenAudio(captured) + [[]]
    ensures Count(Session(Connected, captured, faults), SendEndOfStream) == 1
    ensures SentFrames(SessionFixed(captured, faults)) == OpenAudio(captured) + [[]]
    ensures Count(SessionFixed(captured, faults), SendEndOfStream) == 1
  {
    var pre := [StartCapture] + AudioSends(captured);
    var td := Teardown(faults);
    OpeningFrames(captured);
    TeardownFrames(faults);
    SentFramesAppend(pre, td);
    CountAppend(pre, td, SendEndOfStream);
    SentFramesAppend(pre, [CancelToken]);
    CountAppend(pre, [CancelToken], SendEndOfStream);
    SentFramesAppend(pre + [CancelToken], td);
    CountAppend(pre + [CancelToken], td, SendEndOfStream);
    assert [CancelToken][1..] == [];
  }

  /** The frames of `trace` that reach the server. ClientWebSocket aborts
      the socket when the token of a pending receive is cancelled: when the
      receiver waits in `ReceiveAsync` at the cancel (`receivePending`),
      nothing after it gets through; otherwise every attempt does. */
  function Delivered(trace: seq<Action>, receivePending: bool): (r: seq<seq<byte>>)
    ensures r <= SentFrames(trace)
    ensures !receivePending || CancelToken !in trace ==> r == SentFrames(trace)
    decreases |trace|
  {
    if |trace| == 0 then []
    else if trace[0] == CancelToken && receivePending then []
    else
      assert CancelToken !in trace ==> CancelToken !in trace[1..] by {
        assert forall a :: a in trace[1..] ==> a in trace;
      }
      FrameOf(trace[0]) + Delivered(trace[1..], receivePending)
  }

  /** Whether the socket is aborted under the session: the receiver was
      waiting when the token was cancelled. */
  predicate Aborts(trace: seq<Action>, receivePending: bool) {
    receivePending && CancelToken in trace
  }

  /** Before any cancel, delivery and attempts agree. */
  lemma {:induction false} DeliveredAppend(a: seq<Action>, b: seq<Action>, receivePending: bool)
    requires CancelToken !in a
    ensures Delivered(a + b, receivePending) == SentFrames(a) + Delivered(b, receivePending)
    decreases |a|
  {
    if |a| == 0 {
      assert a + b == b;
    } else {
      var x := a[0];
      assert x != CancelToken;
      assert (a + b)[0] == x;
      assert (a + b)[1..] == a[1..] + b;
      assert CancelToken !in a[1..] by {
        assert forall y :: y in a[1..] ==> y in a;
      }
      DeliveredAppend(a[1..], b, receivePending);
      calc {
        Delivered(a + b, receivePending);
        FrameOf(x) + Delivered(a[1..] + b, receivePending);
        FrameOf(x) + (SentFrames(a[1..]) + Delivered(b, receivePending));
        (FrameOf(x) + SentFrames(a[1..])) + Delivered(b, receivePending);
        SentFrames(a) + Delivered(b, receivePending);
      }
    }
  }

  /** As written, a stop click while the receiver waits aborts the socket:
      the server gets the open-socket buffers and not the end-of-stream
      frame. Only if the receiver happens not to be waiting does that frame
      get through. */
  lemma {:induction false} StopClickAbortsSocket(captured: seq<Captured>, faults: set<Step>)
    ensures Aborts(Session(Connected, captured, faults), true)
    ensures Delivered(Session(Connected, captured, faults), true) == OpenAudio(captured)
    ensures Delivered(Session(Connected, captured, faults), false) == OpenAudio(captured) + [[]]
  {
    var pre := [StartCapture] + AudioSends(captured);
    var td := Teardown(faults);
    assert Session(Connected, captured, faults) == pre + ([CancelToken] + td) by {
      assert pre + [CancelToken] + td == pre + ([CancelToken] + td);
    }
    OpeningFrames(captured);
    assert CancelToken !in pre by {
      forall j | 0 <= j < |pre| ensures pre[j] != CancelToken {
        assert IsAudioStep(pre[j]);
      }
    }
    CancelCutsTail(pre, td);
    SessionFrames(captured, faults);
  }

  /** A cancel under a pending receive cuts the trace: only what was sent
      before it is delivered. */
  lemma {:induction false} CancelCutsTail(pre: seq<Action>, rest: seq<Action>)
    requires CancelToken !in pre
    ensures CancelToken in pre + ([CancelToken] + rest)
    ensures Delivered(pre + ([CancelToken] + rest), true) == SentFrames(pre)
  {
    assert (pre + ([CancelToken] + rest))[|pre|] == CancelToken;
    DeliveredAppend(pre, [CancelToken] + rest, true);
    assert Delivered([CancelToken] + rest, true) == [];
  }

  /** The corrected session never cancels under the socket: the server gets
      the open-socket buffers and then the end-of-stream frame, whether or
      not the receiver is waiting. */
  lemma {:induction false} FixedSessionDelivers(captured: seq<Captured>, faults: set<Step>, receivePending: bool)
    ensures !Aborts(SessionFixed(captured, faults), receivePending)
    ensures Delivered(SessionFixed(captured, faults), receivePending) == OpenAudio(captured) + [[]]
  {
    var pre := [StartCapture] + AudioSends(captured);
    var td := Teardown(faults);
    OpeningFrames(captured);
    SessionFrames(captured, faults);
    TeardownOrder(faults);
    assert CancelToken !in pre;
    assert CancelToken !in td;
    assert SessionFixed(captured, faults) == pre + td;
  }

  /** `IndexOf` finds the first position holding `a`. */
  lemma {:induction false} IndexOfFirst(trace: seq<Action>, a: Action, k: nat)
    requires k < |trace| && trace[k] == a
    requires forall j :: 0 <= j < k ==> trace[j] != a
    ensures IndexOf(trace, a) == k
  {
  }

  /** Past a prefix without `x`, `IndexOf` counts from the suffix. */
  lemma {:induction false} IndexOfAfter(a: seq<Action>, b: seq<Action>, x: Action)
    requires forall j :: 0 <= j < |a| ==> a[j] != x
    requires IndexOf(b, x) >= 0
    ensures IndexOf(a + b, x) == |a| + IndexOf(b, x)
  {
    var k := IndexOf(b, x);
    forall j | 0 <= j < |a| + k
      ensures (a + b)[j] != x
    {
      if j >= |a| {
        assert (a + b)[j] == b[j - |a|];
      }
    }
    IndexOfFirst(a + b, x, |a| + k);
  }

  /** Neither part holding `x`, the whole does not either. */
  lemma {:induction false} IndexOfNeither(a: seq<Action>, b: seq<Action>, x: Action)
    requires forall j :: 0 <= j < |a| ==> a[j] != x
    requires IndexOf(b, x) == -1
    ensures IndexOf(a + b, x) == -1
  {
  }

  /** Where each teardown step sits, with and without the dispose. */
  lemma {:induction false} TeardownOrder(faults: set<Step>)
    ensures var td := Teardown(faults); var d := |Dispose(faults)|;
      IndexOf(td, StopCapture) == 0 && IndexOf(td, SendEndOfStream) == 1 + d
      && IndexOf(td, AwaitReceiver) == 2 + d && IndexOf(td, CloseSocket) == 3 + d
      && IndexOf(td, CancelToken) == -1
  {
    var td := Teardown(faults);
    if StopStep in faults {
      assert td == [StopCapture, SendEndOfStream, AwaitReceiver, CloseSocket, ShowStopped];
      IndexOfFirst(td, SendEndOfStream, 1);
      IndexOfFirst(td, AwaitReceiver, 2);
      IndexOfFirst(td, CloseSocket, 3);
    } else {
      assert td == [StopCapture, DisposeCapture, SendEndOfStream, AwaitReceiver, CloseSocket, ShowStopped];
      IndexOfFirst(td, SendEndOfStream, 2);
      IndexOfFirst(td, AwaitReceiver, 3);
      IndexOfFirst(td, CloseSocket, 4);
    }
    IndexOfFirst(td, StopCapture, 0);
  }

  /** Behind a run of audio steps and cancels, each teardown step is found
      where the teardown puts it. */
  lemma {:induction false} TeardownAfter(pre: seq<Action>, faults: set<Step>)
    requires forall j :: 0 <= j < |pre| ==> IsAudioStep(pre[j]) || pre[j] == CancelToken
    ensures var t := pre + Teardown(faults); var d := |Dispose(faults)|;
      IndexOf(t, StopCapture) == |pre| && IndexOf(t, SendEndOfStream) == |pre| + 1 + d
      && IndexOf(t, AwaitReceiver) == |pre| + 2 + d && IndexOf(t, CloseSocket) == |pre| + 3 + d
  {
    var td := Teardown(faults);
    TeardownOrder(faults);
    IndexOfAfter(pre, td, StopCapture);
    IndexOfAfter(pre, td, SendEndOfStream);
    IndexOfAfter(pre, td, AwaitReceiver);
    IndexOfAfter(pre, td, CloseSocket);
  }

  /** The teardown runs stop capture, end-of-stream, await receiver and
      close, in that order, whichever steps throw. As written the token is
      cancelled before all of them, so the receiver, whose loop stops on the
      cancel, is gone before the end-of-stream is sent. */
  lemma {:induction false} SessionOrder(captured: seq<Captured>, faults: set<Step>)
    ensures var trace := Session(Connected, captured, faults);
      0 <= IndexOf(trace, CancelToken) < IndexOf(trace, StopCapture) < IndexOf(trace, SendEndOfStream)
        < IndexOf(trace, AwaitReceiver) < IndexOf(trace, CloseSocket)
  {
    var pre := [StartCapture] + AudioSends(captured);
    var td := Teardown(faults);
    OpeningFrames(captured);
    CancelAfterAudio(pre, td);
    TeardownAfter(pre + [CancelToken], faults);
    assert Session(Connected, captured, faults) == (pre + [CancelToken]) + td;
  }

  /** Audio steps, then the cancel: the cancel is found right after them and
      the whole run is still made of audio steps and cancels. */
  lemma {:induction false} CancelAfterAudio(pre: seq<Action>, rest: seq<Action>)
    requires forall j :: 0 <= j < |pre| ==> IsAudioStep(pre[j])
    ensures IndexOf(pre + [CancelToken] + rest, CancelToken) == |pre|
    ensures var pc := pre + [CancelToken]; forall j :: 0 <= j < |pc| ==> IsAudioStep(pc[j]) || pc[j] == CancelToken
  {
    var pc := pre + [CancelToken];
    IndexOfAfter(pre, [CancelToken] + rest, CancelToken);
    assert pre + [CancelToken] + rest == pre + ([CancelToken] + rest);
    forall j | 0 <= j < |pc|
      ensures IsAudioStep(pc[j]) || pc[j] == CancelToken
    {
      if j < |pre| {
        assert pc[j] == pre[j];
      }
    }
  }

  /** The corrected session keeps the teardown order and never cancels. */
  lemma {:induction false} SessionFixedOrder(captured: seq<Captured>, faults: set<Step>)
    ensures var trace := SessionFixed(captured, faults);
      IndexOf(trace, CancelToken) == -1
      && 0 <= IndexOf(trace, StopCapture) < IndexOf(trace, SendEndOfStream)
        < IndexOf(trace, AwaitReceiver) < IndexOf(trace, CloseSocket)
  {
    var pre := [StartCapture] + AudioSends(captured);
    var td := Teardown(faults);
    OpeningFrames(captured);
    TeardownOrder(faults);
    TeardownAfter(pre, faults);
    assert SessionFixed(captured, faults) == pre + td;
    IndexOfNeither(pre, td, CancelToken);
  }

  // ---------------------------------------------------------------------------
  // The record button
  // ---------------------------------------------------------------------------

  /** The window state the record button touches. */
  datatype Recorder = Recorder(recording: bool, buttonLabel: string, status: string,
                               transcript: string, cancelRequested: bool)

  datatype Click = Click(state: Recorder, startsSession: bool)

  /** `OnRecordClick`. `backendRunning` is whether the backend process exists
      and has not exited. */
  function OnRecordClick(s: Recorder, backendRunning: bool): (r: Click)
    ensures r.startsSession <==> !s.recording && backendRunning
    ensures r.state.recording <==> r.startsSession
    ensures r.state.buttonLabel == (if r.state.recording then "Stop Recording" else "Start Recording")
      || (!s.recording && !backendRunning && r.state.buttonLabel == s.buttonLabel)
    ensures r.startsSession ==> r.state.transcript == "" && !r.state.cancelRequested
    ensures !r.startsSession ==> r.state.transcript == s.transcript
    ensures s.recording ==> r.state.cancelRequested
  {
    if s.recording then
      Click(s.(cancelRequested := true, recording := false, buttonLabel := "Start Recording"), false)
    else if !backendRunning then
      Click(s.(status := "Start API before recording"), false)
    else
      Click(s.(recording := true, buttonLabel := "Stop Recording", transcript := "", cancelRequested := false), true)
  }

  /** Starting and then stopping leaves the window idle with the session
      cancelled and the transcript cleared once, at the start. */
  lemma {:induction false} RecordClickTwice(s: Recorder, backendRunning: bool)
    requires !s.recording && backendRunning
    ensures var r := OnRecordClick(OnRecordClick(s, backendRunning).state, backendRunning);
      !r.state.recording && r.state.cancelRequested && !r.startsSession
      && r.state.transcript == "" && r.state.buttonLabel == "Start Recording"
  {
  }

  // ---------------------------------------------------------------------------
  // Settings accessors (JsonExtensions)
  // ---------------------------------------------------------------------------

  /** `TryGetProperty` throws when the element is not an object. */
  function Property(elem: Json, name: string): (r: Result<Option<Json>, Abort>)
    ensures r.Err? <==> !elem.JObj?
    ensures r.Ok? ==> r.value == Get(elem, name)
  {
    if elem.JObj? then Ok(Lookup(elem.members, name)) else Err(Abort)
  }

  const Int32Min: int := -0x8000_0000
  const Int32Max: int := 0x7FFF_FFFF

  function GetString(elem: Json, name: string, dflt: string): (r: Result<string, Abort>)
    ensures r.Err? <==> !elem.JObj?
    ensures r.Ok? ==> (Get(elem, name).Some? && Get(elem, name).value.JStr? && r.value == Get(elem, name).value.s)
                      || r.value == dflt
  {
    match Property(elem, name)
    case Err(e) => Err(e)
    case Ok(Some(JStr(s))) => Ok(s)
    case Ok(_) => Ok(dflt)
  }

  /** `TryGetInt32` succeeds only for an integer literal within 32 bits and
      throws for a value that is not a number. */
  function GetInt(elem: Json, name: string, dflt: int): (r: Result<int, Abort>)
    ensures r.Err? <==> !elem.JObj? || (Get(elem, name).Some? && !Get(elem, name).value.JNum?)
    ensures r.Ok? ==> Int32Min <= r.value <= Int32Max || r.value == dflt
  {
    match Property(elem, name)
    case Err(e) => Err(e)
    case Ok(None) => Ok(dflt)
    case Ok(Some(JNum(n))) =>
      if n.Int? && Int32Min <= n.i <= Int32Max then Ok(n.i) else Ok(dflt)
    case Ok(Some(_)) => Err(Abort)
  }

  function GetBool(elem: Json, name: string, dflt: bool): (r: Result<bool, Abort>)
    ensures r.Err? <==> !elem.JObj?
    ensures r.Ok? && r.value != dflt ==> Get(elem, name) == Some(JBool(r.value))
  {
    match Property(elem, name)
    case Err(e) => Err(e)
    case Ok(Some(JBool(b))) => Ok(b)
    case Ok(_) => Ok(dflt)
  }

  function GetDouble(elem: Json, name: string, dflt: real): (r: Result<real, Abort>)
    ensures r.Err? <==> !elem.JObj?
    ensures r.Ok? ==> (Get(elem, name).Some? && Get(elem, name).value.JNum? && r.value == Value(Get(elem, name).value.n))
                      || r.value == dflt
  {
    match Property(elem, name)
    case Err(e) => Err(e)
    case Ok(Some(JNum(n))) => Ok(Value(n))
    case Ok(_) => Ok(dflt)
  }

  /** Reading back a setting that was written last: a value of the right kind
      is returned, one of another kind gives the default. */
  lemma {:induction false} GetterRoundTrip(m: seq<(string, Json)>, name: string, s: string, i: int, b: bool, x: real, dflt: string)
    requires Int32Min <= i <= Int32Max
    ensures GetString(JObj(m + [(name, JStr(s))]), name, dflt) == Ok(s)
    ensures GetInt(JObj(m + [(name, JNum(Int(i)))]), name, 0) == Ok(i)
    ensures GetBool(JObj(m + [(name, JBool(b))]), name, !b) == Ok(b)
    ensures GetDouble(JObj(m + [(name, JNum(Decimal(x)))]), name, 0.0) == Ok(x)
    ensures GetString(JObj(m + [(name, JNum(Int(i)))]), name, dflt) == Ok(dflt)
    ensures GetBool(JObj(m + [(name, JStr(s))]), name, b) == Ok(b)
    ensures GetInt(JObj(m + [(name, JStr(s))]), name, 0).Err?
    ensures GetInt(JObj(m + [(name, JNum(Decimal(x)))]), name, 7) == Ok(7)
  {
    LookupLastBinding(m, name, JStr(s));
    LookupLastBinding(m, name, JNum(Int(i)));
    LookupLastBinding(m, name, JBool(b));
    LookupLastBinding(m, name, JNum(Decimal(x)));
  }

  // ---------------------------------------------------------------------------
  // Model list, endpoints and hosts
  // ---------------------------------------------------------------------------

  const FallbackModels: seq<string> := ["tiny", "base", "small", "medium", "large-v3"]
  const ModelsHeading: string := "## Whisper Models"

  predicate IsSpaceChar(c: char) {
    c == ' '
  }

  /** The first space-separated part of a line that is not blank once trimmed. */
  function ModelName(line: string): (r: string)
    requires Trim(line, IsClrSpace) != ""
    ensures r != "" && r <= Trim(line, IsClrSpace)
    ensures forall k :: 0 <= k < |r| ==> r[k] != ' '
  {
    var t := Trim(line, IsClrSpace);
    TrimEnds(line, IsClrSpace);
    assert !IsClrSpace(t[0]);
    FirstFieldOfUnpadded(t, IsSpaceChar);
    FirstField(t, IsSpaceChar)
  }

  /** The model names in the lines after the heading, up to the first blank line. */
  function CollectModels(lines: seq<string>, collecting: bool): (r: seq<string>)
    ensures forall i :: 0 <= i < |r| ==> r[i] != ""
    decreases |lines|
  {
    if |lines| == 0 then []
    else
      var t := Trim(lines[0], IsClrSpace);
      if collecting then
        if t == "" then []
        else
          [ModelName(lines[0])] + CollectModels(lines[1..], true)
      else CollectModels(lines[1..], ModelsHeading <= t)
  }

  /** `LoadWhisperModels`: `file` is None when the file does not exist. */
  function LoadWhisperModels(file: Option<seq<string>>): (r: seq<string>)
    ensures |r| > 0
    ensures file.None? ==> r == FallbackModels
  {
    var found := if file.Some? then CollectModels(file.value, false) else [];
    if |found| == 0 then FallbackModels else found
  }

  /** The first space-separated field of every trimmed line between the
      heading and the next blank line. */
  function Fields(items: seq<string>): seq<string>
    decreases |items|
  {
    if |items| == 0 then [] else [FirstField(Trim(items[0], IsClrSpace), IsSpaceChar)] + Fields(items[1..])
  }

  lemma {:induction false} CollectItems(items: seq<string>, post: seq<string>)
    requires forall i :: 0 <= i < |items| ==> Trim(items[i], IsClrSpace) != ""
    requires |post| > 0 && Trim(post[0], IsClrSpace) == ""
    ensures CollectModels(items + post, true) == Fields(items)
    decreases |items|
  {
    if |items| == 0 {
      assert items + post == post;
    } else {
      assert (items + post)[1..] == items[1..] + post;
      CollectItems(items[1..], post);
    }
  }

  lemma {:induction false} CollectSkipsPreamble(pre: seq<string>, rest: seq<string>)
    requires forall i :: 0 <= i < |pre| ==> !(ModelsHeading <= Trim(pre[i], IsClrSpace))
    ensures CollectModels(pre + rest, false) == CollectModels(rest, false)
    decreases |pre|
  {
    if |pre| > 0 {
      var lines := pre + rest;
      assert lines[0] == pre[0];
      assert lines[1..] == pre[1..] + rest;
      assert !(ModelsHeading <= Trim(lines[0], IsClrSpace));
      assert CollectModels(lines, false) == CollectModels(lines[1..], false);
      CollectSkipsPreamble(pre[1..], rest);
    } else {
      assert pre + rest == rest;
    }
  }

  /** A file laid out as preamble, heading, list, blank line, anything:
      the list's first fields, or the fallback when the list is empty. */
  lemma {:induction false} LoadWhisperModelsLayout(pre: seq<string>, heading: string, items: seq<string>, post: seq<string>)
    requires forall i :: 0 <= i < |pre| ==> !(ModelsHeading <= Trim(pre[i], IsClrSpace))
    requires ModelsHeading <= Trim(heading, IsClrSpace)
    requires forall i :: 0 <= i < |items| ==> Trim(items[i], IsClrSpace) != ""
    requires |post| > 0 && Trim(post[0], IsClrSpace) == ""
    ensures LoadWhisperModels(Some(pre + [heading] + items + post)) ==
      if |items| == 0 then FallbackModels else Fields(items)
  {
    var tail := [heading] + items + post;
    assert pre + [heading] + items + post == pre + tail;
    CollectSkipsPreamble(pre, tail);
    assert tail[0] == heading && tail[1..] == items + post;
    assert CollectModels(tail, false) == CollectModels(items + post, true);
    CollectItems(items, post);
    FieldsLength(items);
  }

  lemma {:induction false} FieldsLength(items: seq<string>)
    ensures |Fields(items)| == |items|
    decreases |items|
  {
    if |items| > 0 {
      FieldsLength(items[1..]);
    }
  }

  /** A unicast address of a network interface. */
  datatype UnicastAddress = UnicastAddress(ipv4: bool, loopback: bool, text: string)

  /** A network interface: whether it is up, and its unicast addresses. */
  datatype NetInterface = NetInterface(up: bool, addresses: seq<UnicastAddress>)

  /** An address `DisplayHost` may show: IPv4, not loopback, on an interface
      that is up. */
  predicate IsLanCandidate(ni: NetInterface, ua: UnicastAddress) {
    ni.up && ua.ipv4 && !ua.loopback
  }

  /** The texts of the eligible addresses of one interface, in order. */
  function AddressCandidates(up: bool, addresses: seq<UnicastAddress>): (r: seq<string>)
    ensures |r| == 0 <==> forall j :: 0 <= j < |addresses| ==> !IsLanCandidate(NetInterface(up, addresses), addresses[j])
    decreases |addresses|
  {
    if |addresses| == 0 then []
    else
      var a := addresses[0];
      var rest := AddressCandidates(up, addresses[1..]);
      assert forall j :: 1 <= j < |addresses| ==> addresses[j] == addresses[1..][j - 1];
      if up && a.ipv4 && !a.loopback then [a.text] + rest else rest
  }

  /** The texts of the eligible addresses of all interfaces, in enumeration
      order: the reference for the scan. */
  function Candidates(nis: seq<NetInterface>): (r: seq<string>)
    ensures |r| == 0 <==> forall i, j :: 0 <= i < |nis| && 0 <= j < |nis[i].addresses| ==> !IsLanCandidate(nis[i], nis[i].addresses[j])
    decreases |nis|
  {
    if |nis| == 0 then []
    else
      assert forall i :: 1 <= i < |nis| ==> nis[i] == nis[1..][i - 1];
      AddressCandidates(nis[0].up, nis[0].addresses) + Candidates(nis[1..])
  }

  lemma {:induction false} AddressCandidatesConcat(up: bool, a: seq<UnicastAddress>, b: seq<UnicastAddress>)
    ensures AddressCandidates(up, a + b) == AddressCandidates(up, a) + AddressCandidates(up, b)
    decreases |a|
  {
    if |a| > 0 {
      assert (a + b)[1..] == a[1..] + b;
      AddressCandidatesConcat(up, a[1..], b);
    } else {
      assert a + b == b;
    }
  }

  lemma {:induction false} CandidatesConcat(a: seq<NetInterface>, b: seq<NetInterface>)
    ensures Candidates(a + b) == Candidates(a) + Candidates(b)
    decreases |a|
  {
    if |a| > 0 {
      assert (a + b)[1..] == a[1..] + b;
      CandidatesConcat(a[1..], b);
    } else {
      assert a + b == b;
    }
  }

  /** The inner loop of the scan: the first eligible address of one
      interface. */
  method InterfaceAddress(ni: NetInterface) returns (r: Option<string>)
    ensures var c := AddressCandidates(ni.up, ni.addresses); r == (if |c| > 0 then Some(c[0]) else None)
  {
    if !ni.up {
      assert AddressCandidates(ni.up, ni.addresses) == [] by {
        assert forall j :: 0 <= j < |ni.addresses| ==> !IsLanCandidate(ni, ni.addresses[j]);
      }
      return None;
    }
    var j := 0;
    while j < |ni.addresses|
      invariant 0 <= j <= |ni.addresses|
      invariant AddressCandidates(true, ni.addresses[..j]) == []
    {
      var ua := ni.addresses[j];
      assert ni.addresses[..j + 1] == ni.addresses[..j] + [ua];
      AddressCandidatesConcat(true, ni.addresses[..j], [ua]);
      if ua.ipv4 && !ua.loopback {
        assert ni.addresses == ni.addresses[..j + 1] + ni.addresses[j + 1..];
        AddressCandidatesConcat(true, ni.addresses[..j + 1], ni.addresses[j + 1..]);
        return Some(ua.text);
      }
      j := j + 1;
    }
    assert ni.addresses[..j] == ni.addresses;
    return None;
  }

  /** The interface scan of `DisplayHost` for the wildcard: the first
      eligible address, interface by interface and address by address;
      `interfaces` is None when enumerating them throws, which the catch-all
      turns into no address. */
  method LanAddress(interfaces: Option<seq<NetInterface>>) returns (r: Option<string>)
    ensures interfaces.None? ==> r.None?
    ensures interfaces.Some? ==>
      r == (if |Candidates(interfaces.value)| > 0 then Some(Candidates(interfaces.value)[0]) else None)
  {
    if interfaces.None? {
      return None;
    }
    var nis := interfaces.value;
    var i := 0;
    while i < |nis|
      invariant 0 <= i <= |nis|
      invariant Candidates(nis[..i]) == []
    {
      var ni := nis[i];
      var found := InterfaceAddress(ni);
      assert nis[..i + 1] == nis[..i] + [ni];
      CandidatesConcat(nis[..i], [ni]);
      if found.Some? {
        assert nis == nis[..i + 1] + nis[i + 1..];
        CandidatesConcat(nis[..i + 1], nis[i + 1..]);
        return found;
      }
      i := i + 1;
    }
    assert nis[..i] == nis;
    return None;
  }

  /** `DisplayHost`: the wildcard address is shown as the address the
      interface scan finds (`lanAddress`), or 127.0.0.1 when it finds none;
      any other host is shown unchanged. */
  function DisplayHost(host: string, lanAddress: Option<string>): (r: string)
    ensures host != "0.0.0.0" ==> r == host
    ensures r == "0.0.0.0" <==> host == "0.0.0.0" && lanAddress == Some("0.0.0.0")
    ensures host == "0.0.0.0" && r != "127.0.0.1" ==> lanAddress == Some(r)
  {
    if host == "0.0.0.0" then (if lanAddress.Some? then lanAddress.value else "127.0.0.1") else host
  }

  /** Showing a shown host again changes nothing: the displayed host is a
      fixed point unless the scan itself found the wildcard. */
  lemma {:induction false} DisplayHostIdempotent(host: string, lanAddress: Option<string>)
    ensures DisplayHost(DisplayHost(host, lanAddress), lanAddress) == DisplayHost(host, lanAddress)
  {
  }

  /** The wildcard is displayed as the first eligible interface address,
      and as 127.0.0.1 when there is none or the enumeration throws. */
  lemma {:induction false} DisplayHostWildcard(interfaces: Option<seq<NetInterface>>, lanAddress: Option<string>)
    requires interfaces.None? ==> lanAddress.None?
    requires interfaces.Some? ==>
      lanAddress == (if |Candidates(interfaces.value)| > 0 then Some(Candidates(interfaces.value)[0]) else None)
    ensures interfaces.None? || |Candidates(interfaces.value)| == 0 ==> DisplayHost("0.0.0.0", lanAddress) == "127.0.0.1"
    ensures interfaces.Some? && |Candidates(interfaces.value)| > 0 ==>
      DisplayHost("0.0.0.0", lanAddress) == Candidates(interfaces.value)[0]
  {
  }

  /** The four text boxes; None is a null `Text`. */
  datatype HostFields = HostFields(backendHost: Option<string>, backendPort: Option<string>,
                                   apiHost: Option<string>, apiPort: Option<string>)

  datatype Endpoints = Endpoints(web: string, ws: string, api: string)

  function OrElse(o: Option<string>, d: string): string {
    if o.Some? then o.value else d
  }

  function UpdateEndpoints(f: HostFields, lanAddress: Option<string>): (r: Endpoints)
    ensures "http://" <= r.web && r.ws == "ws://" + r.web[7..] + "/asr"
    ensures "http://" <= r.api && EndsWith(r.api, "/v1/audio/transcriptions")
    ensures EndsWith(r.web, ":" + OrElse(f.backendPort, ""))
    ensures r.web == "http://" + DisplayHost(OrElse(f.backendHost, "127.0.0.1"), lanAddress) + ":" + OrElse(f.backendPort, "")
    ensures r.api == "http://" + DisplayHost(OrElse(f.apiHost, "127.0.0.1"), lanAddress) + ":" + OrElse(f.apiPort, "")
      + "/v1/audio/transcriptions"
  {
    var dispB := DisplayHost(OrElse(f.backendHost, "127.0.0.1"), lanAddress);
    var dispA := DisplayHost(OrElse(f.apiHost, "127.0.0.1"), lanAddress);
    var web := "http://" + dispB + ":" + OrElse(f.backendPort, "");
    assert web[7..] == dispB + ":" + OrElse(f.backendPort, "");
    Endpoints(web, "ws://" + dispB + ":" + OrElse(f.backendPort, "") + "/asr",
              "http://" + dispA + ":" + OrElse(f.apiPort, "") + "/v1/audio/transcriptions")
  }
  /** The shown URLs give back the host and port that were entered: the
      authority of each splits at its last colon into the displayed host and
      the port, whenever the port has no colon of its own. */
  lemma {:induction false} UpdateEndpointsReadBack(f: HostFields, lanAddress: Option<string>)
    requires ':' !in OrElse(f.backendPort, "") && ':' !in OrElse(f.apiPort, "")
    ensures var r := UpdateEndpoints(f, lanAddress);
      |r.api| >= 7 + |"/v1/audio/transcriptions"|
      && SplitAtLast(r.web[7..], ':') == Some((DisplayHost(OrElse(f.backendHost, "127.0.0.1"), lanAddress), OrElse(f.backendPort, "")))
      && SplitAtLast(r.api[7..|r.api| - |"/v1/audio/transcriptions"|], ':')
        == Some((DisplayHost(OrElse(f.apiHost, "127.0.0.1"), lanAddress), OrElse(f.apiPort, "")))
  {
    var r := UpdateEndpoints(f, lanAddress);
    var hb := DisplayHost(OrElse(f.backendHost, "127.0.0.1"), lanAddress);
    var ha := DisplayHost(OrElse(f.apiHost, "127.0.0.1"), lanAddress);
    assert r.web[7..] == hb + [':'] + OrElse(f.backendPort, "");
    assert r.api[7..|r.api| - |"/v1/audio/transcriptions"|] == ha + [':'] + OrElse(f.apiPort, "");
    SplitAtLastJoin(hb, ':', OrElse(f.backendPort, ""));
    SplitAtLastJoin(ha, ':', OrElse(f.apiPort, ""));
  }


  /** The host boxes and the hosts saved when external access was enabled. */
  datatype HostState = HostState(backendHost: Option<string>, apiHost: Option<string>,
                                 prevBackendHost: string, prevApiHost: string)

  const InitialHostState: HostState := HostState(Some("127.0.0.1"), Some("127.0.0.1"), "127.0.0.1", "127.0.0.1")

  function ToggleAllowExternal(s: HostState, enabled: bool): (r: HostState)
    ensures enabled ==> r.backendHost == Some("0.0.0.0") && r.apiHost == Some("0.0.0.0")
    ensures !enabled ==> r.backendHost == Some(s.prevBackendHost) && r.apiHost == Some(s.prevApiHost)
    ensures !enabled ==> r.prevBackendHost == s.prevBackendHost && r.prevApiHost == s.prevApiHost
  {
    if enabled then
      HostState(Some("0.0.0.0"), Some("0.0.0.0"), OrElse(s.backendHost, "127.0.0.1"), OrElse(s.apiHost, "127.0.0.1"))
    else
      s.(backendHost := Some(s.prevBackendHost), apiHost := Some(s.prevApiHost))
  }

  /** Enabling and then disabling restores both host boxes exactly (a null box
      comes back as 127.0.0.1; an empty one comes back empty). */
  lemma {:induction false} ToggleAllowExternalRestores(s: HostState)
    ensures var r := ToggleAllowExternal(ToggleAllowExternal(s, true), false);
      r.backendHost == Some(OrElse(s.backendHost, "127.0.0.1"))
      && r.apiHost == Some(OrElse(s.apiHost, "127.0.0.1"))
  {
  }
}

=== FILE: json.dfy ===
/** Parsed JSON values as both clients and the bridge see them after decoding
    a text frame. */
module Json {
  import opened Base

  /** A JSON number literal: one written without fraction or exponent is an
      integer, any other is a decimal. */
  datatype Number = Int(i: int) | Decimal(r: real)

  /** A JSON value. Objects keep their members in document order, duplicates included. */
  datatype Json =
    | JNull
    | JBool(b: bool)
    | JNum(n: Number)
    | JStr(s: string)
    | JArr(items: seq<Json>)
    | JObj(members: seq<(string, Json)>)

  /** The value of a number literal. */
  function Value(n: Number): real {
    match n
    case Int(i) => i as real
    case Decimal(r) => r
  }

  /** The value bound to `key` in an object's member list. When a key is
      repeated the last binding wins, as in CPython's `json.loads` and
      .NET's `JsonElement.TryGetProperty`. */
  function Lookup(members: seq<(string, Json)>, key: string): (r: Option<Json>)
    ensures r.None? <==> forall i :: 0 <= i < |members| ==> members[i].0 != key
    decreases |members|
  {
    if |members| == 0 then None
    else
      var last := members[|members| - 1];
      if last.0 == key then Some(last.1)
      else
        var r := Lookup(members[..|members| - 1], key);
        assert forall i :: 0 <= i < |members| - 1 ==> members[..|members| - 1][i] == members[i];
        r
  }

  /** A found value is bound to the key by the last member carrying that key. */
  lemma {:induction false} LookupFound(members: seq<(string, Json)>, key: string)
    requires Lookup(members, key).Some?
    ensures exists i :: (0 <= i < |members| && members[i] == (key, Lookup(members, key).value)
      && (forall j :: i < j < |members| ==> members[j].0 != key))
    decreases |members|
  {
    var n := |members|;
    if members[n - 1].0 != key {
      var init := members[..n - 1];
      LookupFound(init, key);
      var i :| 0 <= i < |init| && init[i] == (key, Lookup(init, key).value)
        && (forall j :: i < j < |init| ==> init[j].0 != key);
      assert members[i] == init[i];
    } else {
      assert members[n - 1] == (key, Lookup(members, key).value);
    }
  }

  /** Binding a key at the end of an object makes it the value found for that key. */
  lemma {:induction false} LookupLastBinding(members: seq<(string, Json)>, key: string, v: Json)
    ensures Lookup(members + [(key, v)], key) == Some(v)
  {
  }

  /** Appending a binding for another key leaves a lookup unchanged. */
  lemma {:induction false} LookupOtherBinding(members: seq<(string, Json)>, key: string, other: string, v: Json)
    requires other != key
    ensures Lookup(members + [(other, v)], key) == Lookup(members, key)
  {
    assert (members + [(other, v)])[..|members|] == members;
  }

  /** Python's `d.get(key)` on a dict (None when absent), and the lookup of a
      member in any JSON value that is an object. */
  function Get(j: Json, key: string): (r: Option<Json>)
    ensures !j.JObj? ==> r.None?
  {
    if j.JObj? then Lookup(j.members, key) else None
  }

  /** Python truthiness of a decoded JSON value: null, false, zero, "" and
      empty containers are false. */
  predicate PyTruthy(j: Json) {
    match j
    case JNull => false
    case JBool(b) => b
    case JNum(n) => Value(n) != 0.0
    case JStr(s) => s != ""
    case JArr(items) => items != []
    case JObj(members) => members != []
  }

  /** Python's `d.get(key, default)` folded with `or`: the member when it is present and truthy. */
  function GetTruthy(j: Json, key: string): (r: Option<Json>)
    ensures r.Some? <==> Get(j, key).Some? && PyTruthy(Get(j, key).value)
    ensures r.Some? ==> r == Get(j, key)
  {
    match Get(j, key)
    case Some(v) => if PyTruthy(v) then Some(v) else None
    case None => None
  }
}

=== FILE: licenses.dfy ===
/** The third-party licence list generator (`wrapper/scripts/generate_licenses.py`):
    requirement names, their order, and the licence chosen for each. */
module Licenses {
  import opened Base
  import opened Text

  // ---------------------------------------------------------------------------
  // Requirement names
  // ---------------------------------------------------------------------------

  /** A character of `[A-Za-z0-9_.-]`. */
  predicate IsNameChar(c: char) {
    IsAsciiLetter(c) || IsDigit(c) || c == '_' || c == '.' || c == '-'
  }

  /** The name one requirements line contributes, if any. */
  function LineName(line: string): (r: Option<string>)
    ensures r.Some? ==> r.value != "" && r.value <= Trim(line, IsPySpace)
  {
    var t := Trim(line, IsPySpace);
    if t == "" || "#" <= t then None
    else
      var m := TakeWhile(t, IsNameChar);
      if m == "" then None else Some(m)
  }

  /** `_iter_requirements` over the file's lines; None when the file is
      missing. */
  function IterRequirements(file: Option<seq<string>>): (r: seq<string>)
    ensures file.None? ==> r == []
    ensures file.Some? ==> |r| <= |file.value|
  {
    if file.None? then [] else Names(file.value)
  }

  /** The names of the requirement lines, one per line that has one, in
      line order; none is empty. */
  function Names(lines: seq<string>): (r: seq<string>)
    ensures |r| <= |lines|
    ensures forall i :: 0 <= i < |r| ==> r[i] != ""
    ensures (forall i :: 0 <= i < |lines| ==> LineName(lines[i]).None?) <==> r == []
    decreases |lines|
  {
    if |lines| == 0 then []
    else
      var rest := Names(lines[1..]);
      match LineName(lines[0])
      case Some(n) => [n] + rest
      case None => rest
  }

  /** Names are collected line by line, in order. */
  lemma {:induction false} NamesConcat(a: seq<string>, b: seq<string>)
    ensures Names(a + b) == Names(a) + Names(b)
    decreases |a|
  {
    if |a| > 0 {
      assert (a + b)[1..] == a[1..] + b;
      NamesConcat(a[1..], b);
    } else {
      assert a + b == b;
    }
  }

  /** Every name is a non-empty run of name characters taken from the front
      of its stripped line, and stops at the first other character. */
  lemma {:induction false} LineNameSpec(line: string)
    requires LineName(line).Some?
    ensures var t := Trim(line, IsPySpace);
      var n := LineName(line).value;
      (forall i :: 0 <= i < |n| ==> IsNameChar(n[i])) && (|n| < |t| ==> !IsNameChar(t[|n|]))
  {
    TakeWhileSpec(Trim(line, IsPySpace), IsNameChar);
  }

  /** Blank lines and comments contribute nothing. */
  lemma {:induction false} CommentsContributeNothing(line: string)
    requires IsBlank(line, IsPySpace) || "#" <= Trim(line, IsPySpace)
    ensures LineName(line).None?
  {
    TrimBlank(line, IsPySpace);
  }

  /** An option line keeps its dash: `-r base.txt` is read as `-r`. */
  lemma {:induction false} OptionLineName()
    ensures LineName("-r base.txt") == Some("-r")
  {
    var line := "-r base.txt";
    assert !IsPySpace(line[0]) && !IsPySpace(line[|line| - 1]);
    TrimOfTrimmed(line, IsPySpace);
    assert line[2] == ' ' && !IsNameChar(line[2]);
    assert TakeWhile(line[2..], IsNameChar) == "";
    assert line[1..][1..] == line[2..];
    assert TakeWhile(line[1..], IsNameChar) == "r";
    assert IsNameChar(line[0]);
    assert TakeWhile(line, IsNameChar) == "-r";
    assert line[0] != '#' && !("#" <= line);
  }

  // ---------------------------------------------------------------------------
  // Ordering
  // ---------------------------------------------------------------------------

  /** Python's string order: code points, a proper prefix first. */
  predicate LexLt(a: string, b: string)
    decreases |a|
  {
    |b| > 0 && (|a| == 0 || a[0] < b[0] || (a[0] == b[0] && LexLt(a[1..], b[1..])))
  }

  lemma {:induction false} LexTotal(a: string, b: string)
    ensures LexLt(a, b) || a == b || LexLt(b, a)
    decreases |a|
  {
    if |a| > 0 && |b| > 0 && a[0] == b[0] {
      LexTotal(a[1..], b[1..]);
      if a[1..] == b[1..] {
        assert a == [a[0]] + a[1..] && b == [b[0]] + b[1..];
      }
    }
  }

  lemma {:induction false} LexIrreflexive(a: string)
    ensures !LexLt(a, a)
    decreases |a|
  {
    if |a| > 0 {
      LexIrreflexive(a[1..]);
    }
  }

  lemma {:induction false} LexTransitive(a: string, b: string, c: string)
    requires LexLt(a, b) && LexLt(b, c)
    ensures LexLt(a, c)
    decreases |a|
  {
    if |a| > 0 && a[0] == b[0] && b[0] == c[0] {
      LexTransitive(a[1..], b[1..], c[1..]);
    }
  }

  lemma {:induction false} LexAsymmetric(a: string, b: string)
    requires LexLt(a, b)
    ensures !LexLt(b, a)
    decreases |a|
  {
    if |a| > 0 && a[0] == b[0] {
      LexAsymmetric(a[1..], b[1..]);
    }
  }

  /** The sort key `str.lower`. */
  function Key(s: string): string {
    Lower(s)
  }

  predicate KeyLe(a: string, b: string) {
    Key(a) == Key(b) || LexLt(Key(a), Key(b))
  }

  predicate SortedByKey(s: seq<string>) {
    forall i :: 0 <= i < |s| - 1 ==> KeyLe(s[i], s[i + 1])
  }

  /** Inserts `x` after every element whose key is not above its own, which
      keeps equal keys in arrival order. */
  function Insert(x: string, s: seq<string>): (r: seq<string>)
    ensures |r| == |s| + 1
    decreases |s|
  {
    if |s| == 0 then [x]
    else if LexLt(Key(x), Key(s[0])) then [x] + s
    else [s[0]] + Insert(x, s[1..])
  }

  lemma {:induction false} InsertPermutes(x: string, s: seq<string>)
    ensures multiset(Insert(x, s)) == multiset(s) + multiset{x}
    decreases |s|
  {
    if |s| > 0 && !LexLt(Key(x), Key(s[0])) {
      InsertPermutes(x, s[1..]);
      assert s == [s[0]] + s[1..];
    }
  }

  lemma {:induction false} InsertSorted(x: string, s: seq<string>)
    requires SortedByKey(s)
    ensures SortedByKey(Insert(x, s))
    ensures |s| > 0 ==> Insert(x, s)[0] == x || Insert(x, s)[0] == s[0]
    decreases |s|
  {
    if |s| > 0 && !LexLt(Key(x), Key(s[0])) {
      var rest := s[1..];
      assert SortedByKey(rest) by {
        forall i | 0 <= i < |rest| - 1 ensures KeyLe(rest[i], rest[i + 1]) {
          assert rest[i] == s[i + 1] && rest[i + 1] == s[i + 2];
        }
      }
      InsertSorted(x, rest);
      LexTotal(Key(x), Key(s[0]));
      var r := Insert(x, s);
      var ir := Insert(x, rest);
      assert r == [s[0]] + ir;
      forall i | 0 <= i < |r| - 1 ensures KeyLe(r[i], r[i + 1]) {
        if i == 0 {
          if |rest| > 0 && ir[0] == rest[0] {
            assert KeyLe(s[0], s[1]);
          }
        } else {
          assert r[i] == ir[i - 1] && r[i + 1] == ir[i];
        }
      }
    } else if |s| > 0 {
      assert KeyLe(x, s[0]);
      var r := Insert(x, s);
      forall i | 0 <= i < |r| - 1 ensures KeyLe(r[i], r[i + 1]) {
        if i > 0 {
          assert r[i] == s[i - 1] && r[i + 1] == s[i];
        }
      }
    }
  }

  /** `sorted(names, key=str.lower)`, as an insertion sort: the same names,
      ordered by lower-cased name. */
  function SortByLower(names: seq<string>): (r: seq<string>)
    ensures |r| == |names|
    ensures multiset(r) == multiset(names)
    ensures SortedByKey(r)
    decreases |names|
  {
    if |names| == 0 then []
    else
      var init := names[..|names| - 1];
      var x := names[|names| - 1];
      var rest := SortByLower(init);
      InsertSorted(x, rest);
      InsertPermutes(x, rest);
      assert names == init + [x];
      Insert(x, rest)
  }

  lemma {:induction false} KeyLeTransitive(a: string, b: string, c: string)
    requires KeyLe(a, b) && KeyLe(b, c)
    ensures KeyLe(a, c)
  {
    if LexLt(Key(a), Key(b)) && LexLt(Key(b), Key(c)) {
      LexTransitive(Key(a), Key(b), Key(c));
    }
  }

  /** In a sorted list every name's key is at most every later one's. */
  lemma {:induction false} SortedChain(s: seq<string>, i: int, j: int)
    requires SortedByKey(s) && 0 <= i <= j < |s|
    ensures KeyLe(s[i], s[j])
    decreases j - i
  {
    if i < j {
      SortedChain(s, i + 1, j);
      KeyLeTransitive(s[i], s[i + 1], s[j]);
    }
  }

  /** A name whose key is at least every key of the list goes last. */
  lemma {:induction false} InsertAtEnd(x: string, s: seq<string>)
    requires forall i :: 0 <= i < |s| ==> KeyLe(s[i], x)
    ensures Insert(x, s) == s + [x]
    decreases |s|
  {
    if |s| > 0 {
      if LexLt(Key(s[0]), Key(x)) {
        LexAsymmetric(Key(s[0]), Key(x));
      } else {
        LexIrreflexive(Key(x));
      }
      InsertAtEnd(x, s[1..]);
      assert s == [s[0]] + s[1..];
    }
  }

  /** Sorting a list already in key order leaves it unchanged (equal keys
      included: the sort is stable there), so sorting twice is sorting
      once. */
  lemma {:induction false} SortByLowerKeepsSorted(names: seq<string>)
    requires SortedByKey(names)
    ensures SortByLower(names) == names
    decreases |names|
  {
    if |names| > 0 {
      var init := names[..|names| - 1];
      var x := names[|names| - 1];
      SortedSplit(names);
      SortByLowerKeepsSorted(init);
      InsertAtEnd(x, init);
      assert names == init + [x];
    }
  }

  /** A sorted non-empty list is a sorted list followed by a name whose key
      is at least all of its keys. */
  lemma {:induction false} SortedSplit(names: seq<string>)
    requires SortedByKey(names) && |names| > 0
    ensures var init := names[..|names| - 1];
      SortedByKey(init) && forall i :: 0 <= i < |init| ==> KeyLe(init[i], names[|names| - 1])
  {
    var init := names[..|names| - 1];
    forall i | 0 <= i < |init| - 1 ensures KeyLe(init[i], init[i + 1]) {
      assert init[i] == names[i] && init[i + 1] == names[i + 1];
    }
    forall i | 0 <= i < |init| ensures KeyLe(init[i], names[|names| - 1]) {
      SortedChain(names, i, |names| - 1);
    }
  }

  lemma {:induction false} SortByLowerIdempotent(names: seq<string>)
    ensures SortByLower(SortByLower(names)) == SortByLower(names)
  {
    SortByLowerKeepsSorted(SortByLower(names));
  }

  // ---------------------------------------------------------------------------
  // Licences
  // ---------------------------------------------------------------------------

  /** A licence string that can be used: set, non-empty and not `UNKNOWN` in
      any letter case. */
  predicate Usable(license: Option<string>) {
    license.Some? && license.value != "" && Upper(license.value) != "UNKNOWN"
  }

  /** The index of the first `License ::` classifier, or |classifiers|. */
  function FirstLicenseClassifier(classifiers: seq<string>): (r: nat)
    ensures r <= |classifiers|
    ensures r < |classifiers| ==> "License ::" <= classifiers[r]
    ensures forall i :: 0 <= i < r ==> !("License ::" <= classifiers[i])
    decreases |classifiers|
  {
    if |classifiers| == 0 then 0
    else if "License ::" <= classifiers[0] then 0
    else 1 + FirstLicenseClassifier(classifiers[1..])
  }

  /** `classifier.split("::")[-1].strip()`. */
  function ClassifierLicense(classifier: string): string {
    var parts := Split(classifier, "::");
    Trim(parts[|parts| - 1], IsPySpace)
  }

  /** The licence `main` records: the `License` field when usable, else the
      last segment of the first licence classifier; None drops the entry. */
  function ChooseLicense(license: Option<string>, classifiers: seq<string>): (r: Option<string>)
    ensures r.Some? ==> Usable(r)
    ensures Usable(license) ==> r == license
    ensures !Usable(license) && FirstLicenseClassifier(classifiers) == |classifiers| ==> r.None?
    ensures !Usable(license) && r.Some? ==> (FirstLicenseClassifier(classifiers) < |classifiers|
      && r.value == ClassifierLicense(classifiers[FirstLicenseClassifier(classifiers)]))
  {
    var chosen :=
      if Usable(license) then license
      else
        var i := FirstLicenseClassifier(classifiers);
        if i < |classifiers| then Some(ClassifierLicense(classifiers[i])) else license;
    if Usable(chosen) then chosen else None
  }

  /** The package metadata `main` reads. */
  datatype Metadata = Metadata(name: Option<string>, version: Option<string>, license: Option<string>,
                               classifiers: seq<string>, licenseText: string)

  datatype Entry = Entry(name: string, version: string, license: string, licenseText: string)

  /** One package's entry: skipped for the project itself, for a package
      that is not installed, and for one without a usable licence. */
  function EntryFor(pkg: string, dist: string -> Option<Metadata>): (r: Option<Entry>)
    ensures Lower(pkg) == "whisperlivekit" ==> r.None?
    ensures r.Some? ==> dist(pkg).Some? && r.value.name == (if dist(pkg).value.name.Some? then dist(pkg).value.name.value else pkg)
    ensures r.Some? ==> Usable(Some(r.value.license))
    ensures r.Some? <==> (Lower(pkg) != "whisperlivekit" && dist(pkg).Some?
      && ChooseLicense(dist(pkg).value.license, dist(pkg).value.classifiers).Some?)
    ensures r.Some? ==> (r.value.license == ChooseLicense(dist(pkg).value.license, dist(pkg).value.classifiers).value
      && r.value.version == (if dist(pkg).value.version.Some? then dist(pkg).value.version.value else "")
      && r.value.licenseText == dist(pkg).value.licenseText)
  {
    if Lower(pkg) == "whisperlivekit" then None
    else
      match dist(pkg)
      case None => None
      case Some(meta) =>
        match ChooseLicense(meta.license, meta.classifiers)
        case None => None
        case Some(l) =>
          Some(Entry(if meta.name.Some? then meta.name.value else pkg,
                     if meta.version.Some? then meta.version.value else "", l, meta.licenseText))
  }

  function Entries(pkgs: seq<string>, dist: string -> Option<Metadata>): (r: seq<Entry>)
    ensures |r| <= |pkgs|
    ensures forall i :: 0 <= i < |r| ==> Usable(Some(r[i].license))
    decreases |pkgs|
  {
    if |pkgs| == 0 then []
    else
      var rest := Entries(pkgs[1..], dist);
      match EntryFor(pkgs[0], dist)
      case Some(e) => [e] + rest
      case None => rest
  }

  /** An entry is listed exactly when some package of the list yields it:
      nothing is invented and no eligible package is dropped. */
  lemma {:induction false} EntriesListEligible(pkgs: seq<string>, dist: string -> Option<Metadata>, e: Entry)
    ensures e in Entries(pkgs, dist) <==> exists i :: 0 <= i < |pkgs| && EntryFor(pkgs[i], dist) == Some(e)
    decreases |pkgs|
  {
    if |pkgs| > 0 {
      EntriesListEligible(pkgs[1..], dist, e);
      if exists i :: 0 <= i < |pkgs| && EntryFor(pkgs[i], dist) == Some(e) {
        var i :| 0 <= i < |pkgs| && EntryFor(pkgs[i], dist) == Some(e);
        if i > 0 {
          assert pkgs[1..][i - 1] == pkgs[i];
        }
      }
      if e in Entries(pkgs[1..], dist) {
        var j :| 0 <= j < |pkgs[1..]| && EntryFor(pkgs[1..][j], dist) == Some(e);
        assert EntryFor(pkgs[j + 1], dist) == Some(e);
      }
    }
  }

  /** `main` up to writing the JSON file: the entries of the requirement
      names in case-insensitive order. */
  function LicenseEntries(requirements: Option<seq<string>>, dist: string -> Option<Metadata>): (r: seq<Entry>)
    ensures forall i :: 0 <= i < |r| ==> Usable(Some(r[i].license))
    ensures requirements.None? ==> r == []
  {
    Entries(SortByLower(IterRequirements(requirements)), dist)
  }

  /** Entries are produced package by package, in the order given. */
  lemma {:induction false} EntriesConcat(a: seq<string>, b: seq<string>, dist: string -> Option<Metadata>)
    ensures Entries(a + b, dist) == Entries(a, dist) + Entries(b, dist)
    decreases |a|
  {
    if |a| > 0 {
      assert (a + b)[1..] == a[1..] + b;
      EntriesConcat(a[1..], b, dist);
    } else {
      assert a + b == b;
    }
  }

  /** A classifier-only licence: `License :: OSI Approved :: MIT License`
      gives `MIT License`, the stripped last segment. */
  lemma {:induction false} ClassifierFallback(middle: string, last: string)
    requires forall i :: 0 <= i < |middle| ==> middle[i] != ':'
    requires forall i :: 0 <= i < |last| ==> last[i] != ':'
    requires Usable(Some(Trim(last, IsPySpace)))
    ensures ChooseLicense(None, ["License ::" + middle + "::" + last]) == Some(Trim(last, IsPySpace))
  {
    var c := "License ::" + middle + "::" + last;
    assert "License ::" <= c;
    assert FirstLicenseClassifier([c]) == 0;
    var tail := middle + "::" + last;
    assert c == "License " + "::" + tail;
    SplitOneSep(c, "License ", tail);
    SplitOneSep(tail, middle, last);
    SplitNoSep(last, "::", "");
    assert "" + last == last;
    assert Split(c, "::") == ["License ", middle, last];
  }

  /** Splitting a piece free of ':' followed by the separator and a rest. */
  lemma {:induction false} SplitOneSep(s: string, piece: string, rest: string)
    requires s == piece + "::" + rest
    requires forall i :: 0 <= i < |piece| ==> piece[i] != ':'
    ensures Split(s, "::") == [piece] + Split(rest, "::")
  {
    SplitFromPiece(piece, "", rest);
    assert "" + piece == piece;
  }

  lemma {:induction false} SplitFromPiece(piece: string, cur: string, rest: string)
    requires forall i :: 0 <= i < |piece| ==> piece[i] != ':'
    ensures SplitFrom(piece + "::" + rest, "::", cur) == [cur + piece] + SplitFrom(rest, "::", "")
    decreases |piece|
  {
    var s := piece + "::" + rest;
    if |piece| == 0 {
      assert s == "::" + rest;
      assert "::" <= s;
      assert s[2..] == rest;
      assert cur + piece == cur;
    } else {
      assert s[0] == piece[0] != ':';
      assert !("::" <= s);
      assert s[1..] == piece[1..] + "::" + rest;
      SplitFromPiece(piece[1..], cur + [piece[0]], rest);
      assert cur + [piece[0]] + piece[1..] == cur + piece;
    }
  }

  lemma {:induction false} SplitNoSep(s: string, sep: string, cur: string)
    requires sep == "::" && forall i :: 0 <= i < |s| ==> s[i] != ':'
    ensures SplitFrom(s, sep, cur) == [cur + s]
    decreases |s|
  {
    if |s| == 0 {
      assert cur + s == cur;
    } else {
      assert sep[0] == ':' != s[0];
      assert !(sep <= s);
      SplitNoSep(s[1..], sep, cur + [s[0]]);
      assert cur + [s[0]] + s[1..] == cur + s;
    }
  }
}

=== FILE: model_manager.dfy ===
/** Model-cache naming and the "is it downloaded" decision
    (`wrapper/app/model_manager.py`). The file system is an abstract pair of
    sets of paths; a path is its sequence of components below a root. */
module ModelManager {
  import opened Base
  import opened Text

  const VadRepo: string := "snakers4/silero-vad"

  // ---------------------------------------------------------------------------
  // Repo ids and cache directory names
  // ---------------------------------------------------------------------------

  predicate HasSlash(s: string) {
    '/' in s
  }

  /** `_resolve_repo_id`: a name that already has an owner is kept. */
  function ResolveRepoId(name: string, backend: Option<string>): (r: string)
    ensures HasSlash(name) ==> r == name
    ensures !HasSlash(name) && backend == Some("faster-whisper") ==> r == "Systran/faster-whisper-" + name
    ensures !HasSlash(name) && backend != Some("faster-whisper") ==> r == "openai/whisper-" + name
  {
    if HasSlash(name) then name
    else if backend == Some("faster-whisper") then "Systran/faster-whisper-" + name
    else "openai/whisper-" + name
  }

  /** Every resolved id has an owner part, so resolving again changes nothing. */
  lemma {:induction false} ResolveRepoIdIdempotent(name: string, backend: Option<string>, again: Option<string>)
    ensures HasSlash(ResolveRepoId(name, backend))
    ensures ResolveRepoId(ResolveRepoId(name, backend), again) == ResolveRepoId(name, backend)
  {
    if !HasSlash(name) {
      var r := ResolveRepoId(name, backend);
      if backend == Some("faster-whisper") {
        assert r[7] == '/';
      } else {
        assert r[6] == '/';
      }
    }
  }

  /** `_cache_dir(repo_id).name`. */
  function CacheDirName(repoId: string): (r: string)
    ensures "models--" <= r
  {
    "models--" + Replace(repoId, "/", "--")
  }

  /** The repo id `list_downloaded_models` reads back from a cache directory
      name that starts with `models--`. */
  function DecodeCacheDirName(dirName: string): string
    requires "models--" <= dirName
  {
    Replace(dirName[8..], "--", "/")
  }

  /** Hugging Face repo ids never hold "--" and never put '-' next to '/'. */
  predicate CacheSafe(repoId: string) {
    forall i :: 0 <= i < |repoId| - 1 ==>
      (repoId[i] == '-' ==> repoId[i + 1] != '-' && repoId[i + 1] != '/')
      && (repoId[i] == '/' ==> repoId[i + 1] != '-')
  }

  /** The encoded form starts with '-' exactly when the id starts with '-' or '/'. */
  lemma {:induction false} EncodedHead(s: string)
    requires |s| > 0
    ensures var e := Replace(s, "/", "--");
      |e| > 0 && (e[0] == '-' <==> s[0] == '-' || s[0] == '/')
  {
  }

  lemma {:induction false} DecodeEncode(s: string)
    requires CacheSafe(s)
    ensures Replace(Replace(s, "/", "--"), "--", "/") == s
    decreases |s|
  {
    if |s| > 0 {
      var rest := s[1..];
      assert CacheSafe(rest) by {
        forall i | 0 <= i < |rest| - 1
          ensures (rest[i] == '-' ==> rest[i + 1] != '-' && rest[i + 1] != '/')
            && (rest[i] == '/' ==> rest[i + 1] != '-')
        {
          assert rest[i] == s[i + 1] && rest[i + 1] == s[i + 2];
        }
      }
      DecodeEncode(rest);
      var er := Replace(rest, "/", "--");
      if s[0] == '/' {
        assert "/" <= s;
        var e := "--" + er;
        assert Replace(s, "/", "--") == e;
        assert "--" <= e && e[2..] == er;
      } else {
        assert !("/" <= s);
        var e := [s[0]] + er;
        assert Replace(s, "/", "--") == e;
        if s[0] == '-' && |rest| > 0 {
          EncodedHead(rest);
          assert rest[0] == s[1];
          assert e[1] == er[0] != '-';
        }
        assert !("--" <= e);
        assert e[1..] == er;
      }
    }
  }

  /** Listing a cache directory gives back the repo id it was made for. */
  lemma {:induction false} CacheDirRoundTrip(repoId: string)
    requires CacheSafe(repoId)
    ensures DecodeCacheDirName(CacheDirName(repoId)) == repoId
  {
    assert CacheDirName(repoId)[8..] == Replace(repoId, "/", "--");
    DecodeEncode(repoId);
  }

  /** Without the restriction the decoding is ambiguous: "a--b" is listed
      as "a/b". */
  lemma {:induction false} CacheDirAmbiguous()
    ensures DecodeCacheDirName(CacheDirName("a--b")) == "a/b"
  {
    EncodeNoSlash();
    assert CacheDirName("a--b") == "models--" + "a--b";
    assert CacheDirName("a--b")[8..] == "a--b";
    DecodeDoubleDash();
  }

  lemma {:induction false} EncodeNoSlash()
    ensures Replace("a--b", "/", "--") == "a--b"
  {
    ReplaceAbsent("a--b", "/", "--");
  }

  lemma {:induction false} DecodeDoubleDash()
    ensures Replace("a--b", "--", "/") == "a/b"
  {
    assert Replace("b", "--", "/") == "b";
    assert "--b"[2..] == "b";
    assert Replace("--b", "--", "/") == "/b";
    assert "a--b"[1..] == "--b";
    assert !("--" <= "a--b");
  }

  // ---------------------------------------------------------------------------
  // .pt files
  // ---------------------------------------------------------------------------

  /** `s.split("/")[-1]`: what follows the last '/'. */
  function AfterLastSlash(s: string): (r: string)
    ensures !HasSlash(r) && EndsWith(s, r)
    ensures !HasSlash(s) ==> r == s
    decreases |s|
  {
    if |s| == 0 then ""
    else if s[|s| - 1] == '/' then ""
    else
      var front := s[..|s| - 1];
      var init := AfterLastSlash(front);
      assert s == front + [s[|s| - 1]];
      assert !HasSlash(s) ==> !HasSlash(front);
      init + [s[|s| - 1]]
  }

  /** The stem of `_pt_file(name)`: the last path component without one
      leading `whisper-`. */
  function PtStem(name: string): (r: string)
    ensures !HasSlash(r)
  {
    var base := AfterLastSlash(name);
    if "whisper-" <= base then base[8..] else base
  }

  function PtFileName(name: string): string {
    PtStem(name) + ".pt"
  }

  /** The repo id a listed `.pt` file stands for. */
  function PtRepoId(stem: string): string {
    "openai/whisper-" + stem
  }

  /** The `.pt` file of an OpenAI model is listed under that model's id. */
  lemma {:induction false} PtRoundTrip(name: string)
    requires !HasSlash(name)
    ensures PtRepoId(PtStem(ResolveRepoId(name, None))) == ResolveRepoId(name, None)
  {
    var tail := "whisper-" + name;
    var repo := "openai/" + tail;
    assert repo == "openai/whisper-" + name;
    assert !HasSlash(tail) by {
      forall i | 0 <= i < |tail| ensures tail[i] != '/' {
        if i >= 8 {
          assert tail[i] == name[i - 8];
        }
      }
    }
    AfterLastSlashOfSuffix("openai/", tail);
    assert "whisper-" <= tail;
    assert tail[8..] == name;
  }

  lemma {:induction false} AfterLastSlashOfSuffix(pre: string, s: string)
    requires |pre| > 0 && pre[|pre| - 1] == '/' && !HasSlash(s)
    ensures AfterLastSlash(pre + s) == s
    decreases |s|
  {
    if |s| == 0 {
      assert pre + s == pre;
    } else {
      var init := s[..|s| - 1];
      assert (pre + s)[..|pre + s| - 1] == pre + init;
      assert !HasSlash(init) by {
        forall i | 0 <= i < |init| ensures init[i] != '/' {
          assert init[i] == s[i];
        }
      }
      AfterLastSlashOfSuffix(pre, init);
      assert init + [s[|s| - 1]] == s;
    }
  }

  // ---------------------------------------------------------------------------
  // File names
  // ---------------------------------------------------------------------------

  /** `str.isalnum` is Unicode-aware (`"é".isalnum()` holds), so it is the
      parameter `isAlnum`; what is fixed is its ASCII part: there it holds
      for the letters and digits and for nothing else. */
  predicate AsciiAlnum(isAlnum: char -> bool) {
    forall c :: c < '\U{80}' ==> (isAlnum(c) <==> IsAsciiLetter(c) || IsDigit(c))
  }

  /** The characters `_sanitize_filename` keeps. */
  predicate IsFileNameChar(c: char, isAlnum: char -> bool) {
    isAlnum(c) || c == '-' || c == '_' || c == '.'
  }

  predicate IsEdgeChar(c: char) {
    c == '-' || c == '.'
  }

  /** The character loop of `_sanitize_filename`: every character of the
      result is safe, a character is kept exactly when it is safe, and
      every other one becomes '-'. */
  function MapUnsafe(name: string, isAlnum: char -> bool): (r: string)
    ensures |r| == |name|
    ensures forall i :: 0 <= i < |r| ==> IsFileNameChar(r[i], isAlnum)
    ensures forall i :: 0 <= i < |r| ==> (r[i] == name[i] <==> IsFileNameChar(name[i], isAlnum))
    ensures forall i :: 0 <= i < |r| && r[i] != name[i] ==> r[i] == '-'
  {
    seq(|name|, i requires 0 <= i < |name| => if IsFileNameChar(name[i], isAlnum) then name[i] else '-')
  }

  /** A name of safe characters maps to itself, and mapping is idempotent. */
  lemma {:induction false} MapUnsafeIdempotent(name: string, isAlnum: char -> bool)
    ensures MapUnsafe(MapUnsafe(name, isAlnum), isAlnum) == MapUnsafe(name, isAlnum)
    ensures (forall i :: 0 <= i < |name| ==> IsFileNameChar(name[i], isAlnum)) ==> MapUnsafe(name, isAlnum) == name
  {
  }

  /** `_sanitize_filename`: unless it falls back to `warmup.wav`, the
      result is non-empty, made of safe characters, and neither starts nor
      ends with '-' or '.'; a name that is already like that is kept. */
  function SanitizeFilename(name: string, isAlnum: char -> bool): (r: string)
    ensures r == "warmup.wav" || WellFormedName(r, isAlnum)
    ensures WellFormedName(name, isAlnum) ==> r == name
  {
    var m := MapUnsafe(name, isAlnum);
    var candidate := Trim(m, IsEdgeChar);
    TrimEnds(m, IsEdgeChar);
    TrimKeepsChars(m);
    SafeNameKept(name, isAlnum);
    if candidate == "" then "warmup.wav" else candidate
  }

  lemma {:induction false} SafeNameKept(name: string, isAlnum: char -> bool)
    ensures WellFormedName(name, isAlnum) ==> Trim(MapUnsafe(name, isAlnum), IsEdgeChar) == name
  {
    MapUnsafeIdempotent(name, isAlnum);
    if |name| > 0 && !IsEdgeChar(name[0]) && !IsEdgeChar(name[|name| - 1]) {
      TrimOfTrimmed(name, IsEdgeChar);
    }
  }

  predicate WellFormedName(r: string, isAlnum: char -> bool) {
    |r| > 0
    && (forall i :: 0 <= i < |r| ==> IsFileNameChar(r[i], isAlnum))
    && !IsEdgeChar(r[0]) && !IsEdgeChar(r[|r| - 1])
  }

  lemma {:induction false} TrimKeepsChars(s: string)
    ensures var r := Trim(s, IsEdgeChar);
      forall i :: 0 <= i < |r| ==> exists j :: 0 <= j < |s| && r[i] == s[j]
  {
    var a := TrimStart(s, IsEdgeChar);
    TrimStartSpec(s, IsEdgeChar);
    TrimEndSpec(a, IsEdgeChar);
    var r := Trim(s, IsEdgeChar);
    forall i | 0 <= i < |r|
      ensures exists j :: 0 <= j < |s| && r[i] == s[j]
    {
      assert r[i] == a[i] == s[|s| - |a| + i];
    }
  }

  /** Sanitised names are non-empty, use only safe characters and neither
      start nor end with '-' or '.'. */
  lemma {:induction false} SanitizeWellFormed(name: string, isAlnum: char -> bool)
    requires AsciiAlnum(isAlnum)
    ensures WellFormedName(SanitizeFilename(name, isAlnum), isAlnum)
  {
    var m := MapUnsafe(name, isAlnum);
    var c := Trim(m, IsEdgeChar);
    if c == "" {
      var w := "warmup.wav";
      forall i | 0 <= i < |w| ensures IsFileNameChar(w[i], isAlnum) {
        assert w[i] < '\U{80}';
      }
    } else {
      TrimEnds(m, IsEdgeChar);
      TrimKeepsChars(m);
    }
  }

  /** Sanitising twice is sanitising once. */
  lemma {:induction false} SanitizeIdempotent(name: string, isAlnum: char -> bool)
    requires AsciiAlnum(isAlnum)
    ensures SanitizeFilename(SanitizeFilename(name, isAlnum), isAlnum) == SanitizeFilename(name, isAlnum)
  {
    var r := SanitizeFilename(name, isAlnum);
    SanitizeWellFormed(name, isAlnum);
    MapUnsafeIdempotent(r, isAlnum);
    TrimOfTrimmed(r, IsEdgeChar);
  }

  /** Example: a non-ASCII letter is kept, so "café.wav" is left as it is. */
  lemma {:induction false} SanitizeKeepsUnicodeLetters(isAlnum: char -> bool)
    requires AsciiAlnum(isAlnum) && isAlnum('\U{E9}')
    ensures SanitizeFilename("caf\U{E9}.wav", isAlnum) == "caf\U{E9}.wav"
  {
    var n := "caf\U{E9}.wav";
    forall i | 0 <= i < |n| ensures IsFileNameChar(n[i], isAlnum) {
      if i != 3 {
        assert n[i] < '\U{80}';
      }
    }
    MapUnsafeIdempotent(n, isAlnum);
    assert WellFormedName(n, isAlnum);
    TrimOfTrimmed(n, IsEdgeChar);
  }

  // ---------------------------------------------------------------------------
  // Warm-up files
  // ---------------------------------------------------------------------------

  /** `Path(p).name` for a POSIX path: the last component that is neither
      empty nor ".". */
  function PathName(p: string): (r: string)
    ensures !HasSlash(r)
    decreases |p|
  {
    if |p| == 0 then ""
    else
      var last := AfterLastSlash(p);
      var before := |p| - |last|;
      if last != "" && last != "." then last
      else if before == 0 then ""
      else PathName(p[..before - 1])
  }

  /** `Path(name).suffix` is non-empty. */
  predicate HasSuffix(name: string) {
    exists i :: 0 < i < |name| - 1 && name[i] == '.'
  }

  /** The file part of `_warmup_cache_path(url).name`, given the URL's
      unquoted path: it is never empty, never starts with '-' or '.', always
      has a suffix, and ends in `.wav` unless the sanitised name already had
      a suffix. */
  function WarmupFileName(urlPath: string, isAlnum: char -> bool): (r: string)
    ensures |r| > 0 && !IsEdgeChar(r[0]) && HasSuffix(r)
    ensures var n := PathName(urlPath);
      var safe := SanitizeFilename(if n == "" then "warmup.wav" else n, isAlnum);
      safe <= r && (r == safe || EndsWith(r, ".wav"))
  {
    var n := PathName(urlPath);
    var safe := SanitizeFilename(if n == "" then "warmup.wav" else n, isAlnum);
    if HasSuffix(safe) then safe
    else
      var r := safe + ".wav";
      assert r[|safe|] == '.';
      assert r[..|safe|] == safe;
      assert r[|r| - 4..] == ".wav";
      r
  }

  /** `_warmup_cache_path(url).name`: the digest prefix (the first twelve hex
      digits of the URL's SHA-256), a dash and the file part. */
  function WarmupCacheName(urlPath: string, digest: string, isAlnum: char -> bool): string {
    digest + "-" + WarmupFileName(urlPath, isAlnum)
  }

  /** The cached file name is non-empty, uses only safe characters and has a
      suffix. */
  lemma {:induction false} WarmupFileNameShape(urlPath: string, isAlnum: char -> bool)
    requires AsciiAlnum(isAlnum)
    ensures var name := WarmupFileName(urlPath, isAlnum);
      |name| > 0 && HasSuffix(name) && forall i :: 0 <= i < |name| ==> IsFileNameChar(name[i], isAlnum)
  {
    var n := PathName(urlPath);
    var raw := if n == "" then "warmup.wav" else n;
    SanitizeWellFormed(raw, isAlnum);
    WithSuffixShape(SanitizeFilename(raw, isAlnum), isAlnum);
  }

  lemma {:induction false} WithSuffixShape(safe: string, isAlnum: char -> bool)
    requires AsciiAlnum(isAlnum)
    requires WellFormedName(safe, isAlnum)
    ensures var name := if HasSuffix(safe) then safe else safe + ".wav";
      |name| > 0 && HasSuffix(name) && forall i :: 0 <= i < |name| ==> IsFileNameChar(name[i], isAlnum)
  {
    if !HasSuffix(safe) {
      var name := safe + ".wav";
      assert name[|safe|] == '.';
      forall i | 0 <= i < |name| ensures IsFileNameChar(name[i], isAlnum) {
        if i >= |safe| {
          assert name[i] == ".wav"[i - |safe|];
          assert name[i] < '\U{80}';
        }
      }
    }
  }

  /** Characters `urlsplit` removes anywhere, and the leading characters it
      strips (C0 controls and space). */
  predicate IsUrlUnsafe(c: char) {
    c == '\t' || c == '\r' || c == '\n'
  }

  predicate IsC0OrSpace(c: char) {
    c <= ' '
  }

  function RemoveUnsafe(s: string): (r: string)
    ensures forall i :: 0 <= i < |r| ==> !IsUrlUnsafe(r[i])
    decreases |s|
  {
    if |s| == 0 then ""
    else if IsUrlUnsafe(s[0]) then RemoveUnsafe(s[1..])
    else [s[0]] + RemoveUnsafe(s[1..])
  }

  predicate IsSchemeChar(c: char) {
    IsAsciiLetter(c) || IsDigit(c) || c == '+' || c == '-' || c == '.'
  }

  /** The index of the first ':' in `s`, or |s|. */
  function ColonIndex(s: string): (r: nat)
    ensures r <= |s| && (r < |s| ==> s[r] == ':')
    ensures forall i :: 0 <= i < r ==> s[i] != ':'
    decreases |s|
  {
    if |s| == 0 then 0 else if s[0] == ':' then 0 else 1 + ColonIndex(s[1..])
  }

  /** `urlsplit(url).scheme` and the rest of the URL. */
  function SplitScheme(url: string): (r: (string, string))
  {
    var u := TrimStart(RemoveUnsafe(url), IsC0OrSpace);
    var i := ColonIndex(u);
    if 0 < i < |u| && IsAsciiLetter(u[0]) && (forall k :: 0 <= k < i ==> IsSchemeChar(u[k]))
    then (Lower(u[..i]), u[i + 1..])
    else ("", u)
  }

  predicate IsNetlocEnd(c: char) {
    c == '/' || c == '?' || c == '#'
  }

  predicate Contains(s: string, c: char) {
    exists i :: 0 <= i < |s| && s[i] == c
  }

  /** `urlsplit` raises ValueError when the network location has one
      bracket without the other. */
  predicate RaisesOnNetloc(rest: string) {
    "//" <= rest &&
    var netloc := TakeWhile(rest[2..], c => !IsNetlocEnd(c));
    Contains(netloc, '[') != Contains(netloc, ']')
  }

  /** `_is_http_url`: an accepted value, once cleaned as `urlsplit` cleans
      it, starts with `http:` or `https:` in any letter case. */
  function IsHttpUrl(value: string): (r: bool)
    ensures r ==> var u := TrimStart(RemoveUnsafe(value), IsC0OrSpace);
      (|u| > 4 && Lower(u[..4]) == "http" && u[4] == ':')
      || (|u| > 5 && Lower(u[..5]) == "https" && u[5] == ':')
  {
    var (scheme, rest) := SplitScheme(value);
    !RaisesOnNetloc(rest) && (scheme == "http" || scheme == "https")
  }

  /** An `https://` URL without control characters or brackets is an
      http(s) URL. */
  lemma {:induction false} HttpsUrlAccepted(rest: string)
    requires forall i :: 0 <= i < |rest| ==> rest[i] != '[' && rest[i] != ']' && !IsUrlUnsafe(rest[i])
    ensures IsHttpUrl("https://" + rest)
  {
    HttpsScheme(rest);
    var after := "//" + rest;
    assert after[2..] == rest;
    var netloc := TakeWhile(rest, c => !IsNetlocEnd(c));
    assert !Contains(netloc, '[') && !Contains(netloc, ']') by {
      assert netloc <= rest;
    }
  }

  lemma {:induction false} HttpsScheme(rest: string)
    requires forall i :: 0 <= i < |rest| ==> !IsUrlUnsafe(rest[i])
    ensures SplitScheme("https://" + rest) == ("https", "//" + rest)
  {
    var u := "https://" + rest;
    HttpsUrlSafe(rest);
    HttpsUrlColon(rest);
    SchemeAt(u, 5);
    LowerHttps();
  }

  lemma {:induction false} HttpsUrlSafe(rest: string)
    requires forall i :: 0 <= i < |rest| ==> !IsUrlUnsafe(rest[i])
    ensures RemoveUnsafe("https://" + rest) == "https://" + rest
  {
    var u := "https://" + rest;
    forall i | 0 <= i < |u| ensures !IsUrlUnsafe(u[i]) {
      if i >= 8 {
        assert u[i] == rest[i - 8];
      }
    }
    RemoveUnsafeNone(u);
  }

  lemma {:induction false} HttpsUrlColon(rest: string)
    ensures var u := "https://" + rest;
      ColonIndex(u) == 5 && u[..5] == "https" && u[6..] == "//" + rest && IsAsciiLetter(u[0])
      && forall k :: 0 <= k < 5 ==> IsSchemeChar(u[k])
  {
    var u := "https://" + rest;
    assert u[..8] == "https://";
    assert u[6..] == "//" + rest;
    ColonIndexAt(u, 5);
  }

  lemma {:induction false} LowerHttps()
    ensures Lower("https") == "https"
  {
    var l := Lower("https");
    assert l[0] == 'h' && l[1] == 't' && l[2] == 't' && l[3] == 'p' && l[4] == 's';
  }


  /** A URL that is already clean and starts with `scheme:` splits there. */
  lemma {:induction false} SchemeAt(u: string, n: nat)
    requires RemoveUnsafe(u) == u && 0 < n < |u| && ColonIndex(u) == n
    requires IsAsciiLetter(u[0]) && forall k :: 0 <= k < n ==> IsSchemeChar(u[k])
    ensures SplitScheme(u) == (Lower(u[..n]), u[n + 1..])
  {
    assert !IsC0OrSpace(u[0]);
    assert TrimStart(u, IsC0OrSpace) == u;
  }

  /** A path that starts with '/' has no scheme. */
  lemma {:induction false} LocalPathRejected(path: string)
    requires |path| > 0 && path[0] == '/'
    ensures !IsHttpUrl(path)
  {
    var u := RemoveUnsafe(path);
    assert u[0] == '/';
    assert TrimStart(u, IsC0OrSpace) == u;
  }

  lemma {:induction false} RemoveUnsafeNone(s: string)
    requires forall i :: 0 <= i < |s| ==> !IsUrlUnsafe(s[i])
    ensures RemoveUnsafe(s) == s
    decreases |s|
  {
    if |s| > 0 {
      RemoveUnsafeNone(s[1..]);
    }
  }

  lemma {:induction false} ColonIndexAt(s: string, n: nat)
    requires n < |s| && s[n] == ':' && forall i :: 0 <= i < n ==> s[i] != ':'
    ensures ColonIndex(s) == n
    decreases n
  {
    if n > 0 {
      ColonIndexAt(s[1..], n - 1);
    }
  }

  /** `needs_warmup_download`. `cached` is whether the cache file exists with
      a non-zero size, None when asking raises. */
  function NeedsWarmupDownload(source: string, cached: Option<bool>): (r: bool)
    ensures r ==> source != "" && IsHttpUrl(source)
    ensures source != "" && IsHttpUrl(source) ==> (r <==> cached != Some(true))
  {
    if source == "" then false
    else if !IsHttpUrl(source) then false
    else match cached
      case None => true
      case Some(b) => !b
  }

  datatype WarmupError = ValueError | NotAFile | NotFound | DownloadFailed

  /** Where a warm-up file comes from. */
  datatype WarmupFile = Downloaded(url: string) | Local(path: string)

  /** `ensure_warmup_file`, with the download and the file checks as
      parameters. */
  function EnsureWarmupFile(source: string, isFile: bool, exists_: bool, downloadOk: bool): (r: Result<WarmupFile, WarmupError>)
    ensures source == "" <==> r == Err(ValueError)
    ensures r.Ok? && r.value.Local? ==> !IsHttpUrl(source) && isFile && r.value.path == source
    ensures r.Ok? && r.value.Downloaded? ==> IsHttpUrl(source) && r.value.url == source
    ensures source != "" && !IsHttpUrl(source) && !isFile ==> r.Err? && (exists_ <==> r.error == NotAFile)
  {
    if source == "" then Err(ValueError)
    else if IsHttpUrl(source) then (if downloadOk then Ok(Downloaded(source)) else Err(DownloadFailed))
    else if isFile then Ok(Local(source))
    else if exists_ then Err(NotAFile)
    else Err(NotFound)
  }

  /** Whatever `ensure_warmup_file` accepts, `needs_warmup_download` only asks
      to fetch URLs. */
  lemma {:induction false} WarmupDownloadOnlyForUrls(source: string, cached: Option<bool>, isFile: bool, exists_: bool, downloadOk: bool)
    requires NeedsWarmupDownload(source, cached)
    ensures EnsureWarmupFile(source, isFile, exists_, downloadOk).Ok? ==> EnsureWarmupFile(source, isFile, exists_, downloadOk).value.Downloaded?
  {
  }

  // ---------------------------------------------------------------------------
  // Weights on disk
  // ---------------------------------------------------------------------------

  type Path = seq<string>

  /** A snapshot of the file system: the regular files and the directories. */
  datatype Fs = Fs(files: set<Path>, dirs: set<Path>)

  predicate PathExists(fs: Fs, p: Path) {
    p in fs.files || p in fs.dirs
  }

  predicate IsChild(d: Path, p: Path) {
    |p| == |d| + 1 && p[..|d|] == d
  }

  /** A file matched by `candidate.glob("model.bin.*")`. */
  predicate IsModelShard(d: Path, p: Path) {
    IsChild(d, p) && "model.bin." <= p[|d|]
  }

  predicate HasTokenizer(fs: Fs, d: Path) {
    d + ["tokenizer.json"] in fs.files || d + ["tokenizer_config.json"] in fs.files
  }

  /** `_check_dir`. */
  predicate CheckDir(fs: Fs, d: Path) {
    d in fs.dirs && HasTokenizer(fs, d)
    && (
      || d + ["model.bin"] in fs.files
      || (exists p | p in fs.files :: IsModelShard(d, p) && !EndsWith(p[|d|], ".index.json"))
      || (d + ["model.bin.index.json"] in fs.files
          && exists p | p in fs.files :: IsModelShard(d, p) && p != d + ["model.bin.index.json"]))
  }

  /** The directories `_has_faster_whisper_weights` checks, in order. */
  function WeightCandidates(fs: Fs, path: Path): (r: seq<Path>)
    ensures |r| == 4
    ensures r[0] == path || (path in fs.files && IsChild(r[0], path))
    ensures forall i :: 1 <= i < 4 ==> IsChild(r[0], r[i])
  {
    var root := if path in fs.files && |path| > 0 then path[..|path| - 1] else path;
    [root, root + ["ct2_model"], root + ["ctranslate2"], root + ["model"]]
  }

  /** `_has_faster_whisper_weights`: weights are found only in a candidate
      directory holding a tokenizer file, and a directory holding
      `tokenizer.json` and `model.bin` is found. */
  function HasFasterWhisperWeights(fs: Fs, path: Path): (r: bool)
    ensures r ==> exists i :: (0 <= i < 4 && WeightCandidates(fs, path)[i] in fs.dirs
      && HasTokenizer(fs, WeightCandidates(fs, path)[i]))
    ensures (path in fs.dirs && path !in fs.files && path + ["tokenizer.json"] in fs.files
      && path + ["model.bin"] in fs.files) ==> r
  {
    assert path !in fs.files ==> WeightCandidates(fs, path)[0] == path;
    exists i :: 0 <= i < 4 && CheckDir(fs, WeightCandidates(fs, path)[i])
  }

  /** Weights are found only where a tokenizer file and a `model.bin` file
      sit side by side in a directory. */
  lemma {:induction false} WeightsNeedTokenizerAndModel(fs: Fs, path: Path)
    requires HasFasterWhisperWeights(fs, path)
    ensures exists d, f :: (d in fs.dirs && HasTokenizer(fs, d) && f in fs.files && IsChild(d, f)
      && "model.bin" <= f[|d|])
  {
    var i :| 0 <= i < 4 && CheckDir(fs, WeightCandidates(fs, path)[i]);
    var d := WeightCandidates(fs, path)[i];
    if d + ["model.bin"] in fs.files {
      assert IsChild(d, d + ["model.bin"]);
      assert (d + ["model.bin"])[|d|] == "model.bin";
    } else {
      var p :| p in fs.files && IsModelShard(d, p);
      assert "model.bin" <= p[|d|];
    }
  }

  /** A directory holding `tokenizer.json` and `model.bin` has weights. */
  lemma {:induction false} DirectWeights(fs: Fs, d: Path)
    requires d in fs.dirs && d !in fs.files
    requires d + ["tokenizer.json"] in fs.files && d + ["model.bin"] in fs.files
    ensures HasFasterWhisperWeights(fs, d)
  {
    assert WeightCandidates(fs, d)[0] == d;
  }

  /** Only the index of a sharded model is not enough. */
  lemma {:induction false} IndexAloneIsNoWeights(fs: Fs, d: Path)
    requires forall p :: p in fs.files && IsModelShard(d, p) ==> p == d + ["model.bin.index.json"]
    requires d + ["model.bin"] !in fs.files
    ensures !CheckDir(fs, d)
  {
    assert "model.bin.index.json"[|"model.bin.index.json"| - 11..] == ".index.json";
  }

  // ---------------------------------------------------------------------------
  // The download check
  // ---------------------------------------------------------------------------

  /** What the caller reads from disk besides the file sets: the newest
      snapshot directory of the resolved repo, the path written in the
      repo's `latest` marker, and the order in which the repo directory lists
      its entries. */
  datatype CacheFacts = CacheFacts(snapshot: Option<Path>, marker: Option<Path>, listing: seq<string>)

  function RepoDir(hfCache: Path, repoId: string): Path {
    hfCache + [CacheDirName(repoId)]
  }

  predicate HasModelFile(fs: Fs, d: Path) {
    PathExists(fs, d + ["model.bin"]) || PathExists(fs, d + ["pytorch_model.bin"])
  }

  /** A directory holding model weights. */
  predicate IsWeightDir(fs: Fs, d: Path) {
    d in fs.dirs && HasModelFile(fs, d)
  }

  /** The first listed subdirectory holding model weights; None exactly
      when no listed one does. */
  function FirstWeightSubdir(fs: Fs, base: Path, listing: seq<string>): (r: Option<Path>)
    ensures r.Some? ==> r.value in fs.dirs && HasModelFile(fs, r.value)
    ensures r.Some? ==> |r.value| == |base| + 1 && r.value[..|base|] == base && r.value[|base|] in listing
    ensures r.None? <==> forall i :: 0 <= i < |listing| ==> !IsWeightDir(fs, base + [listing[i]])
    decreases |listing|
  {
    if |listing| == 0 then None
    else
      var sub := base + [listing[0]];
      if sub in fs.dirs && HasModelFile(fs, sub) then Some(sub)
      else FirstWeightSubdir(fs, base, listing[1..])
  }

  /** `get_model_path` for a Hugging Face repo: snapshot, marker, weights in
      the repo directory or a subdirectory, else the repo directory. */
  function ModelPath(fs: Fs, base: Path, facts: CacheFacts): (r: Path)
    ensures facts.snapshot.Some? ==> r == facts.snapshot.value
    ensures facts.snapshot.None? && facts.marker.Some? && PathExists(fs, facts.marker.value) ==> r == facts.marker.value
    ensures facts.snapshot.None? && !(facts.marker.Some? && PathExists(fs, facts.marker.value)) ==>
      if HasModelFile(fs, base) then r == base
      else r == base || (r in fs.dirs && HasModelFile(fs, r) && |r| == |base| + 1 && r[..|base|] == base)
  {
    if facts.snapshot.Some? then facts.snapshot.value
    else if facts.marker.Some? && PathExists(fs, facts.marker.value) then facts.marker.value
    else if HasModelFile(fs, base) then base
    else if PathExists(fs, base) && FirstWeightSubdir(fs, base, facts.listing).Some? then FirstWeightSubdir(fs, base, facts.listing).value
    else base
  }
  /** Without a snapshot or a live marker, the path found holds weights
      exactly when the repo directory does, or it exists and one of its
      listed subdirectories does. */
  lemma {:induction false} ModelPathFindsWeights(fs: Fs, base: Path, facts: CacheFacts)
    requires facts.snapshot.None? && !(facts.marker.Some? && PathExists(fs, facts.marker.value))
    ensures HasModelFile(fs, ModelPath(fs, base, facts)) <==>
      HasModelFile(fs, base)
      || (PathExists(fs, base) && exists i :: 0 <= i < |facts.listing| && IsWeightDir(fs, base + [facts.listing[i]]))
  {
    var f := FirstWeightSubdir(fs, base, facts.listing);
    if !HasModelFile(fs, base) && PathExists(fs, base)
       && exists i :: 0 <= i < |facts.listing| && IsWeightDir(fs, base + [facts.listing[i]]) {
      assert f.Some?;
    }
  }


  /** `is_model_downloaded`. */
  function IsModelDownloaded(fs: Fs, hfCache: Path, vadDownloaded: bool, name: string, backend: Option<string>, facts: CacheFacts): (r: bool)
    ensures name == VadRepo ==> r == vadDownloaded
    ensures name != VadRepo && backend == Some("simulstreaming") ==> (r <==> hfCache + [PtFileName(name)] in fs.files)
    ensures name != VadRepo && backend == Some("faster-whisper") ==>
      (r <==> HasFasterWhisperWeights(fs, ModelPath(fs, RepoDir(hfCache, ResolveRepoId(name, backend)), facts)))
    ensures name != VadRepo && backend !in {Some("simulstreaming"), Some("faster-whisper")} && facts.snapshot.Some? ==> r
    ensures name != VadRepo && backend in {None, Some("whisper_timestamped")} && facts.snapshot.None? ==>
      (r <==> hfCache + [PtFileName(name)] in fs.files)
    ensures r && name != VadRepo && backend !in {None, Some("whisper_timestamped"), Some("simulstreaming"), Some("faster-whisper")} ==> facts.snapshot.Some?
  {
    if name == VadRepo then vadDownloaded
    else if backend == Some("simulstreaming") then hfCache + [PtFileName(name)] in fs.files
    else
      var base := RepoDir(hfCache, ResolveRepoId(name, backend));
      if backend == Some("faster-whisper") then
        (facts.snapshot.Some? && HasFasterWhisperWeights(fs, facts.snapshot.value))
        || HasFasterWhisperWeights(fs, ModelPath(fs, base, facts))
      else if facts.snapshot.Some? then true
      else if backend == None || backend == Some("whisper_timestamped") then hfCache + [PtFileName(name)] in fs.files
      else false
  }

  /** The cases of the faster-whisper cache script: a repo directory with
      `model.bin` but no tokenizer is missing; adding `tokenizer.json` makes
      it present. */
  lemma {:induction false} CacheScriptDirectFiles(hfCache: Path)
    ensures var base := RepoDir(hfCache, "Systran/faster-whisper-tiny");
      var facts := CacheFacts(None, None, []);
      var without := Fs({base + ["model.bin"]}, {base});
      var with := Fs({base + ["model.bin"], base + ["tokenizer.json"]}, {base});
      !IsModelDownloaded(without, hfCache, false, "tiny", Some("faster-whisper"), facts)
      && IsModelDownloaded(with, hfCache, false, "tiny", Some("faster-whisper"), facts)
  {
    var repo := ResolveRepoId("tiny", Some("faster-whisper"));
    assert !HasSlash("tiny");
    assert repo == "Systran/faster-whisper-tiny";
    var base := RepoDir(hfCache, repo);
    var facts := CacheFacts(None, None, []);
    var without := Fs({base + ["model.bin"]}, {base});
    var with := Fs({base + ["model.bin"], base + ["tokenizer.json"]}, {base});
    assert ModelPath(without, base, facts) == base;
    assert ModelPath(with, base, facts) == base;
    assert base !in with.files;
    DirectWeights(with, base);
    NoTokenizerNoWeights(without, base);
  }

  /** With no tokenizer file anywhere, no candidate has weights. */
  lemma {:induction false} NoTokenizerNoWeights(fs: Fs, path: Path)
    requires forall p :: p in fs.files ==> |p| > 0 && p[|p| - 1] != "tokenizer.json" && p[|p| - 1] != "tokenizer_config.json"
    ensures !HasFasterWhisperWeights(fs, path)
  {
    forall i | 0 <= i < 4 ensures !CheckDir(fs, WeightCandidates(fs, path)[i]) {
      var d := WeightCandidates(fs, path)[i];
      assert (d + ["tokenizer.json"])[|d|] == "tokenizer.json";
      assert (d + ["tokenizer_config.json"])[|d|] == "tokenizer_config.json";
    }
  }

  /** A snapshot with a tokenizer config, two shards and their index is
      present; with the shards removed it is missing again. */
  lemma {:induction false} CacheScriptShards(hfCache: Path, snap: Path)
    requires |snap| > 0 && snap[|snap| - 1] == "rev-123"
    ensures var facts := CacheFacts(Some(snap), None, []);
      var tok := snap + ["tokenizer_config.json"];
      var idx := snap + ["model.bin.index.json"];
      var full := Fs({tok, snap + ["model.bin.0"], snap + ["model.bin.1"], idx}, {snap});
      var stripped := Fs({tok, idx}, {snap});
      IsModelDownloaded(full, hfCache, false, "tiny", Some("faster-whisper"), facts)
      && !IsModelDownloaded(stripped, hfCache, false, "tiny", Some("faster-whisper"), facts)
  {
    ShardsHaveWeights(snap);
    IndexWithoutShardsHasNone(snap);
  }

  lemma {:induction false} ShardsHaveWeights(snap: Path)
    requires |snap| > 0
    ensures var tok := snap + ["tokenizer_config.json"];
      var idx := snap + ["model.bin.index.json"];
      HasFasterWhisperWeights(Fs({tok, snap + ["model.bin.0"], snap + ["model.bin.1"], idx}, {snap}), snap)
  {
    var tok := snap + ["tokenizer_config.json"];
    var idx := snap + ["model.bin.index.json"];
    var shard := snap + ["model.bin.0"];
    var full := Fs({tok, shard, snap + ["model.bin.1"], idx}, {snap});
    assert WeightCandidates(full, snap)[0] == snap;
    assert IsModelShard(snap, shard) && !EndsWith(shard[|snap|], ".index.json");
    assert CheckDir(full, snap);
  }

  lemma {:induction false} IndexWithoutShardsHasNone(snap: Path)
    requires |snap| > 0
    ensures var tok := snap + ["tokenizer_config.json"];
      var idx := snap + ["model.bin.index.json"];
      !HasFasterWhisperWeights(Fs({tok, idx}, {snap}), snap)
  {
    var tok := snap + ["tokenizer_config.json"];
    var idx := snap + ["model.bin.index.json"];
    var stripped := Fs({tok, idx}, {snap});
    forall i | 0 <= i < 4 ensures !CheckDir(stripped, WeightCandidates(stripped, snap)[i]) {
      var d := WeightCandidates(stripped, snap)[i];
      if i == 0 {
        assert d == snap;
        assert snap + ["model.bin"] !in stripped.files by {
          assert (snap + ["model.bin"])[|snap|] == "model.bin";
          assert tok[|snap|] == "tokenizer_config.json";
          assert idx[|snap|] == "model.bin.index.json";
        }
        forall p | p in stripped.files && IsModelShard(snap, p) ensures p == idx {
          assert tok[|snap|] == "tokenizer_config.json";
          assert "tokenizer_config.json"[0] == 't';
        }
        IndexAloneIsNoWeights(stripped, snap);
      } else {
        assert d !in stripped.dirs by {
          assert |d| == |snap| + 1;
        }
      }
    }
  }

  // ---------------------------------------------------------------------------
  // Listing
  // ---------------------------------------------------------------------------

  /** `list_downloaded_models`: cache directories (by name, with whether they
      hold `snapshots`), `.pt` stems, then the VAD model. */
  function ListDownloadedModels(cacheDirs: seq<(string, bool)>, ptStems: seq<string>, vadDownloaded: bool): (r: seq<string>)
    requires forall i :: 0 <= i < |cacheDirs| ==> "models--" <= cacheDirs[i].0
    ensures vadDownloaded ==> |r| > 0 && r[|r| - 1] == VadRepo
    ensures |r| <= |cacheDirs| + |ptStems| + 1
    decreases |cacheDirs|
  {
    if |cacheDirs| > 0 then
      (if cacheDirs[0].1 then [DecodeCacheDirName(cacheDirs[0].0)] else [])
        + ListDownloadedModels(cacheDirs[1..], ptStems, vadDownloaded)
    else
      seq(|ptStems|, i requires 0 <= i < |ptStems| => PtRepoId(ptStems[i]))
        + (if vadDownloaded then [VadRepo] else [])
  }

  /** A model downloaded into the cache is listed under its repo id. */
  lemma {:induction false} DownloadedModelListed(before: seq<(string, bool)>, repoId: string, after: seq<(string, bool)>, ptStems: seq<string>, vad: bool)
    requires CacheSafe(repoId)
    requires forall i :: 0 <= i < |before| ==> "models--" <= before[i].0
    requires forall i :: 0 <= i < |after| ==> "models--" <= after[i].0
    ensures var dirs := before + [(CacheDirName(repoId), true)] + after;
      (forall i :: 0 <= i < |dirs| ==> "models--" <= dirs[i].0)
      && repoId in ListDownloadedModels(dirs, ptStems, vad)
    decreases |before|
  {
    var dirs := before + [(CacheDirName(repoId), true)] + after;
    if |before| == 0 {
      assert dirs[0] == (CacheDirName(repoId), true);
      assert dirs[1..] == after;
      CacheDirRoundTrip(repoId);
    } else {
      assert dirs[1..] == before[1..] + [(CacheDirName(repoId), true)] + after;
      DownloadedModelListed(before[1..], repoId, after, ptStems, vad);
    }
  }
}

=== FILE: protocol.dfy ===
/** How the components meet on `/asr`: the frames each sender produces as
    the server's receive loop reads them, and the server's result messages
    as each consumer reads them. */
module Protocol {
  import opened Base
  import opened Text
  import opened Json
  import ApiBridge
  import DesktopClient
  import TkClient
  import Backend

  // ---------------------------------------------------------------------------
  // Audio frames into the server
  // ---------------------------------------------------------------------------

  /** The bridge's frames (the 3200-byte slices, then the empty frame) reach
      the server as a controlled stop, and the audio it decodes is exactly
      the PCM the bridge was given. */
  lemma {:induction false} BridgeStreamStops(pcm: seq<byte>, rest: seq<Backend.Incoming>)
    ensures Backend.ReceiveFrames(Backend.BinaryFrames(ApiBridge.Chunks(pcm) + [[]]) + rest)
      == Backend.Received(ApiBridge.Chunks(pcm), Backend.ControlledStop)
    ensures Flatten(Backend.ReceiveFrames(Backend.BinaryFrames(ApiBridge.Chunks(pcm) + [[]]) + rest).audio) == pcm
  {
    var chunks := ApiBridge.Chunks(pcm);
    assert Backend.BinaryFrames(chunks + [[]]) == Backend.BinaryFrames(chunks) + [Backend.Bytes([])];
    Backend.ReceiveAudioThen(chunks, Backend.Bytes([]), rest);
    ApiBridge.ChunksConcatenate(pcm);
  }

  /** As written, the desktop stop click cancels the token its receiver is
      waiting with, which aborts the socket: the server decodes the buffers
      sent before the click and then meets a disconnect, so it says no
      `ready_to_stop` and its last results are never sent. */
  lemma {:induction false} DesktopStopIsDisconnect(captured: seq<DesktopClient.Captured>, faults: set<DesktopClient.Step>,
                                                   rest: seq<Backend.Incoming>)
    requires forall i :: 0 <= i < |DesktopClient.OpenAudio(captured)| ==> |DesktopClient.OpenAudio(captured)[i]| > 0
    ensures var trace := DesktopClient.Session(DesktopClient.Connected, captured, faults);
      DesktopClient.Aborts(trace, true)
      && Backend.ReceiveFrames(Backend.BinaryFrames(DesktopClient.Delivered(trace, true)) + [Backend.Disconnect] + rest)
        == Backend.Received(DesktopClient.OpenAudio(captured), Backend.Disconnected)
      && Backend.Farewell(Backend.Disconnected) == []
  {
    DesktopClient.StopClickAbortsSocket(captured, faults);
    Backend.ReceiveAudioThen(DesktopClient.OpenAudio(captured), Backend.Disconnect, rest);
  }

  /** In the corrected desktop session every frame is delivered: the server
      sees the open-socket buffers and then a controlled stop, whichever
      teardown steps throw and whether or not the receiver is waiting, as
      long as no capture buffer is empty (an empty one would be read as the
      stop signal). */
  lemma {:induction false} DesktopSessionStops(captured: seq<DesktopClient.Captured>, faults: set<DesktopClient.Step>,
                                               receivePending: bool, rest: seq<Backend.Incoming>)
    requires forall i :: 0 <= i < |DesktopClient.OpenAudio(captured)| ==> |DesktopClient.OpenAudio(captured)[i]| > 0
    ensures Backend.ReceiveFrames(Backend.BinaryFrames(
        DesktopClient.Delivered(DesktopClient.SessionFixed(captured, faults), receivePending)) + rest)
      == Backend.Received(DesktopClient.OpenAudio(captured), Backend.ControlledStop)
  {
    var audio := DesktopClient.OpenAudio(captured);
    DesktopClient.FixedSessionDelivers(captured, faults, receivePending);
    assert Backend.BinaryFrames(audio + [[]]) == Backend.BinaryFrames(audio) + [Backend.Bytes([])];
    Backend.ReceiveAudioThen(audio, Backend.Bytes([]), rest);
  }

  /** The Tk client's frames as the server's loop meets them. */
  function TkIncoming(frames: seq<TkClient.Frame>): (r: seq<Backend.Incoming>)
    ensures |r| == |frames|
    ensures forall i :: 0 <= i < |r| ==> r[i] == (match frames[i]
      case Binary(b) => Backend.Bytes(b)
      case Text(t) => Backend.TextFrame(t))
  {
    seq(|frames|, i requires 0 <= i < |frames| =>
      match frames[i]
      case Binary(b) => Backend.Bytes(b)
      case Text(t) => Backend.TextFrame(t))
  }

  /** The Tk client ends with the text `{"eof": 1}`, which this server's
      binary receive rejects: its audio is decoded, but the session ends in
      a failure, never a controlled stop, and no `ready_to_stop` follows. */
  lemma {:induction false} TkEofIsNoStop(blocks: seq<seq<byte>>, rest: seq<Backend.Incoming>)
    requires forall i :: 0 <= i < |blocks| ==> |blocks[i]| > 0
    ensures Backend.ReceiveFrames(TkIncoming(TkClient.SentFrames(blocks)) + rest) == Backend.Received(blocks, Backend.Failed)
    ensures Backend.Farewell(Backend.ReceiveFrames(TkIncoming(TkClient.SentFrames(blocks)) + rest).ending) == []
  {
    assert TkIncoming(TkClient.SentFrames(blocks)) == Backend.BinaryFrames(blocks) + [Backend.TextFrame(TkClient.EofMessage)];
    Backend.ReceiveAudioThen(blocks, Backend.TextFrame(TkClient.EofMessage), rest);
  }

  // ---------------------------------------------------------------------------
  // Result messages into the consumers
  // ---------------------------------------------------------------------------

  /** What the desktop client appends for the lines of a response: each
      text that is not blank, with a newline, in order. */
  function DesktopLineAppends(lines: seq<Backend.Line>): (r: seq<string>)
    ensures |r| <= |lines|
    decreases |lines|
  {
    if |lines| == 0 then []
    else (if IsBlank(lines[0].text, IsClrSpace) then [] else [lines[0].text + "\n"]) + DesktopLineAppends(lines[1..])
  }

  /** A buffer as the desktop client appends it. */
  function DesktopBuffer(t: string): seq<string> {
    if IsBlank(t, IsClrSpace) then [] else [t + "\n"]
  }

  lemma {:induction false} DesktopAppendsLines(lines: seq<Backend.Line>, items: seq<Json>, fmt: real -> string)
    requires |items| == |lines| && forall i :: 0 <= i < |items| ==> items[i] == Backend.LineJson(lines[i], fmt)
    ensures DesktopClient.AppendLines(items) == DesktopClient.Partial(DesktopLineAppends(lines), false)
    decreases |lines|
  {
    if |lines| > 0 {
      DesktopAppendsLines(lines[1..], items[1..], fmt);
      assert DesktopClient.LineText(items[0]) == Ok(Some(lines[0].text));
    }
  }

  /** The desktop client reads a server response as its non-blank line
      texts, then the transcription buffer, then the diarization buffer,
      each unless blank, and keeps going. */
  lemma {:induction false} DesktopReadsResponse(r: Backend.Response, fmt: real -> string)
    ensures DesktopClient.ApplyMessage(Backend.ResponseJson(r, fmt))
      == DesktopClient.Applied(DesktopLineAppends(r.lines) + DesktopBuffer(r.bufferTranscription)
                               + DesktopBuffer(r.bufferDiarization), false)
  {
    var j := Backend.ResponseJson(r, fmt);
    var items := Get(j, "lines").value.items;
    DesktopAppendsLines(r.lines, items, fmt);
    DesktopClient.ApplyMessageWithLines(j.members, items);
    assert DesktopClient.BufferAppend(j.members, "buffer_transcription") == DesktopBuffer(r.bufferTranscription);
    assert DesktopClient.BufferAppend(j.members, "buffer_diarization") == DesktopBuffer(r.bufferDiarization);
  }

  /** The texts the bridge collects from the lines of a response: the
      non-empty ones, in order. */
  function BridgeLineTexts(lines: seq<Backend.Line>): (r: seq<Json>)
    ensures |r| <= |lines|
    ensures forall i :: 0 <= i < |r| ==> r[i].JStr? && r[i].s != ""
    decreases |lines|
  {
    if |lines| == 0 then []
    else (if lines[0].text == "" then [] else [JStr(lines[0].text)]) + BridgeLineTexts(lines[1..])
  }

  /** A buffer as the bridge collects it. */
  function BridgeBuffer(t: string): seq<Json> {
    if t == "" then [] else [JStr(t)]
  }

  lemma {:induction false} BridgeCollectsLines(lines: seq<Backend.Line>, items: seq<Json>, fmt: real -> string)
    requires |items| == |lines| && forall i :: 0 <= i < |items| ==> items[i] == Backend.LineJson(lines[i], fmt)
    ensures ApiBridge.LineTexts(items) == Ok(BridgeLineTexts(lines))
    decreases |lines|
  {
    if |lines| > 0 {
      BridgeCollectsLines(lines[1..], items[1..], fmt);
      assert Get(items[0], "text") == Some(JStr(lines[0].text));
    }
  }

  /** The texts the bridge takes from one response. */
  function BridgeTexts(r: Backend.Response): seq<Json> {
    BridgeLineTexts(r.lines) + BridgeBuffer(r.bufferTranscription) + BridgeBuffer(r.bufferDiarization)
  }

  /** The bridge reads a server response as its non-empty line texts, then
      the non-empty buffers. */
  lemma {:induction false} BridgeReadsResponse(r: Backend.Response, fmt: real -> string)
    ensures ApiBridge.MessageTexts(Backend.ResponseJson(r, fmt)) == Ok(ApiBridge.Texts(BridgeTexts(r)))
  {
    var j := Backend.ResponseJson(r, fmt);
    var items := Get(j, "lines").value.items;
    BridgeCollectsLines(r.lines, items, fmt);
    ApiBridge.MessageTextsWithLines(j, items);
    assert ApiBridge.Truthies(Get(j, "buffer_transcription")) == BridgeBuffer(r.bufferTranscription);
    assert ApiBridge.Truthies(Get(j, "buffer_diarization")) == BridgeBuffer(r.bufferDiarization);
  }

  /** The messages a session sends: each response, then the farewell. */
  function SessionMessages(rs: seq<Backend.Response>, fmt: real -> string, ending: Backend.Ending): (m: seq<Option<Json>>)
    ensures |m| == |rs| + |Backend.Farewell(ending)|
    decreases |rs|
  {
    if |rs| == 0 then (if ending == Backend.ControlledStop then [Some(Backend.ReadyToStop)] else [])
    else [Some(Backend.ResponseJson(rs[0], fmt))] + SessionMessages(rs[1..], fmt, ending)
  }

  /** Without a controlled stop every message is a response. */
  lemma {:induction false} SessionMessagesWithoutStop(rs: seq<Backend.Response>, fmt: real -> string, ending: Backend.Ending)
    requires ending != Backend.ControlledStop
    ensures var m := SessionMessages(rs, fmt, ending);
      |m| == |rs| && forall i :: 0 <= i < |m| ==> m[i] == Some(Backend.ResponseJson(rs[i], fmt))
    decreases |rs|
  {
    if |rs| > 0 {
      SessionMessagesWithoutStop(rs[1..], fmt, ending);
      var tail := SessionMessages(rs[1..], fmt, ending);
      var m := SessionMessages(rs, fmt, ending);
      assert m == [Some(Backend.ResponseJson(rs[0], fmt))] + tail;
      forall i | 1 <= i < |m|
        ensures m[i] == Some(Backend.ResponseJson(rs[i], fmt))
      {
        assert m[i] == tail[i - 1];
        assert rs[1..][i - 1] == rs[i];
      }
    }
  }

  /** Everything the bridge collects over a sequence of responses. */
  function BridgeSessionTexts(rs: seq<Backend.Response>): (r: seq<Json>)
    ensures forall i :: 0 <= i < |r| ==> r[i].JStr? && r[i].s != ""
    decreases |rs|
  {
    if |rs| == 0 then [] else BridgeTexts(rs[0]) + BridgeSessionTexts(rs[1..])
  }

  /** After a controlled stop the bridge's transcript is every response's
      texts, in order. */
  lemma {:induction false} BridgeTranscriptOnStop(rs: seq<Backend.Response>, fmt: real -> string)
    ensures ApiBridge.CollectTexts(SessionMessages(rs, fmt, Backend.ControlledStop)) == Ok(BridgeSessionTexts(rs))
    decreases |rs|
  {
    var m := SessionMessages(rs, fmt, Backend.ControlledStop);
    if |rs| == 0 {
      assert m == [Some(Backend.ReadyToStop)];
      assert Get(Backend.ReadyToStop, "type") == Some(JStr("ready_to_stop"));
    } else {
      BridgeTranscriptOnStop(rs[1..], fmt);
      var tail := SessionMessages(rs[1..], fmt, Backend.ControlledStop);
      assert m == [Some(Backend.ResponseJson(rs[0], fmt))] + tail;
      BridgeReadsResponse(rs[0], fmt);
      ApiBridge.CollectTextsCons(Backend.ResponseJson(rs[0], fmt), BridgeTexts(rs[0]), tail);
    }
  }

  /** Without a controlled stop no `ready_to_stop` arrives and the bridge
      sees the connection close instead of getting a transcript. */
  lemma {:induction false} BridgeNeedsControlledStop(rs: seq<Backend.Response>, fmt: real -> string, ending: Backend.Ending)
    requires ending != Backend.ControlledStop
    ensures ApiBridge.CollectTexts(SessionMessages(rs, fmt, ending)).Err?
  {
    var m := SessionMessages(rs, fmt, ending);
    SessionMessagesWithoutStop(rs, fmt, ending);
    ApiBridge.CollectNeedsReady(m);
  }
  /** The bridge end to end: an upload that converts, streamed to a server
      that ends in a controlled stop, is answered with the requested model
      and the final join of every non-empty line and buffer text the server
      sent; a server that never says `ready_to_stop` gets no answer but an
      error. */
  lemma {:induction false} BridgeTranscribesSession(data: seq<byte>, filename: Option<string>, model: string,
                                                    parseRiff: seq<byte> -> ApiBridge.WavOpen,
                                                    ffmpeg: seq<byte> -> Result<seq<byte>, int>,
                                                    rs: seq<Backend.Response>, fmt: real -> string)
    requires ApiBridge.ConvertToPcm16(data, filename, parseRiff, ffmpeg).Ok?
    ensures ApiBridge.FinalText(BridgeSessionTexts(rs)).Ok?
    ensures ApiBridge.Transcribe(data, filename, model, parseRiff, ffmpeg, SessionMessages(rs, fmt, Backend.ControlledStop))
      == Ok(ApiBridge.Response(ApiBridge.FinalText(BridgeSessionTexts(rs)).value, model))
    ensures ApiBridge.Transcribe(data, filename, model, parseRiff, ffmpeg, SessionMessages(rs, fmt, Backend.Disconnected)).Err?
  {
    BridgeTranscriptOnStop(rs, fmt);
    BridgeNeedsControlledStop(rs, fmt, Backend.Disconnected);
  }


  /** The Tk client shows only a response's transcription buffer: committed
      lines never reach its transcript. */
  lemma {:induction false} TkReadsResponse(r: Backend.Response, fmt: real -> string)
    ensures TkClient.ReceivedText(Some(Backend.ResponseJson(r, fmt)))
      == (if r.bufferTranscription != "" then Some(r.bufferTranscription) else None)
  {
  }
}

=== FILE: text.dfy ===
/** String operations the clients and servers rely on, with the whitespace and
    case conventions of the two runtimes (CPython and .NET) written out. */
module Text {
  import opened Base

  /** CPython `str.isspace()`: what `str.strip()` and `str.split()` treat as whitespace. */
  predicate IsPySpace(c: char) {
    ('\t' <= c <= '\r') || ('\U{1C}' <= c <= '\U{1F}') || c == ' ' || c == '\U{85}' || c == '\U{A0}'
    || c == '\U{1680}' || ('\U{2000}' <= c <= '\U{200A}') || c == '\U{2028}' || c == '\U{2029}'
    || c == '\U{202F}' || c == '\U{205F}' || c == '\U{3000}'
  }

  /** .NET `Char.IsWhiteSpace`: what `Trim()` and `IsNullOrWhiteSpace` use.
      Unlike CPython it does not count U+001C..U+001F. */
  predicate IsClrSpace(c: char) {
    ('\t' <= c <= '\r') || c == ' ' || c == '\U{85}' || c == '\U{A0}'
    || c == '\U{1680}' || ('\U{2000}' <= c <= '\U{200A}') || c == '\U{2028}' || c == '\U{2029}'
    || c == '\U{202F}' || c == '\U{205F}' || c == '\U{3000}'
  }

  predicate IsDigit(c: char) {
    '0' <= c <= '9'
  }

  predicate IsAsciiLetter(c: char) {
    ('a' <= c <= 'z') || ('A' <= c <= 'Z')
  }

  /** Every character of `s` satisfies `ws` (vacuously true of ""). */
  predicate IsBlank(s: string, ws: char -> bool) {
    forall i :: 0 <= i < |s| ==> ws(s[i])
  }

  predicate EndsWith(s: string, suffix: string) {
    |suffix| <= |s| && s[|s| - |suffix|..] == suffix
  }

  /** Python's `sub in s`. Every string contains "". */
  predicate IsSubstring(sub: string, s: string)
    decreases |s|
  {
    sub <= s || (|s| > 0 && IsSubstring(sub, s[1..]))
  }

  lemma {:induction false} SubstringOfSelf(s: string)
    ensures IsSubstring(s, s)
  {
  }

  lemma {:induction false} SubstringOfExtension(sub: string, s: string, t: string)
    requires IsSubstring(sub, s)
    ensures IsSubstring(sub, s + t)
    decreases |s|
  {
    if sub <= s {
      assert sub <= s + t;
    } else {
      assert (s + t)[1..] == s[1..] + t;
      SubstringOfExtension(sub, s[1..], t);
    }
  }

  /** Drops leading characters satisfying `ws`. */
  function TrimStart(s: string, ws: char -> bool): (r: string)
    ensures |r| <= |s|
    decreases |s|
  {
    if |s| > 0 && ws(s[0]) then TrimStart(s[1..], ws) else s
  }

  /** What `TrimStart` removes is a run of whitespace, and what it keeps is a
      suffix that does not start with whitespace. */
  lemma {:induction false} TrimStartSpec(s: string, ws: char -> bool)
    ensures var r := TrimStart(s, ws);
      && r == s[|s| - |r|..]
      && (forall i :: 0 <= i < |s| - |r| ==> ws(s[i]))
      && (|r| > 0 ==> !ws(r[0]))
    decreases |s|
  {
    if |s| > 0 && ws(s[0]) {
      TrimStartSpec(s[1..], ws);
      var r := TrimStart(s, ws);
      assert s[1..][|s| - 1 - |r|..] == s[|s| - |r|..];
      forall i | 1 <= i < |s| - |r|
        ensures ws(s[i])
      {
        assert s[i] == s[1..][i - 1];
      }
    }
  }

  /** Drops trailing characters satisfying `ws`. */
  function TrimEnd(s: string, ws: char -> bool): (r: string)
    ensures |r| <= |s|
    decreases |s|
  {
    if |s| > 0 && ws(s[|s| - 1]) then TrimEnd(s[..|s| - 1], ws) else s
  }

  /** What `TrimEnd` removes is a run of whitespace, and what it keeps is a
      prefix that does not end with whitespace. */
  lemma {:induction false} TrimEndSpec(s: string, ws: char -> bool)
    ensures var r := TrimEnd(s, ws);
      && r == s[..|r|]
      && (forall i :: |r| <= i < |s| ==> ws(s[i]))
      && (|r| > 0 ==> !ws(r[|r| - 1]))
    decreases |s|
  {
    if |s| > 0 && ws(s[|s| - 1]) {
      var init := s[..|s| - 1];
      TrimEndSpec(init, ws);
      var r := TrimEnd(s, ws);
      assert init[..|r|] == s[..|r|];
      forall i | |r| <= i < |s| - 1
        ensures ws(s[i])
      {
        assert s[i] == init[i];
      }
    }
  }

  /** `str.strip()` / `string.Trim()` for the given whitespace set. */
  function Trim(s: string, ws: char -> bool): (r: string)
    ensures |r| <= |s|
  {
    TrimEnd(TrimStart(s, ws), ws)
  }

  /** A trimmed string neither starts nor ends with whitespace. */
  lemma {:induction false} TrimEnds(s: string, ws: char -> bool)
    ensures var r := Trim(s, ws);
      |r| > 0 ==> !ws(r[0]) && !ws(r[|r| - 1])
  {
    var a := TrimStart(s, ws);
    TrimStartSpec(s, ws);
    TrimEndSpec(a, ws);
  }

  /** Trimming leaves nothing exactly when the string is all whitespace. */
  lemma {:induction false} TrimBlank(s: string, ws: char -> bool)
    ensures Trim(s, ws) == "" <==> IsBlank(s, ws)
  {
    var a := TrimStart(s, ws);
    TrimStartSpec(s, ws);
    TrimEndSpec(a, ws);
    assert |a| > 0 ==> a[0] == s[|s| - |a|];
    assert Trim(s, ws) == "" ==> a == "";
  }

  /** A string whose ends are not whitespace is its own trim. */
  lemma {:induction false} TrimOfTrimmed(s: string, ws: char -> bool)
    requires |s| > 0 ==> !ws(s[0]) && !ws(s[|s| - 1])
    ensures Trim(s, ws) == s
  {
  }

  lemma {:induction false} TrimIdempotent(s: string, ws: char -> bool)
    ensures Trim(Trim(s, ws), ws) == Trim(s, ws)
  {
    TrimEnds(s, ws);
    TrimOfTrimmed(Trim(s, ws), ws);
  }

  /** The longest prefix of `s` whose characters all satisfy `p`. */
  function TakeWhile(s: string, p: char -> bool): (r: string)
    ensures r <= s
    decreases |s|
  {
    if |s| > 0 && p(s[0]) then [s[0]] + TakeWhile(s[1..], p) else ""
  }

  lemma {:induction false} TakeWhileSpec(s: string, p: char -> bool)
    ensures var r := TakeWhile(s, p);
      (forall i :: 0 <= i < |r| ==> p(r[i])) && (|r| < |s| ==> !p(s[|r|]))
    decreases |s|
  {
    if |s| > 0 && p(s[0]) {
      TakeWhileSpec(s[1..], p);
      var r := TakeWhile(s, p);
      forall i | 1 <= i < |r|
        ensures p(r[i])
      {
        assert r[i] == TakeWhile(s[1..], p)[i - 1];
      }
    }
  }

  /** The first field of `s` when fields are separated by runs of `sep`
      characters and leading separators are ignored; "" when there is none.
      This is `s.split()[0]` in CPython and `s.Split(' ', RemoveEmptyEntries)[0]` in .NET. */
  function FirstField(s: string, sep: char -> bool): (r: string)
  {
    TakeWhile(TrimStart(s, sep), c => !sep(c))
  }

  lemma {:induction false} FirstFieldOfUnpadded(s: string, sep: char -> bool)
    requires |s| > 0 && !sep(s[0])
    ensures FirstField(s, sep) != "" && FirstField(s, sep) <= s
    ensures forall i :: 0 <= i < |FirstField(s, sep)| ==> !sep(FirstField(s, sep)[i])
  {
    TakeWhileSpec(s, c => !sep(c));
  }

  /** `sep.join(parts)` in Python, `string.Join` in .NET. */
  function Join(parts: seq<string>, sep: string): string
    decreases |parts|
  {
    if |parts| == 0 then ""
    else if |parts| == 1 then parts[0]
    else parts[0] + sep + Join(parts[1..], sep)
  }

  lemma {:induction false} JoinAppend(parts: seq<string>, x: string, sep: string)
    requires |parts| > 0
    ensures Join(parts + [x], sep) == Join(parts, sep) + sep + x
    decreases |parts|
  {
    if |parts| == 1 {
      assert parts + [x] == [parts[0], x];
    } else {
      assert (parts + [x])[1..] == parts[1..] + [x];
      JoinAppend(parts[1..], x, sep);
    }
  }

  lemma {:induction false} JoinConcat(a: seq<string>, b: seq<string>, sep: string)
    requires |a| > 0 && |b| > 0
    ensures Join(a + b, sep) == Join(a, sep) + sep + Join(b, sep)
    decreases |a|
  {
    if |a| == 1 {
      assert (a + b)[1..] == b;
    } else {
      assert (a + b)[1..] == a[1..] + b;
      JoinConcat(a[1..], b, sep);
    }
  }

  /** Python `str.split(sep)` for a non-empty separator: the pieces between
      non-overlapping occurrences of `sep`, found left to right. */
  function Split(s: string, sep: string): (r: seq<string>)
    requires |sep| > 0
    ensures |r| > 0
  {
    SplitFrom(s, sep, "")
  }

  function SplitFrom(s: string, sep: string, cur: string): (r: seq<string>)
    requires |sep| > 0
    ensures |r| > 0
    decreases |s|
  {
    if |s| == 0 then [cur]
    else if sep <= s then [cur] + SplitFrom(s[|sep|..], sep, "")
    else SplitFrom(s[1..], sep, cur + [s[0]])
  }

  lemma {:induction false} SplitFromJoin(s: string, sep: string, cur: string)
    requires |sep| > 0
    ensures Join(SplitFrom(s, sep, cur), sep) == cur + s
    decreases |s|
  {
    if |s| == 0 {
    } else if sep <= s {
      var rest := SplitFrom(s[|sep|..], sep, "");
      SplitFromJoin(s[|sep|..], sep, "");
      assert s == sep + s[|sep|..];
      assert Join([cur] + rest, sep) == cur + sep + Join(rest, sep);
    } else {
      SplitFromJoin(s[1..], sep, cur + [s[0]]);
      assert s == [s[0]] + s[1..];
    }
  }

  /** Joining the pieces of a split with the same separator gives the string back. */
  lemma {:induction false} SplitJoinRoundTrip(s: string, sep: string)
    requires |sep| > 0
    ensures Join(Split(s, sep), sep) == s
  {
    SplitFromJoin(s, sep, "");
  }

  /** The parts before and after the last `c` in `s`, as `str.rpartition`
      gives them; None when `c` does not occur. This is how a reader splits
      a URL authority into host and port. */
  function SplitAtLast(s: string, c: char): (r: Option<(string, string)>)
    ensures r.None? <==> c !in s
    ensures r.Some? ==> s == r.value.0 + [c] + r.value.1 && c !in r.value.1
    decreases |s|
  {
    if |s| == 0 then None
    else if s[|s| - 1] == c then
      assert s == s[..|s| - 1] + [c] + [];
      Some((s[..|s| - 1], ""))
    else
      var front := s[..|s| - 1];
      assert s == front + [s[|s| - 1]];
      match SplitAtLast(front, c)
      case None => None
      case Some(hp) =>
        assert s == hp.0 + [c] + (hp.1 + [s[|s| - 1]]);
        Some((hp.0, hp.1 + [s[|s| - 1]]))
  }

  /** Joining a head and a tail free of `c` around one `c` splits back into
      the same head and tail, whatever the head contains. */
  lemma {:induction false} SplitAtLastJoin(h: string, c: char, t: string)
    requires c !in t
    ensures SplitAtLast(h + [c] + t, c) == Some((h, t))
    decreases |t|
  {
    var s := h + [c] + t;
    if |t| == 0 {
      assert s[..|s| - 1] == h;
    } else {
      var t' := t[..|t| - 1];
      assert s[..|s| - 1] == h + [c] + t';
      assert s[|s| - 1] == t[|t| - 1];
      assert c !in t' by { assert forall x :: x in t' ==> x in t; }
      SplitAtLastJoin(h, c, t');
      assert t' + [t[|t| - 1]] == t;
    }
  }

  /** Python `str.replace(pat, repl)` for a non-empty `pat`: occurrences are
      found left to right and do not overlap. */
  function Replace(s: string, pat: string, repl: string): string
    requires |pat| > 0
    decreases |s|
  {
    if |s| == 0 then ""
    else if pat <= s then repl + Replace(s[|pat|..], pat, repl)
    else [s[0]] + Replace(s[1..], pat, repl)
  }

  lemma {:induction false} ReplaceAbsent(s: string, pat: string, repl: string)
    requires |pat| == 1 && forall i :: 0 <= i < |s| ==> s[i] != pat[0]
    ensures Replace(s, pat, repl) == s
    decreases |s|
  {
    if |s| > 0 {
      assert s[0] != pat[0];
      ReplaceAbsent(s[1..], pat, repl);
    }
  }

  function LowerChar(c: char): char {
    if 'A' <= c <= 'Z' then (c as int + 32) as char else c
  }

  function UpperChar(c: char): char {
    if 'a' <= c <= 'z' then (c as int - 32) as char else c
  }

  /** `str.lower()` restricted to the ASCII letters. */
  function Lower(s: string): (r: string)
    ensures |r| == |s|
    ensures forall i :: 0 <= i < |s| ==> r[i] == LowerChar(s[i])
    decreases |s|
  {
    if |s| == 0 then "" else [LowerChar(s[0])] + Lower(s[1..])
  }

  /** `str.upper()` restricted to the ASCII letters. */
  function Upper(s: string): (r: string)
    ensures |r| == |s|
    ensures forall i :: 0 <= i < |s| ==> r[i] == UpperChar(s[i])
    decreases |s|
  {
    if |s| == 0 then "" else [UpperChar(s[0])] + Upper(s[1..])
  }

  function DigitChar(d: nat): char
    requires d < 10
  {
    ('0' as int + d) as char
  }

  /** Decimal rendering of a natural number, as Python `str(n)` and `{n:d}` produce it. */
  function NatToString(n: nat): (r: string)
    ensures |r| > 0
    ensures n < 10 <==> |r| == 1
    decreases n
  {
    if n < 10 then [DigitChar(n)] else NatToString(n / 10) + [DigitChar(n % 10)]
  }

  lemma {:induction false} NatToStringDigits(n: nat)
    ensures var r := NatToString(n);
      (forall i :: 0 <= i < |r| ==> IsDigit(r[i])) && (|r| > 1 ==> r[0] != '0')
    decreases n
  {
    if n >= 10 {
      NatToStringDigits(n / 10);
      var r := NatToString(n);
      assert forall i :: 0 <= i < |r| - 1 ==> r[i] == NatToString(n / 10)[i];
    }
  }

  /** Python `str(i)` for an int. */
  function IntToString(i: int): string {
    if i < 0 then "-" + NatToString(-i) else NatToString(i)
  }

  /** Python `f"{n:02d}"`: zero-padded to at least two digits. */
  function Pad2(n: nat): (r: string)
    ensures |r| >= 2
    ensures n < 100 ==> |r| == 2
    ensures forall i :: 0 <= i < |r| ==> IsDigit(r[i])
  {
    var d := NatToString(n);
    NatToStringDigits(n);
    if |d| < 2 then "0" + d else d
  }

  /** The value of a string of decimal digits. */
  function ParseDigits(s: string): nat
    requires forall i :: 0 <= i < |s| ==> IsDigit(s[i])
    decreases |s|
  {
    if |s| == 0 then 0
    else
      var last := s[|s| - 1];
      assert IsDigit(last);
      10 * ParseDigits(s[..|s| - 1]) + (last as int - '0' as int)
  }

  lemma {:induction false} ParseNatToString(n: nat)
    ensures var s := NatToString(n);
      (forall i :: 0 <= i < |s| ==> IsDigit(s[i])) && ParseDigits(s) == n
    decreases n
  {
    NatToStringDigits(n);
    if n >= 10 {
      var s := NatToString(n);
      ParseNatToString(n / 10);
      NatToStringDigits(n / 10);
      assert s[..|s| - 1] == NatToString(n / 10);
    }
  }

  /** Decimal digits read back from a zero-padded rendering give the number. */
  lemma {:induction false} ParsePad2(n: nat)
    ensures ParseDigits(Pad2(n)) == n
  {
    var d := NatToString(n);
    ParseNatToString(n);
    NatToStringDigits(n);
    if |d| < 2 {
      var p := "0" + d;
      assert p[..|p| - 1] == "0";
      assert ParseDigits("0") == 0 by {
        assert "0"[..0] == "";
      }
      assert p[..|p| - 1][..0] == "";
      assert d[..0] == "";
    }
  }
}

=== FILE: timed_objects.dfy ===
/** Timed words and word lists (`timed_objects.py`): the tokens the backend
    groups into speaker lines. Times are reals; only addition and comparison
    are used on them. */
module TimedObjects {
  import opened Base
  import opened Text

  /** A `TimedText`/`ASRToken` with both times set. */
  datatype TimedText = TimedText(start: real, end: real, text: string, speaker: int, probability: Option<real>)

  /** `TimedText.shift` and `ASRToken.with_offset`: the same word `offset`
      later. */
  function WithOffset(t: TimedText, offset: real): (r: TimedText)
    ensures r.start == t.start + offset && r.end == t.end + offset
    ensures r.end - r.start == t.end - t.start
    ensures r.text == t.text && r.speaker == t.speaker && r.probability == t.probability
  {
    TimedText(t.start + offset, t.end + offset, t.text, t.speaker, t.probability)
  }

  lemma {:induction false} WithOffsetCompose(t: TimedText, a: real, b: real)
    ensures WithOffset(WithOffset(t, a), b) == WithOffset(t, a + b)
    ensures WithOffset(WithOffset(t, a), -a) == t
  {
  }

  /** A `TimedList`: the words and the separator, None until one is chosen. */
  datatype TimedList = TimedList(words: seq<TimedText>, sep: Option<string>)

  function Texts(words: seq<TimedText>): (r: seq<string>)
    ensures |r| == |words| && forall i :: 0 <= i < |r| ==> r[i] == words[i].text
  {
    seq(|words|, i requires 0 <= i < |words| => words[i].text)
  }

  lemma {:induction false} TextsAppend(a: seq<TimedText>, b: seq<TimedText>)
    ensures Texts(a + b) == Texts(a) + Texts(b)
  {
  }

  // ---------------------------------------------------------------------------
  // Separator inference
  // ---------------------------------------------------------------------------

  predicate SpaceEdged(w: TimedText) {
    EndsWith(w.text, " ") || " " <= w.text
  }

  /** How many words start or end with a space. */
  function CountSpaceEdged(words: seq<TimedText>): (r: nat)
    ensures r <= |words|
    decreases |words|
  {
    if |words| == 0 then 0
    else (if SpaceEdged(words[|words| - 1]) then 1 else 0) + CountSpaceEdged(words[..|words| - 1])
  }

  lemma {:induction false} CountSpaceEdgedAll(words: seq<TimedText>, edged: bool)
    requires forall i :: 0 <= i < |words| ==> SpaceEdged(words[i]) == edged
    ensures CountSpaceEdged(words) == if edged then |words| else 0
    decreases |words|
  {
    if |words| > 0 {
      CountSpaceEdgedAll(words[..|words| - 1], edged);
    }
  }

  /** The separator a non-empty list infers: "" when more than 80% of its
      words carry their own space (the ratio test `n / len > 0.8`, exact). */
  function InferredSep(words: seq<TimedText>): (r: string)
    requires |words| > 0
    ensures r == "" <==> 5 * CountSpaceEdged(words) > 4 * |words|
    ensures r == "" || r == " "
  {
    if 5 * CountSpaceEdged(words) > 4 * |words| then "" else " "
  }

  /** Words that all carry spaces are joined directly; words that carry none
      are joined by a space. */
  lemma {:induction false} InferredSepExtremes(words: seq<TimedText>)
    requires |words| > 0
    ensures (forall i :: 0 <= i < |words| ==> SpaceEdged(words[i])) ==> InferredSep(words) == ""
    ensures (forall i :: 0 <= i < |words| ==> !SpaceEdged(words[i])) ==> InferredSep(words) == " "
  {
    if forall i :: 0 <= i < |words| ==> SpaceEdged(words[i]) {
      CountSpaceEdgedAll(words, true);
    }
    if forall i :: 0 <= i < |words| ==> !SpaceEdged(words[i]) {
      CountSpaceEdgedAll(words, false);
    }
  }

  /** `infer_sep`: an empty list is left as it is. */
  function InferSep(l: TimedList): (r: TimedList)
    ensures r.words == l.words
    ensures |l.words| == 0 ==> r == l
    ensures |l.words| > 0 ==> r.sep == Some(InferredSep(l.words))
  {
    if |l.words| == 0 then l else TimedList(l.words, Some(InferredSep(l.words)))
  }

  // ---------------------------------------------------------------------------
  // Text
  // ---------------------------------------------------------------------------

  /** `get_text(sep)`: the text and the list afterwards. An explicit `sep`
      is recorded when the list has none; with neither, one is inferred. */
  function GetText(l: TimedList, sep: Option<string>): (r: (string, TimedList))
    ensures r.1.words == l.words
    ensures |l.words| == 0 ==> r == ("", l)
    ensures |l.words| > 0 ==> r.1.sep.Some?
    ensures l.sep.Some? ==> r.1.sep == l.sep
    ensures |l.words| > 0 && sep.Some? ==> r.0 == Join(Texts(l.words), sep.value)
    ensures |l.words| > 0 && sep.None? ==> r.0 == Join(Texts(l.words), r.1.sep.value)
  {
    if |l.words| == 0 then ("", l)
    else
      match sep
      case None =>
        var l' := if l.sep.None? then InferSep(l) else l;
        (Join(Texts(l.words), l'.sep.value), l')
      case Some(s) =>
        var l' := if l.sep.None? then TimedList(l.words, Some(s)) else l;
        (Join(Texts(l.words), s), l')
  }

  /** Asking for the text a second time gives the same text and leaves the
      list as the first call left it. */
  lemma {:induction false} GetTextStable(l: TimedList, sep: Option<string>)
    ensures GetText(GetText(l, sep).1, sep) == GetText(l, sep)
    ensures GetText(GetText(l, sep).1, None).0 == GetText(l, None).0 || sep.Some?
  {
  }

  /** With no separator anywhere, the text is joined by the inferred one. */
  lemma {:induction false} GetTextInfers(words: seq<TimedText>)
    requires |words| > 0
    ensures GetText(TimedList(words, None), None) == (Join(Texts(words), InferredSep(words)), TimedList(words, Some(InferredSep(words))))
  {
  }

  // ---------------------------------------------------------------------------
  // Concatenation
  // ---------------------------------------------------------------------------

  /** No word carries a set, non-zero probability. */
  predicate NoProbability(words: seq<TimedText>) {
    forall i :: 0 <= i < |words| ==> words[i].probability.None? || words[i].probability.value == 0.0
  }

  /** Every probability that is set lies in [0, 1], as a recogniser's do. */
  predicate ProbabilitiesInRange(words: seq<TimedText>) {
    forall i :: 0 <= i < |words| ==> words[i].probability.Some? ==> 0.0 <= words[i].probability.value <= 1.0
  }

  /** The sum of the probabilities that are set and non-zero. With every
      probability in [0, 1] it lies between 0 and the word count, and it is
      zero exactly when no word carries a non-zero probability. */
  function ProbabilitySum(words: seq<TimedText>): (r: real)
    ensures NoProbability(words) ==> r == 0.0
    ensures ProbabilitiesInRange(words) ==> 0.0 <= r <= |words| as real && (r == 0.0 <==> NoProbability(words))
    decreases |words|
  {
    if |words| == 0 then 0.0
    else
      var init := words[..|words| - 1];
      var last := words[|words| - 1];
      assert forall i :: 0 <= i < |init| ==> init[i] == words[i];
      assert NoProbability(words) <==> NoProbability(init) && (last.probability.None? || last.probability.value == 0.0);
      (if last.probability.Some? && last.probability.value != 0.0 then last.probability.value else 0.0)
        + ProbabilitySum(init)
  }

  /** The mean over all words of the set, non-zero probabilities; None when
      it is zero. With probabilities in [0, 1], the mean is None exactly
      when no word carries a non-zero probability, and otherwise lies in
      (0, 1]. */
  function MeanProbability(words: seq<TimedText>): (r: Option<real>)
    requires |words| > 0
    ensures NoProbability(words) ==> r.None?
    ensures ProbabilitiesInRange(words) ==> (r.None? <==> NoProbability(words))
    ensures ProbabilitiesInRange(words) && r.Some? ==> 0.0 < r.value <= 1.0
    ensures r.Some? ==> r.value * (|words| as real) == ProbabilitySum(words)
  {
    var p := ProbabilitySum(words) / (|words| as real);
    MeanBounds(ProbabilitySum(words), |words| as real);
    if p == 0.0 then None else Some(p)
  }

  lemma {:induction false} MeanBounds(sum: real, n: real)
    requires n >= 1.0
    ensures (sum / n) * n == sum
    ensures sum / n == 0.0 <==> sum == 0.0
    ensures 0.0 <= sum <= n ==> 0.0 <= sum / n <= 1.0
  {
    var q := sum / n;
    assert q * n == sum;
  }

  predicate SameSpeaker(words: seq<TimedText>)
    requires |words| > 0
  {
    forall i :: 0 <= i < |words| ==> words[i].speaker == words[0].speaker
  }

  /** `concatenate(sep, offset)`: None stands for `TimedText(None, None)`,
      the result for an empty list. The list afterwards is the one its
      `get_text` left. */
  function Concatenate(l: TimedList, sep: Option<string>, offset: real): (r: (Option<TimedText>, TimedList))
    ensures r.0.None? <==> |l.words| == 0
    ensures r.1 == GetText(l, sep).1
    ensures r.0.Some? ==> (r.0.value.start == offset + l.words[0].start
      && r.0.value.end == offset + l.words[|l.words| - 1].end
      && r.0.value.text == GetText(l, sep).0)
    ensures r.0.Some? && SameSpeaker(l.words) ==> r.0.value.speaker == l.words[0].speaker
    ensures r.0.Some? && !SameSpeaker(l.words) ==> r.0.value.speaker == -1
    ensures r.0.Some? ==> r.0.value.probability == MeanProbability(l.words)
  {
    if |l.words| == 0 then (None, l)
    else
      var (text, l') := GetText(l, sep);
      var probability := MeanProbability(l.words);
      var speaker := if SameSpeaker(l.words) then l.words[0].speaker else -1;
      var start := offset + l.words[0].start;
      var end := offset + l.words[|l.words| - 1].end;
      (Some(TimedText(start, end, text, speaker, probability)), l')
  }

  // ---------------------------------------------------------------------------
  // Shift, extend, slice, split
  // ---------------------------------------------------------------------------

  /** `shift(d)` on every word. */
  function Shift(l: TimedList, d: real): (r: TimedList)
    ensures |r.words| == |l.words| && r.sep == l.sep
    ensures forall i :: 0 <= i < |r.words| ==> r.words[i] == WithOffset(l.words[i], d)
  {
    TimedList(seq(|l.words|, i requires 0 <= i < |l.words| => WithOffset(l.words[i], d)), l.sep)
  }

  lemma {:induction false} ShiftCompose(l: TimedList, a: real, b: real)
    ensures Shift(Shift(l, a), b) == Shift(l, a + b)
    ensures Shift(Shift(l, a), -a) == l
  {
    assert Shift(Shift(l, a), b).words == Shift(l, a + b).words;
    assert Shift(Shift(l, a), -a).words == l.words;
  }

  /** Concatenating a shifted list is concatenating with a larger offset. */
  lemma {:induction false} ConcatenateShift(l: TimedList, sep: Option<string>, offset: real, d: real)
    ensures Concatenate(Shift(l, d), sep, offset).0 == Concatenate(l, sep, offset + d).0
  {
    var s := Shift(l, d);
    if |l.words| > 0 {
      GetTextShift(l, sep, d);
      ProbabilitySumSame(s.words, l.words);
      assert MeanProbability(s.words) == MeanProbability(l.words);
      assert SameSpeaker(s.words) == SameSpeaker(l.words);
      var a := Concatenate(s, sep, offset).0.value;
      var b := Concatenate(l, sep, offset + d).0.value;
      assert a.start == b.start && a.end == b.end && a.text == b.text;
      assert a.speaker == b.speaker && a.probability == b.probability;
    }
  }

  /** Shifting leaves the text alone. */
  lemma {:induction false} GetTextShift(l: TimedList, sep: Option<string>, d: real)
    ensures GetText(Shift(l, d), sep).0 == GetText(l, sep).0
  {
    var s := Shift(l, d);
    assert Texts(s.words) == Texts(l.words);
    if |l.words| > 0 {
      CountSpaceEdgedTexts(s.words, l.words);
    }
  }

  /** Whether words carry spaces depends on their texts alone. */
  lemma {:induction false} CountSpaceEdgedTexts(a: seq<TimedText>, b: seq<TimedText>)
    requires Texts(a) == Texts(b)
    ensures CountSpaceEdged(a) == CountSpaceEdged(b)
    decreases |a|
  {
    if |a| > 0 {
      assert a[|a| - 1].text == Texts(a)[|a| - 1];
      assert Texts(a[..|a| - 1]) == Texts(b[..|b| - 1]) by {
        assert forall i :: 0 <= i < |a| - 1 ==> a[..|a| - 1][i].text == Texts(a)[i] == Texts(b)[i] == b[..|b| - 1][i].text;
      }
      CountSpaceEdgedTexts(a[..|a| - 1], b[..|b| - 1]);
    }
  }

  /** The probability sum depends on the probabilities alone. */
  lemma {:induction false} ProbabilitySumSame(a: seq<TimedText>, b: seq<TimedText>)
    requires |a| == |b| && forall i :: 0 <= i < |a| ==> a[i].probability == b[i].probability
    ensures ProbabilitySum(a) == ProbabilitySum(b)
    decreases |a|
  {
    if |a| > 0 {
      ProbabilitySumSame(a[..|a| - 1], b[..|b| - 1]);
    }
  }

  /** `extend(other)`. */
  function Extend(l: TimedList, other: TimedList): (r: TimedList)
    ensures r.words == l.words + other.words
    ensures |other.words| == 0 ==> r == l
    ensures |other.words| > 0 && |l.words| == 0 ==> r.sep == other.sep
    ensures |other.words| > 0 && |l.words| > 0 ==> r.sep == (if l.sep == other.sep then l.sep else Some(" "))
  {
    if |other.words| == 0 then l
    else if |l.words| == 0 then TimedList(l.words + other.words, other.sep)
    else TimedList(l.words + other.words, if l.sep != other.sep then Some(" ") else l.sep)
  }

  /** Extending two lists that share a separator joins their texts with it. */
  lemma {:induction false} ExtendText(a: TimedList, b: TimedList, s: string)
    requires |a.words| > 0 && |b.words| > 0 && a.sep == Some(s) && b.sep == Some(s)
    ensures GetText(Extend(a, b), None).0 == GetText(a, None).0 + s + GetText(b, None).0
  {
    TextsAppend(a.words, b.words);
    JoinConcat(Texts(a.words), Texts(b.words), s);
  }

  /** `self[lo:hi]` for non-negative bounds, clamped like Python's slices. */
  function Slice(l: TimedList, lo: nat, hi: nat): (r: TimedList)
    ensures r.sep == l.sep
    ensures lo <= hi <= |l.words| ==> r.words == l.words[lo..hi]
    ensures |r.words| <= |l.words|
  {
    var n := |l.words|;
    var a := if lo <= n then lo else n;
    var b := if hi <= a then a else if hi <= n then hi else n;
    TimedList(l.words[a..b], l.sep)
  }

  /** Where a split puts a word on the right: its start (edge word left) or
      its end (edge word right) has reached `time`. */
  predicate GoesRight(w: TimedText, time: real, edgeWordGoesLeft: bool) {
    if edgeWordGoesLeft then w.start >= time else w.end >= time
  }

  function FirstRight(words: seq<TimedText>, time: real, edgeWordGoesLeft: bool): (r: nat)
    ensures r <= |words|
    ensures forall i :: 0 <= i < r ==> !GoesRight(words[i], time, edgeWordGoesLeft)
    ensures r < |words| ==> GoesRight(words[r], time, edgeWordGoesLeft)
    decreases |words|
  {
    if |words| == 0 then 0
    else if GoesRight(words[0], time, edgeWordGoesLeft) then 0
    else 1 + FirstRight(words[1..], time, edgeWordGoesLeft)
  }

  /** `split_at(time, edge_word_goes_left)`. */
  function SplitAt(l: TimedList, time: real, edgeWordGoesLeft: bool): (r: (TimedList, TimedList))
    ensures r.0.words + r.1.words == l.words
    ensures forall i :: 0 <= i < |r.0.words| ==> !GoesRight(r.0.words[i], time, edgeWordGoesLeft)
    ensures |r.1.words| > 0 ==> GoesRight(r.1.words[0], time, edgeWordGoesLeft)
    ensures |r.1.words| == 0 ==> r == (l, TimedList([], None))
    ensures |r.1.words| > 0 ==> r.0.sep == l.sep && r.1.sep == l.sep
  {
    var i := FirstRight(l.words, time, edgeWordGoesLeft);
    if i == |l.words| then (l, TimedList([], None))
    else
      assert l.words[..i] + l.words[i..] == l.words;
      (Slice(l, 0, i), Slice(l, i, |l.words|))
  }

  /** The split point does not depend on how the list is split: splitting the
      left part again at the same time leaves it whole. */
  lemma {:induction false} SplitAtLeftStable(l: TimedList, time: real, edgeWordGoesLeft: bool)
    ensures var left := SplitAt(l, time, edgeWordGoesLeft).0;
      SplitAt(left, time, edgeWordGoesLeft).0.words == left.words
  {
    var left := SplitAt(l, time, edgeWordGoesLeft).0;
    var i := FirstRight(left.words, time, edgeWordGoesLeft);
    assert i == |left.words|;
  }
}

=== FILE: timestamped_words.dfy ===
/** Time-stamped segments and sequences (`src/whisper/timestaped_words.py`):
    a segment is a string that also carries a start and an end time. */
module TimestampedWords {
  import opened Base
  import opened Text

  datatype Segment = Segment(start: real, end: real, text: string)

  /** Python exceptions the operations can raise. */
  datatype PyError = TypeError | AttributeError | ZeroDivisionError

  /** `TimeStampedSegment.shift`: both times move by `d`. */
  function ShiftSegment(s: Segment, d: real): (r: Segment)
    ensures r.text == s.text && r.end - r.start == s.end - s.start
    ensures r.start == s.start + d
  {
    Segment(s.start + d, s.end + d, s.text)
  }

  lemma {:induction false} ShiftSegmentInverse(s: Segment, a: real, b: real)
    ensures ShiftSegment(ShiftSegment(s, a), b) == ShiftSegment(s, a + b)
    ensures ShiftSegment(ShiftSegment(s, a), -a) == s
  {
  }

  /** The right operand of `+`. */
  datatype Operand = Number(x: real) | Str(s: string) | OtherValue

  /** `segment + other`: a number shifts, a string extends the text, anything
      else raises TypeError. */
  function Add(s: Segment, other: Operand): (r: Result<Segment, PyError>)
    ensures r.Err? <==> other.OtherValue?
    ensures other.Number? ==> r == Ok(ShiftSegment(s, other.x))
    ensures other.Str? ==> (r.Ok? && r.value.start == s.start && r.value.end == s.end
      && |r.value.text| == |s.text| + |other.s|
      && r.value.text[..|s.text|] == s.text && r.value.text[|s.text|..] == other.s)
  {
    match other
    case Number(x) => Ok(Segment(s.start + x, s.end + x, s.text))
    case Str(t) => Ok(Segment(s.start, s.end, s.text + t))
    case OtherValue => Err(TypeError)
  }

  /** Adding two strings in turn is adding their concatenation. */
  lemma {:induction false} AddStrAssociates(s: Segment, a: string, b: string)
    ensures Add(Add(s, Str(a)).value, Str(b)) == Add(s, Str(a + b))
  {
    assert s.text + a + b == s.text + (a + b);
  }

  /** The right operand of `==`. */
  datatype Comparand = Seg(seg: Segment) | PlainStr(s: string) | OtherObject

  /** `segment == other`. */
  predicate SegmentEq(s: Segment, other: Comparand) {
    match other
    case Seg(o) => s.start == o.start && s.end == o.end && s.text == o.text
    case PlainStr(t) => s.text == t
    case OtherObject => false
  }

  /** Equality with a segment is equality of the three fields; equality with
      a string compares the text alone, so it ignores the times. */
  lemma {:induction false} SegmentEqMeaning(s: Segment, o: Segment)
    ensures SegmentEq(s, Seg(o)) <==> s == o
    ensures SegmentEq(s, PlainStr(o.text)) <==> s.text == o.text
    ensures SegmentEq(s, PlainStr(s.text)) && SegmentEq(ShiftSegment(s, 1.0), PlainStr(s.text))
  {
  }

  // ---------------------------------------------------------------------------
  // Sequences
  // ---------------------------------------------------------------------------

  /** A `TimeStampedSequence`; `sep` is None while the attribute is unset. */
  datatype Sequence = Sequence(segments: seq<Segment>, sep: Option<string>)

  function Texts(segments: seq<Segment>): (r: seq<string>)
    ensures |r| == |segments| && forall i :: 0 <= i < |r| ==> r[i] == segments[i].text
  {
    seq(|segments|, i requires 0 <= i < |segments| => segments[i].text)
  }

  function CountTrailingSpace(segments: seq<Segment>): (r: nat)
    ensures r <= |segments|
    decreases |segments|
  {
    if |segments| == 0 then 0
    else (if EndsWith(segments[|segments| - 1].text, " ") then 1 else 0) + CountTrailingSpace(segments[..|segments| - 1])
  }

  /** `infer_sep`: "" when more than half the segments end with a space; an
      empty sequence divides by zero. */
  function InferSep(segments: seq<Segment>): (r: Result<string, PyError>)
    ensures r.Err? <==> |segments| == 0
    ensures r.Ok? ==> (r.value == "" <==> 2 * CountTrailingSpace(segments) > |segments|)
    ensures r.Ok? ==> r.value == "" || r.value == " "
  {
    if |segments| == 0 then Err(ZeroDivisionError)
    else if 2 * CountTrailingSpace(segments) > |segments| then Ok("")
    else Ok(" ")
  }

  /** Exactly half is not a majority. */
  lemma {:induction false} InferSepHalf()
    ensures InferSep([Segment(0.0, 1.0, "a "), Segment(1.0, 2.0, "b")]) == Ok(" ")
    ensures InferSep([Segment(0.0, 1.0, "a "), Segment(1.0, 2.0, "b "), Segment(2.0, 3.0, "c")]) == Ok("")
  {
    var two := [Segment(0.0, 1.0, "a "), Segment(1.0, 2.0, "b")];
    assert two[..1] == [two[0]];
    var three := [Segment(0.0, 1.0, "a "), Segment(1.0, 2.0, "b "), Segment(2.0, 3.0, "c")];
    assert three[..2] == [three[0], three[1]];
    assert three[..2][..1] == [three[0]];
  }

  /** The constructor as written: an explicit `sep` is accepted but never
      stored; without one the separator is inferred. */
  function New(segments: seq<Segment>, sep: Option<string>): (r: Result<Sequence, PyError>)
    ensures sep.Some? ==> r == Ok(Sequence(segments, None))
    ensures sep.None? ==> (r.Ok? <==> |segments| > 0)
    ensures sep.None? && r.Ok? ==> r.value.sep == Some(InferSep(segments).value)
  {
    if sep.Some? then Ok(Sequence(segments, None))
    else
      match InferSep(segments)
      case Err(e) => Err(e)
      case Ok(s) => Ok(Sequence(segments, Some(s)))
  }

  /** The constructor as evidently intended: an explicit `sep` is the
      separator. */
  function NewFixed(segments: seq<Segment>, sep: Option<string>): (r: Result<Sequence, PyError>)
    ensures sep.Some? ==> r == Ok(Sequence(segments, sep))
    ensures sep.None? ==> r == New(segments, sep)
  {
    if sep.Some? then Ok(Sequence(segments, sep)) else New(segments, sep)
  }

  /** `get_text(sep)`: joins with `sep`, or with the stored separator when
      none is given; reading an unset attribute raises. */
  function GetText(s: Sequence, sep: Option<string>): (r: Result<string, PyError>)
    ensures sep.Some? ==> r == Ok(Join(Texts(s.segments), sep.value))
    ensures sep.None? ==> (r.Err? <==> s.sep.None?)
    ensures sep.None? && s.sep.Some? ==> r == Ok(Join(Texts(s.segments), s.sep.value))
  {
    match if sep.Some? then sep else s.sep
    case None => Err(AttributeError)
    case Some(j) => Ok(Join(Texts(s.segments), j))
  }

  /** As written, a sequence built with an explicit separator cannot give
      its text without one: `TimeStampedSequence([seg], sep="-").get_text()`
      raises AttributeError. */
  lemma {:induction false} NewDropsSep(segments: seq<Segment>, sep: string)
    ensures New(segments, Some(sep)).Ok?
    ensures GetText(New(segments, Some(sep)).value, None) == Err(AttributeError)
  {
  }

  /** Corrected, the text is the segments joined by the given separator, and
      every sequence the constructor builds has a separator. */
  lemma {:induction false} NewFixedKeepsSep(segments: seq<Segment>, sep: Option<string>)
    requires NewFixed(segments, sep).Ok?
    ensures NewFixed(segments, sep).value.sep.Some?
    ensures GetText(NewFixed(segments, sep).value, None).Ok?
    ensures sep.Some? ==> GetText(NewFixed(segments, sep).value, None) == Ok(Join(Texts(segments), sep.value))
  {
  }

  /** `concatenate`: the first start, the last end and the joined text. An
      empty sequence raises TypeError (the segment constructor needs
      arguments); an unset separator raises AttributeError. */
  function Concatenate(s: Sequence): (r: Result<Segment, PyError>)
    ensures |s.segments| == 0 ==> r == Err(TypeError)
    ensures |s.segments| > 0 && s.sep.None? ==> r == Err(AttributeError)
    ensures r.Ok? ==> (r.value.start == s.segments[0].start
      && r.value.end == s.segments[|s.segments| - 1].end
      && Ok(r.value.text) == GetText(s, None))
  {
    if |s.segments| == 0 then Err(TypeError)
    else if s.sep.None? then Err(AttributeError)
    else Ok(Segment(s.segments[0].start, s.segments[|s.segments| - 1].end, Join(Texts(s.segments), s.sep.value)))
  }

  /** `shift(d)` on every segment. */
  function Shift(s: Sequence, d: real): (r: Sequence)
    ensures |r.segments| == |s.segments| && r.sep == s.sep
    ensures forall i :: 0 <= i < |r.segments| ==> r.segments[i] == ShiftSegment(s.segments[i], d)
  {
    Sequence(seq(|s.segments|, i requires 0 <= i < |s.segments| => ShiftSegment(s.segments[i], d)), s.sep)
  }

  /** Shifting a sequence shifts its concatenation and keeps its text. */
  lemma {:induction false} ConcatenateShift(s: Sequence, d: real)
    requires Concatenate(s).Ok?
    ensures Concatenate(Shift(s, d)) == Ok(ShiftSegment(Concatenate(s).value, d))
  {
    assert Texts(Shift(s, d).segments) == Texts(s.segments);
  }

  lemma {:induction false} ShiftSequenceInverse(s: Sequence, d: real)
    ensures Shift(Shift(s, d), -d) == s
  {
    assert Shift(Shift(s, d), -d).segments == s.segments;
  }

  /** The sequence of the `from_tuples` doctest: "Hello" and "World" with
      inferred separator " " join to "Hello World", and concatenate to
      (0, 2, "Hello World"). */
  lemma {:induction false} HelloWorld()
    ensures var segs := [Segment(0.0, 1.0, "Hello"), Segment(1.0, 2.0, "World")];
      New(segs, None) == Ok(Sequence(segs, Some(" ")))
      && Concatenate(Sequence(segs, Some(" "))) == Ok(Segment(0.0, 2.0, "Hello World"))
      && GetText(Sequence(segs, Some(" ")), Some("-")) == Ok("Hello-World")
  {
    var segs := [Segment(0.0, 1.0, "Hello"), Segment(1.0, 2.0, "World")];
    assert segs[..1] == [segs[0]];
    assert Texts(segs) == ["Hello", "World"];
    assert ["Hello", "World"][1..] == ["World"];
    assert Join(["Hello", "World"], " ") == "Hello" + " " + "World" == "Hello World";
    assert Join(["Hello", "World"], "-") == "Hello" + "-" + "World" == "Hello-World";
    assert Concatenate(Sequence(segs, Some(" "))) == Ok(Segment(0.0, 2.0, Join(Texts(segs), " ")));
  }
}

=== FILE: tk_client.dfy ===
/** The Tk desktop client: model-list parsing, endpoint text, the
    allow-external host save/restore, the recording timer, the receiver's
    choice of text, the backend command line and the diarization gate. */
module TkClient {
  import opened Base
  import opened Text
  import opened Json

  // ---------------------------------------------------------------------------
  // Model list
  // ---------------------------------------------------------------------------

  const FallbackModels: seq<string> := [
    "tiny.en", "tiny", "base.en", "base", "small.en", "small",
    "medium.en", "medium", "large-v1", "large-v2", "large-v3", "large-v3-turbo"
  ]

  /** The name on a list line `- name ...` (after stripping): the first
      whitespace-separated word after the marker. */
  function ItemName(raw: string): (r: string)
    requires "- " <= Trim(raw, IsPySpace)
    ensures r != "" && forall k :: 0 <= k < |r| ==> !IsPySpace(r[k])
  {
    var line := Trim(raw, IsPySpace);
    var rest := line[2..];
    TrimEnds(raw, IsPySpace);
    TrimStartSpec(rest, IsPySpace);
    var t := TrimStart(rest, IsPySpace);
    assert |t| > 0 by {
      assert !IsPySpace(line[|line| - 1]);
      assert rest[|rest| - 1] == line[|line| - 1];
    }
    FirstFieldOfUnpadded(t, IsPySpace);
    assert TrimStart(t, IsPySpace) == t;
    FirstField(rest, IsPySpace)
  }

  /** The names on `- ` lines; once one was found, the first blank line ends the list. */
  function CollectItems(lines: seq<string>, collecting: bool): (r: seq<string>)
    ensures forall i :: 0 <= i < |r| ==> r[i] != ""
    decreases |lines|
  {
    if |lines| == 0 then []
    else
      var line := Trim(lines[0], IsPySpace);
      if "- " <= line then [ItemName(lines[0])] + CollectItems(lines[1..], true)
      else if collecting && line == "" then []
      else CollectItems(lines[1..], collecting)
  }

  /** `_load_whisper_models`: `file` is None when opening or reading it raised. */
  function LoadWhisperModels(file: Option<seq<string>>): (r: seq<string>)
    ensures file.None? ==> r == FallbackModels
    ensures file.Some? ==> forall i :: 0 <= i < |r| ==> r[i] != ""
  {
    if file.Some? then CollectItems(file.value, false) else FallbackModels
  }

  /** A readable file without list items gives the empty list, not the fallback. */
  lemma {:induction false} LoadWhisperModelsNoItems(lines: seq<string>)
    requires forall i :: 0 <= i < |lines| ==> !("- " <= Trim(lines[i], IsPySpace))
    ensures LoadWhisperModels(Some(lines)) == []
  {
    CollectItemsSkipsText(lines, []);
    assert lines + [] == lines;
  }

  /** Blank lines and other text before the first item are skipped; a blank
      line right after an item ends the list. */
  lemma {:induction false} CollectItemsBlankAfterItem(item: string, post: seq<string>)
    requires "- " <= Trim(item, IsPySpace)
    requires |post| > 0 && Trim(post[0], IsPySpace) == ""
    ensures CollectItems([item] + post, false) == [ItemName(item)]
  {
    assert ([item] + post)[1..] == post;
    assert !("- " <= Trim(post[0], IsPySpace));
    assert CollectItems(post, true) == [];
  }

  lemma {:induction false} CollectItemsSkipsText(pre: seq<string>, rest: seq<string>)
    requires forall i :: 0 <= i < |pre| ==> !("- " <= Trim(pre[i], IsPySpace))
    ensures CollectItems(pre + rest, false) == CollectItems(rest, false)
    decreases |pre|
  {
    if |pre| > 0 {
      var lines := pre + rest;
      assert lines[0] == pre[0];
      assert lines[1..] == pre[1..] + rest;
      CollectItemsSkipsText(pre[1..], rest);
    } else {
      assert pre + rest == rest;
    }
  }

  // ---------------------------------------------------------------------------
  // Endpoints and hosts
  // ---------------------------------------------------------------------------

  datatype Endpoints = Endpoints(web: string, ws: string, wsUrl: string, api: string)

  /** `update_endpoints`. In external mode the first LAN address (if any) is
      shown for both servers; `localIps` is what the address lookup found. */
  function UpdateEndpoints(bHost: string, bPort: string, aHost: string, aPort: string,
                           allowExternal: bool, localIps: seq<string>): (r: Endpoints)
    ensures r.wsUrl == r.ws
    ensures "http://" <= r.web && EndsWith(r.web, "/") && |r.web| >= 8
    ensures r.ws == "ws://" + r.web[7..|r.web| - 1] + "/asr"
    ensures "http://" <= r.api && EndsWith(r.api, "/v1/audio/transcriptions")
    ensures !allowExternal || localIps == [] ==>
      r.web == "http://" + bHost + ":" + bPort + "/" && r.api == "http://" + aHost + ":" + aPort + "/v1/audio/transcriptions"
  {
    var external := allowExternal && |localIps| > 0;
    var dispB := if external then localIps[0] else bHost;
    var dispA := if external then localIps[0] else aHost;
    var web := "http://" + dispB + ":" + bPort + "/";
    assert web[7..|web| - 1] == dispB + ":" + bPort;
    var ws := "ws://" + dispB + ":" + bPort + "/asr";
    Endpoints(web, ws, ws, "http://" + dispA + ":" + aPort + "/v1/audio/transcriptions")
  }
  /** The shown web URL gives back the displayed host and the backend port:
      its authority splits at the last colon into the two, whenever the
      port has no colon of its own. The displayed host is the first local
      address when external access is on, the bound host otherwise. */
  lemma {:induction false} UpdateEndpointsReadBack(bHost: string, bPort: string, aHost: string, aPort: string,
                                                   allowExternal: bool, localIps: seq<string>)
    requires ':' !in bPort && ':' !in aPort
    ensures var r := UpdateEndpoints(bHost, bPort, aHost, aPort, allowExternal, localIps);
      var external := allowExternal && |localIps| > 0;
      |r.api| >= 7 + |"/v1/audio/transcriptions"|
      && SplitAtLast(r.web[7..|r.web| - 1], ':') == Some((if external then localIps[0] else bHost, bPort))
      && SplitAtLast(r.api[7..|r.api| - |"/v1/audio/transcriptions"|], ':') == Some((if external then localIps[0] else aHost, aPort))
  {
    var r := UpdateEndpoints(bHost, bPort, aHost, aPort, allowExternal, localIps);
    var external := allowExternal && |localIps| > 0;
    var hb := if external then localIps[0] else bHost;
    var ha := if external then localIps[0] else aHost;
    assert r.web[7..|r.web| - 1] == hb + [':'] + bPort;
    assert r.api[7..|r.api| - |"/v1/audio/transcriptions"|] == ha + [':'] + aPort;
    SplitAtLastJoin(hb, ':', bPort);
    SplitAtLastJoin(ha, ':', aPort);
  }


  /** The host fields and the local-only hosts saved when external access was enabled. */
  datatype Hosts = Hosts(backendHost: string, apiHost: string, lastBackendHost: string, lastApiHost: string)

  const InitialLast: string := "127.0.0.1"

  function OrLocal(h: string): string {
    if h == "" then "127.0.0.1" else h
  }

  /** `_toggle_allow_external`, called with the checkbox's new value. */
  function ToggleAllowExternal(h: Hosts, enabled: bool): (r: Hosts)
    ensures enabled ==> r == Hosts("0.0.0.0", "0.0.0.0", h.backendHost, h.apiHost)
    ensures !enabled ==> r.backendHost != "" && r.apiHost != ""
    ensures !enabled ==> r.lastBackendHost == h.lastBackendHost && r.lastApiHost == h.lastApiHost
    ensures !enabled && h.lastBackendHost != "" ==> r.backendHost == h.lastBackendHost
  {
    if enabled then Hosts("0.0.0.0", "0.0.0.0", h.backendHost, h.apiHost)
    else h.(backendHost := OrLocal(h.lastBackendHost), apiHost := OrLocal(h.lastApiHost))
  }

  /** Enabling and then disabling restores non-empty hosts exactly and turns
      an empty one into 127.0.0.1. */
  lemma {:induction false} ToggleAllowExternalRoundTrip(h: Hosts)
    ensures var r := ToggleAllowExternal(ToggleAllowExternal(h, true), false);
      r.backendHost == OrLocal(h.backendHost) && r.apiHost == OrLocal(h.apiHost)
  {
    var on := ToggleAllowExternal(h, true);
    assert on.lastBackendHost == h.backendHost;
  }

  predicate LooksLocal(host: string) {
    host == "127.0.0.1" || host == "localhost"
  }

  /** `_apply_allow_external_initial`: at startup in external mode, only a
      host that looks like localhost becomes 0.0.0.0. */
  function ApplyAllowExternalInitial(allowExternal: bool, backendHost: string, apiHost: string): (r: (string, string))
    ensures r.0 == (if allowExternal && LooksLocal(backendHost) then "0.0.0.0" else backendHost)
    ensures r.1 == (if allowExternal && LooksLocal(apiHost) then "0.0.0.0" else apiHost)
  {
    (if allowExternal && LooksLocal(backendHost) then "0.0.0.0" else backendHost,
     if allowExternal && LooksLocal(apiHost) then "0.0.0.0" else apiHost)
  }

  // ---------------------------------------------------------------------------
  // Recording: timer, button and received text
  // ---------------------------------------------------------------------------

  /** `_update_timer`: whole minutes and seconds, each zero-padded to two digits. */
  function TimerText(elapsed: nat): (r: string)
    ensures |r| >= 5 && r[|r| - 3] == ':'
    ensures elapsed < 6000 <==> |r| == 5
  {
    Pad2(elapsed / 60) + ":" + Pad2(elapsed % 60)
  }

  /** Reading the timer back: the digits before the colon are minutes, the two
      after it seconds. */
  lemma {:induction false} TimerTextRoundTrip(elapsed: nat)
    ensures var r := TimerText(elapsed);
      && (forall i :: 0 <= i < |r| - 3 ==> IsDigit(r[i]))
      && r[|r| - 3] == ':'
      && (forall i :: |r| - 2 <= i < |r| ==> IsDigit(r[i]))
      && ParseDigits(r[..|r| - 3]) * 60 + ParseDigits(r[|r| - 2..]) == elapsed
  {
    var m := Pad2(elapsed / 60);
    var s := Pad2(elapsed % 60);
    var r := TimerText(elapsed);
    assert r[..|r| - 3] == m;
    assert r[|r| - 2..] == s;
    ParsePad2(elapsed / 60);
    ParsePad2(elapsed % 60);
  }

  datatype TkRecorder = TkRecorder(isRecording: bool, buttonText: string, status: string,
                                   timer: string, transcript: string)

  /** `toggle_recording`. `startsWorker` tells whether a recording worker starts. */
  function ToggleRecording(s: TkRecorder): (r: (TkRecorder, bool))
    ensures r.1 <==> !s.isRecording
    ensures r.0.isRecording <==> !s.isRecording
    ensures r.1 ==> r.0.timer == TimerText(0) && r.0.transcript == ""
    ensures !r.1 ==> r.0.timer == s.timer && r.0.transcript == s.transcript
  {
    if s.isRecording then
      (s.(isRecording := false, buttonText := "Start Recording", status := "stopping"), false)
    else
      (s.(isRecording := true, buttonText := "Stop Recording", status := "connecting",
          timer := "00:00", transcript := ""), true)
  }

  /** The receiver's choice: `buffer_transcription` if truthy, else `text` if
      truthy. `data` is None when `json.loads` raised. Appending a truthy value
      that is not a string raises in the UI callback, so nothing is added. */
  function ReceivedText(data: Option<Json>): (r: Option<string>)
    ensures r.Some? ==> r.value != "" && data.Some? && data.value.JObj?
    ensures r.Some? ==> (Get(data.value, "buffer_transcription") == Some(JStr(r.value))
      || (GetTruthy(data.value, "buffer_transcription").None? && Get(data.value, "text") == Some(JStr(r.value))))
  {
    if data.None? || !data.value.JObj? then None
    else
      var chosen: Option<Json> := match GetTruthy(data.value, "buffer_transcription")
        case Some(v) => Some(v)
        case None => GetTruthy(data.value, "text");
      match chosen
      case Some(JStr(t)) => Some(t)
      case _ => None
  }

  /** The receiver loop over every message until `recv` raises; it does not
      stop at `ready_to_stop`. Each chosen text is appended with a newline. */
  function Receive(msgs: seq<Option<Json>>, transcript: string): (r: string)
    ensures transcript <= r
    decreases |msgs|
  {
    if |msgs| == 0 then transcript
    else
      var t := ReceivedText(msgs[0]);
      Receive(msgs[1..], if t.Some? then transcript + t.value + "\n" else transcript)
  }

  /** Messages are independent: receiving two runs is receiving one after the other. */
  lemma {:induction false} ReceiveConcat(a: seq<Option<Json>>, b: seq<Option<Json>>, transcript: string)
    ensures Receive(a + b, transcript) == Receive(b, Receive(a, transcript))
    decreases |a|
  {
    if |a| == 0 {
      assert a + b == b;
    } else {
      assert (a + b)[0] == a[0];
      assert (a + b)[1..] == a[1..] + b;
      var t := ReceivedText(a[0]);
      ReceiveConcat(a[1..], b, if t.Some? then transcript + t.value + "\n" else transcript);
    }
  }

  /** Unlike the desktop client, `ready_to_stop` is just another message:
      it adds nothing and the loop goes on. */
  lemma {:induction false} ReceiveReadyToStopContinues(rest: seq<Option<Json>>, transcript: string)
    ensures Receive([Some(JObj([("type", JStr("ready_to_stop"))]))] + rest, transcript) == Receive(rest, transcript)
  {
    var m := Some(JObj([("type", JStr("ready_to_stop"))]));
    assert ([m] + rest)[1..] == rest;
    assert Lookup([("type", JStr("ready_to_stop"))], "buffer_transcription").None?;
    assert Lookup([("type", JStr("ready_to_stop"))], "text").None?;
  }

  /** What the recording worker sends: each captured block as a binary frame,
      then the JSON text `{"eof": 1}`. */
  datatype Frame = Binary(bytes: seq<byte>) | Text(text: string)

  const EofMessage: string := "{\"eof\": 1}"

  function SentFrames(blocks: seq<seq<byte>>): (r: seq<Frame>)
    ensures |r| == |blocks| + 1 && r[|blocks|] == Text(EofMessage)
    ensures forall i :: 0 <= i < |blocks| ==> r[i] == Binary(blocks[i])
  {
    seq(|blocks|, i requires 0 <= i < |blocks| => Binary(blocks[i])) + [Text(EofMessage)]
  }

  // ---------------------------------------------------------------------------
  // Backend command line
  // ---------------------------------------------------------------------------

  /** One element of the backend's argument list after the fixed prefix. */
  datatype Arg = Flag(name: string) | Opt(name: string, value: string)

  datatype LaunchSettings = LaunchSettings(
    backendHost: string, backendPort: string, model: string,
    diarization: bool, hfLoggedIn: bool, segmentationModel: string, embeddingModel: string,
    useVac: bool)

  function Strip(s: string): string {
    Trim(s, IsPySpace)
  }

  /** The options `_launch_server` appends after `--host` and `--port`.
      `modelPath` is `get_model_path`, which consults the file system. The
      model directory comes first and `--no-vac` last, each exactly when it
      is given (`DiarizationArgsShape` says what lies between). */
  function BackendOptions(s: LaunchSettings, modelPath: string -> string): (r: seq<Arg>)
    ensures |r| <= 5
    ensures Strip(s.model) != "" <==> (|r| > 0 && r[0] == Opt("--model_dir", modelPath(Strip(s.model))))
    ensures !s.useVac <==> (|r| > 0 && r[|r| - 1] == Flag("--no-vac"))
  {
    var m := ModelArgs(s, modelPath);
    var d := DiarizationArgs(s);
    var v := VacArgs(s);
    DiarizationArgsShape(s);
    var r := m + d + v;
    assert |v| > 0 ==> r[|r| - 1] == v[0];
    r
  }

  /** The diarization part: at most three arguments, none of them the
      model directory or `--no-vac`, and no option with an empty value. */
  lemma {:induction false} DiarizationArgsShape(s: LaunchSettings)
    ensures var d := DiarizationArgs(s);
      |d| <= 3 && forall i :: 0 <= i < |d| ==>
        d[i] != Flag("--no-vac") && (d[i].Opt? ==> d[i].name != "--model_dir" && d[i].value != "")
  {
  }

  predicate HasFlag(args: seq<Arg>, name: string) {
    exists i :: 0 <= i < |args| && args[i] == Flag(name)
  }

  predicate HasOpt(args: seq<Arg>, name: string) {
    exists i :: 0 <= i < |args| && args[i].Opt? && args[i].name == name
  }

  lemma {:induction false} HasFlagConcat(a: seq<Arg>, b: seq<Arg>, name: string)
    ensures HasFlag(a + b, name) <==> HasFlag(a, name) || HasFlag(b, name)
  {
    if HasFlag(a, name) {
      var i :| 0 <= i < |a| && a[i] == Flag(name);
      assert (a + b)[i] == a[i];
    }
    if HasFlag(b, name) {
      var i :| 0 <= i < |b| && b[i] == Flag(name);
      assert (a + b)[|a| + i] == b[i];
    }
    if HasFlag(a + b, name) {
      var i :| 0 <= i < |a + b| && (a + b)[i] == Flag(name);
      if i >= |a| {
        assert b[i - |a|] == (a + b)[i];
      } else {
        assert a[i] == (a + b)[i];
      }
    }
  }

  lemma {:induction false} HasOptConcat(a: seq<Arg>, b: seq<Arg>, name: string)
    ensures HasOpt(a + b, name) <==> HasOpt(a, name) || HasOpt(b, name)
  {
    if HasOpt(a, name) {
      var i :| 0 <= i < |a| && a[i].Opt? && a[i].name == name;
      assert (a + b)[i] == a[i];
    }
    if HasOpt(b, name) {
      var i :| 0 <= i < |b| && b[i].Opt? && b[i].name == name;
      assert (a + b)[|a| + i] == b[i];
    }
    if HasOpt(a + b, name) {
      var i :| 0 <= i < |a + b| && (a + b)[i].Opt? && (a + b)[i].name == name;
      if i >= |a| {
        assert b[i - |a|] == (a + b)[i];
      } else {
        assert a[i] == (a + b)[i];
      }
    }
  }

  function ModelArgs(s: LaunchSettings, modelPath: string -> string): seq<Arg> {
    var model := Strip(s.model);
    if model != "" then [Opt("--model_dir", modelPath(model))] else []
  }

  function DiarizationArgs(s: LaunchSettings): seq<Arg> {
    var seg := Strip(s.segmentationModel);
    var emb := Strip(s.embeddingModel);
    if s.diarization && s.hfLoggedIn then
      [Flag("--diarization")]
      + (if seg != "" then [Opt("--segmentation-model", seg)] else [])
      + (if emb != "" then [Opt("--embedding-model", emb)] else [])
    else []
  }

  function VacArgs(s: LaunchSettings): seq<Arg> {
    if !s.useVac then [Flag("--no-vac")] else []
  }

  lemma {:induction false} BackendOptionsParts(s: LaunchSettings, modelPath: string -> string, name: string)
    ensures var args := BackendOptions(s, modelPath);
      && (HasFlag(args, name) <==> HasFlag(ModelArgs(s, modelPath), name) || HasFlag(DiarizationArgs(s), name) || HasFlag(VacArgs(s), name))
      && (HasOpt(args, name) <==> HasOpt(ModelArgs(s, modelPath), name) || HasOpt(DiarizationArgs(s), name) || HasOpt(VacArgs(s), name))
  {
    var m := ModelArgs(s, modelPath);
    var d := DiarizationArgs(s);
    var v := VacArgs(s);
    assert BackendOptions(s, modelPath) == m + d + v;
    HasFlagConcat(m + d, v, name);
    HasFlagConcat(m, d, name);
    HasOptConcat(m + d, v, name);
    HasOptConcat(m, d, name);
  }

  /** `--model_dir` appears exactly for a non-blank model and `--no-vac`
      exactly when VAC is off. */
  lemma {:induction false} ModelAndVacGating(s: LaunchSettings, modelPath: string -> string)
    ensures HasOpt(BackendOptions(s, modelPath), "--model_dir") <==> Strip(s.model) != ""
    ensures HasFlag(BackendOptions(s, modelPath), "--no-vac") <==> !s.useVac
  {
    BackendOptionsParts(s, modelPath, "--model_dir");
    BackendOptionsParts(s, modelPath, "--no-vac");
    var d := DiarizationArgs(s);
    var seg := Strip(s.segmentationModel);
    var emb := Strip(s.embeddingModel);
    assert forall i :: 0 <= i < |d| ==> d[i].name != "--model_dir" && d[i].name != "--no-vac";
    if Strip(s.model) != "" {
      assert ModelArgs(s, modelPath)[0].name == "--model_dir";
    }
    if !s.useVac {
      assert VacArgs(s)[0] == Flag("--no-vac");
    }
  }

  /** `--diarization`, and a non-blank segmentation or embedding model option,
      appear only when diarization is on and the Hugging Face login is valid. */
  lemma {:induction false} DiarizationGating(s: LaunchSettings, modelPath: string -> string)
    ensures HasFlag(BackendOptions(s, modelPath), "--diarization") <==> s.diarization && s.hfLoggedIn
    ensures HasOpt(BackendOptions(s, modelPath), "--segmentation-model") <==>
      s.diarization && s.hfLoggedIn && Strip(s.segmentationModel) != ""
    ensures HasOpt(BackendOptions(s, modelPath), "--embedding-model") <==>
      s.diarization && s.hfLoggedIn && Strip(s.embeddingModel) != ""
  {
    BackendOptionsParts(s, modelPath, "--diarization");
    BackendOptionsParts(s, modelPath, "--segmentation-model");
    BackendOptionsParts(s, modelPath, "--embedding-model");
    DiarizationArgsGating(s);
  }

  /** The diarization part alone: the flag needs the switch and a login,
      and each sub-option also a non-blank value. */
  lemma {:induction false} DiarizationArgsGating(s: LaunchSettings)
    ensures HasFlag(DiarizationArgs(s), "--diarization") <==> s.diarization && s.hfLoggedIn
    ensures HasOpt(DiarizationArgs(s), "--segmentation-model") <==>
      s.diarization && s.hfLoggedIn && Strip(s.segmentationModel) != ""
    ensures HasOpt(DiarizationArgs(s), "--embedding-model") <==>
      s.diarization && s.hfLoggedIn && Strip(s.embeddingModel) != ""
  {
    var d := DiarizationArgs(s);
    var seg := Strip(s.segmentationModel);
    var emb := Strip(s.embeddingModel);
    if s.diarization && s.hfLoggedIn {
      var segArgs := if seg != "" then [Opt("--segmentation-model", seg)] else [];
      var embArgs := if emb != "" then [Opt("--embedding-model", emb)] else [];
      assert d == [Flag("--diarization")] + segArgs + embArgs;
      assert d[0] == Flag("--diarization");
      if seg != "" {
        assert d[1] == Opt("--segmentation-model", seg);
      }
      if emb != "" {
        assert d[|d| - 1] == Opt("--embedding-model", emb);
      }
      assert forall i :: 0 <= i < |d| ==>
        (d[i].name == "--segmentation-model" ==> seg != "") && (d[i].name == "--embedding-model" ==> emb != "");
    }
  }


  function RenderArgs(args: seq<Arg>): seq<string>
    decreases |args|
  {
    if |args| == 0 then []
    else
      (match args[0] case Flag(n) => [n] case Opt(n, v) => [n, v]) + RenderArgs(args[1..])
  }

  /** The full backend command: interpreter, module, host, port, then the options. */
  function BackendCommand(python: string, s: LaunchSettings, modelPath: string -> string): (r: seq<string>)
    ensures |r| >= 7 && r[..7] == [python, "-m", "whisperlivekit.basic_server", "--host", s.backendHost, "--port", s.backendPort]
  {
    [python, "-m", "whisperlivekit.basic_server", "--host", s.backendHost, "--port", s.backendPort]
    + RenderArgs(BackendOptions(s, modelPath))
  }

  // ---------------------------------------------------------------------------
  // Diarization gate
  // ---------------------------------------------------------------------------

  datatype Gate = Gate(diarization: bool, hfLoggedIn: bool, status: string)

  /** What can change the gate: the user ticking the checkbox, or a login check finishing. */
  datatype GateEvent = ClickDiarization | LoginChecked(loggedIn: bool)

  /** `_on_diarization_toggle`, run after the checkbox has flipped. */
  function OnDiarizationToggle(g: Gate): (r: Gate)
    ensures r.diarization ==> r.hfLoggedIn
    ensures r.hfLoggedIn == g.hfLoggedIn
    ensures g.hfLoggedIn ==> r == g
  {
    if g.diarization && !g.hfLoggedIn then g.(diarization := false, status := "Diarization requires Hugging Face login")
    else g
  }

  /** Setting the login state followed by `_apply_hf_login_state`. */
  function ApplyHfLoginState(g: Gate, loggedIn: bool): (r: Gate)
    ensures r.hfLoggedIn == loggedIn
    ensures r.diarization ==> r.hfLoggedIn
    ensures loggedIn ==> r.diarization == g.diarization
  {
    var g1 := g.(hfLoggedIn := loggedIn);
    if !g1.hfLoggedIn && g1.diarization then g1.(diarization := false) else g1
  }

  function Step(g: Gate, e: GateEvent): Gate {
    match e
    case ClickDiarization => OnDiarizationToggle(g.(diarization := !g.diarization))
    case LoginChecked(b) => ApplyHfLoginState(g, b)
  }

  function Run(g: Gate, events: seq<GateEvent>): Gate
    decreases |events|
  {
    if |events| == 0 then g else Run(Step(g, events[0]), events[1..])
  }

  /** After any event, diarization is on only with a valid login, whatever the
      starting state (the environment may ask for diarization before any
      login check). */
  lemma {:induction false} DiarizationNeedsLogin(g: Gate, events: seq<GateEvent>)
    requires |events| > 0 || (g.diarization ==> g.hfLoggedIn)
    ensures Run(g, events).diarization ==> Run(g, events).hfLoggedIn
    decreases |events|
  {
    if |events| > 0 {
      DiarizationNeedsLogin(Step(g, events[0]), events[1..]);
    }
  }

  /** With a valid login, two clicks bring the checkbox back to where it was. */
  lemma {:induction false} ClickTwiceLoggedIn(g: Gate)
    requires g.hfLoggedIn
    ensures Step(Step(g, ClickDiarization), ClickDiarization) == g
  {
  }
}
